=== FILE: README.md ===
# Payment decisioning core, modelled in Dafny

This project models the decisioning core of the payment-analysis backend. The
backend answers three kinds of payment decisions: authentication, retry and
routing. Each decision is built from a data-driven configuration snapshot that
is cached for 60 seconds. The snapshot holds tunable parameters, retryable
decline codes and route scores. ML enrichment results are merged into the
decision context. Operator-maintained approval rules can override the reason
of a decision. Each decision is logged, and outcomes are recorded.

Around that core the project also models:

- The A/B experiment layer: deterministic enrollment by the parity of a
  SHA-256 byte, the start, stop and assign endpoints, and the two-proportion
  results analysis.
- The operator workflows: review of agent-proposed configuration changes, and
  approval-rule CRUD across the Lakebase (Postgres) and Lakehouse stores.
- The small helpers: host and token derivation, database configuration, the
  notebook registry, and the script that checks dependency pins across
  `pyproject.toml`, `uv.lock` and `requirements.txt`.

The model is functional. Each store is an immutable map or sequence. Each
endpoint is a pure function from the store before to a result and the store
after. The clock is an integer parameter. Whatever the code calls but does not
define is a function parameter, never a body-less declaration. That covers:

- `float()` and `int()` string parsing;
- SHA-256;
- `evaluate_condition`;
- the pure policies `decide_*`;
- `urlparse` and `urlunparse`;
- the workspace-URL helpers;
- the normal CDF behind the p-value.

One module per source area:

| module | file | models |
|---|---|---|
| Wrappers, Strings, Sorting, Folds | wrappers.dfy, strings.dfy, sorting.dfy, folds.dfy | Option/Result, ASCII `strip`/`lower`/`split`, a stable sort on lexicographic keys, filters |
| Entities | entities.dfy | the table entities and their column defaults |
| Params, DeclineCodes, Routes | params.dfy, decline_codes.dfy, routes.dfy | building the configuration snapshot |
| TtlCache | ttl_cache.dfy | the 60-second snapshot cache and its loaders |
| RuleMatching | rule_matching.dfy | rule loading, evaluation and the override of `decide_*` |
| Enrichment | enrichment.dfy | the ML feature dict and the merges into the decision context |
| DecisionRoute | decision_route.dfy | variant assignment, `_with_ab`, the engine fallback and outcomes |
| Experiments | experiments.dfy | the experiments endpoints and the results analysis |
| ConfigProposals | config_proposals.dfy | the proposal review state machine |
| Lakebase, RulesApi | lakebase.dfy, rules_api.dfy | the Lakebase helpers and the rules endpoints |
| Dependencies, Runtime, Notebooks | dependencies.dfy, runtime.dfy, notebooks.dfy | host, token and database helpers, and the notebook registry |
| VersionCheck | version_check.dfy | the three pin parsers, the comparison and the exit status |

## Behaviour of the code worth knowing

- **A failed or empty configuration read stores the defaults** (`engine.py:214-224`).
  It does not keep the previous snapshot. `TtlCache.FailedRefreshStoresDefaults`
  states this.
- **Routes are ranked by approval rate, then latency, then cost**
  (`engine.py:177-180`). Between two routes of equal approval rate, the one with
  the lower latency comes first. `Routes.RankingExample` ranks three concrete
  routes this way.
- **The manual `assign` endpoint inserts unconditionally.** A subject can then
  hold two assignments in one experiment (`Experiments.AssignCanDuplicate`).
  Only enrollment on the decision path keeps one assignment per subject
  (`DecisionRoute.AssignmentKeepsOneEach`).
- **The cross-border flag compares against the stored country.** The issuer
  country is upper-cased, but the configured domestic country is compared as
  stored.
- **A null rule field has its own outcome in `_rule_row_to_out`:**
  - a null name renders as "None";
  - a null `is_active` is false;
  - a null priority makes `int()` raise.
- **A Lakehouse create reads back only one row (`limit=1`).** It therefore often
  answers with the echoed payload.
- **A background mirror to Lakebase does nothing after a Lakehouse write.** It
  runs only when Lakebase is configured, and in that case the Lakehouse path
  was not taken.
- **Deleting a missing rule from Lakebase succeeds.**
- **A non-integer decline-code backoff leaves a proposal "approved" for good.**
  A second review is refused, so it can never be retried.
- **A zero control approval rate gives no lift.** A significant result is then
  reported as "no meaningful difference".
- **Restarting a stopped experiment keeps its old `ended_at`.**
- **A development port of 0 does not configure the database.**
- **An empty package name in `uv.lock` is falsy**, so the version that follows
  it is ignored.
- **The `pyproject.toml` pattern is applied to every line of the file**, not
  only to `project.dependencies`.

## Model

| member | source | states |
|---|---|---|
| Entities.NewExperiment | src/payment_analysis/backend/db_models.py:67-77 | a new experiment is in draft and has neither started nor ended |
| Entities.NewRetryableDeclineCode | src/payment_analysis/backend/db_models.py:129-143 | a new decline code is soft, active and has three attempts; its backoff is 900 s unless one is given |
| Entities.NewRoutePerformance | src/payment_analysis/backend/db_models.py:146-159 | a new route has a 50 % approval rate, 500 ms latency and cost 0.5, and is active |
| Entities.NewDecisionOutcome | src/payment_analysis/backend/db_models.py:162-183 | an outcome keeps the reported fields; `extra` is the empty map when no metadata is given |
| Entities.NewProposal | src/payment_analysis/backend/db_models.py:186-211 | a new proposal is pending and unreviewed; its confidence is 0.5 unless given |
| Entities.AuditId | src/payment_analysis/backend/db_models.py:56 | an audit id is 32 hexadecimal digits |
| Entities.HexRoundTrip | src/payment_analysis/backend/db_models.py:56 | reading the hex digits back gives the 128-bit number drawn |
| Entities.AuditIdInjective | src/payment_analysis/backend/db_models.py:56 | distinct draws give distinct audit ids |
| Entities.AppendDecisionLog | src/payment_analysis/backend/db_models.py:48-64 | the unique index accepts a log row exactly when its audit id is new, and then appends it |
| Entities.AppendKeepsUnique | src/payment_analysis/backend/db_models.py:56 | appending keeps audit ids unique across the table |
| Params.Defaults | src/payment_analysis/backend/decisioning/engine.py:66-82 | the default snapshot routes for domestic country "BR", has ML enrichment and the rule engine on, and allows 3 retry attempts for control and 4 for treatment |
| Params.KvEntry | src/payment_analysis/backend/decisioning/engine.py:88-92 | a row counts exactly when its stripped key and value are both non-blank |
| Params.BuildKvNonBlank | src/payment_analysis/backend/decisioning/engine.py:87-92 | every key and value of `kv` is non-blank and comes from some row |
| Params.BuildKvKeys | src/payment_analysis/backend/decisioning/engine.py:87-92 | a key is in `kv` exactly when some non-blank row carries it |
| Params.BuildKvLastWins | src/payment_analysis/backend/decisioning/engine.py:87-92 | for a repeated key the last non-blank row wins |
| Params.BuildKvIgnoresBlank | src/payment_analysis/backend/decisioning/engine.py:88-92 | a row with a blank key or value changes nothing |
| Params.Trunc | src/payment_analysis/backend/decisioning/engine.py:102 | `int()` of a float truncates toward zero |
| Params.FloatField | src/payment_analysis/backend/decisioning/engine.py:94-98 | the parsed float, or the default when the key is absent or the value is unparsable |
| Params.IntFieldAsWritten | src/payment_analysis/backend/decisioning/engine.py:100-104 | `int(float(v))` as written: NaN falls back to the default, but an infinity raises past the handler |
| Params.IntField | src/payment_analysis/backend/decisioning/engine.py:100-104 | the truncated value of a finite float, else the default |
| Params.BoolField | src/payment_analysis/backend/decisioning/engine.py:106-108 | true exactly when the lower-cased value is "true", "1" or "yes"; an absent key gives the default |
| Params.StrField | src/payment_analysis/backend/decisioning/engine.py:120 | the stored value, or the default when absent |
| Params.FromKvAsWritten | src/payment_analysis/backend/decisioning/engine.py:110-124 | the as-written snapshot fails exactly when some integer field holds an infinity |
| Params.FromKv | src/payment_analysis/backend/decisioning/engine.py:110-124 | each of the thirteen fields is read from its own key: the three thresholds as floats, the seven integers by the corrected reader with their own defaults (3, 4, 900, 300, 60, 1800, 2000), the domestic country as a string and the two switches as booleans; a bad integer falls back to its own default and leaves the other fields alone |
| Params.NoRowsGiveDefaults | src/payment_analysis/backend/decisioning/engine.py:85-124 | no rows give exactly the defaults |
| Params.AsWrittenAgreesWhenOk | src/payment_analysis/backend/decisioning/engine.py:85-124 | where the as-written fold succeeds it equals the corrected one |
| Params.InfiniteIntLosesOtherFields | src/payment_analysis/backend/decisioning/engine.py:100-104 | "inf" in one integer field makes the as-written fold raise; the corrected fold keeps the valid 0.9 threshold |
| DeclineCodes.NormalizeCode | src/payment_analysis/backend/decisioning/engine.py:143 | the lookup key has no upper-case letters and is no longer than the code |
| DeclineCodes.CodeEntry | src/payment_analysis/backend/decisioning/engine.py:142-151 | a blank code is skipped; otherwise the entry's code is its key, and the category, backoff and attempts default to soft, 900 and 3 |
| DeclineCodes.DeclineCodesMapEntries | src/payment_analysis/backend/decisioning/engine.py:139-152 | every key is a non-empty normalised code, equal to its entry's code, and comes from some row |
| DeclineCodes.DeclineCodesMapKeys | src/payment_analysis/backend/decisioning/engine.py:139-152 | a code is a key exactly when some non-blank row normalises to it |
| DeclineCodes.DeclineCodesMapLastWins | src/payment_analysis/backend/decisioning/engine.py:139-152 | for duplicate codes, after normalisation, the last row wins |
| Routes.ToScore | src/payment_analysis/backend/decisioning/engine.py:171-176 | missing columns default to "", 50 %, 500 ms and cost 0.5; a present name, rate, latency or cost is kept as given |
| Routes.ToScores | src/payment_analysis/backend/decisioning/engine.py:170-176 | one score per row, in row order |
| Routes.RankKeyOrder | src/payment_analysis/backend/decisioning/engine.py:177-180 | the lexicographic key order is exactly: higher approval, then lower latency, then lower cost |
| Routes.RouteScoresList | src/payment_analysis/backend/decisioning/engine.py:167-181 | the result is a permutation of the rows, ranked no-worse-first, and stable on full ties |
| Routes.RankingExample | src/payment_analysis/backend/decisioning/engine.py:177-180 | routes A, B, C with A and B tied on approval come out B, A, C |
| TtlCache.Empty | src/payment_analysis/backend/decisioning/engine.py:42-45 | a fresh entry holds no snapshot |
| TtlCache.Read | src/payment_analysis/backend/decisioning/engine.py:206-224 | a fresh, non-empty entry is served unchanged; otherwise the rebuilt snapshot is stored with the current time |
| TtlCache.ReadIsFreshForTtl | src/payment_analysis/backend/decisioning/engine.py:47-49 | after a load the entry serves for exactly 60 seconds |
| TtlCache.ReadTwiceWithinTtl | src/payment_analysis/backend/decisioning/engine.py:206-224 | two loads within the TTL return the same snapshot, whatever the store holds the second time |
| TtlCache.StaleBoundary | src/payment_analysis/backend/decisioning/engine.py:47-49 | an entry 60 seconds old is fresh; one 61 seconds old is stale |
| TtlCache.ConfigRows | src/payment_analysis/backend/decisioning/engine.py:214-219 | no runtime, or a read that raises, gives no rows |
| TtlCache.RebuildConfig | src/payment_analysis/backend/decisioning/engine.py:221 | no rows give the defaults; otherwise the fold of the rows |
| TtlCache.LoadConfig | src/payment_analysis/backend/decisioning/engine.py:203-224 | `_load_config`, corrected: serve when fresh, else store the rebuilt snapshot at `now` |
| TtlCache.FailedRefreshStoresDefaults | src/payment_analysis/backend/decisioning/engine.py:214-224 | a failed read stores the defaults and drops the stale snapshot |
| TtlCache.LoadConfigAsWritten | src/payment_analysis/backend/decisioning/engine.py:203-224 | as written: a fold that raises escapes the loader and leaves the entry untouched |
| TtlCache.OverflowNeverRefreshes | src/payment_analysis/backend/decisioning/engine.py:203-224 | with an infinite integer stored, every as-written miss raises again; the corrected loader stores and serves a snapshot |
| TtlCache.LoadConfigAgreesWhenOk | src/payment_analysis/backend/decisioning/engine.py:203-224 | where the as-written loader returns, it agrees with the corrected one |
| TtlCache.LoadOrFallback | src/payment_analysis/backend/decisioning/engine.py:262-281 | on a miss, the store's snapshot when read, else the fallback, stored at `now` |
| TtlCache.LoadDeclineCodes | src/payment_analysis/backend/decisioning/engine.py:226-242 | on a miss, the decline-code map of the rows, or the empty map |
| TtlCache.LoadRoutes | src/payment_analysis/backend/decisioning/engine.py:244-260 | on a miss, the ranked routes, or the empty list |
| RuleMatching.TypeName | src/payment_analysis/backend/decisioning/engine.py:593 | each decision type names its rules by a non-empty type |
| RuleMatching.ReadRules | src/payment_analysis/backend/decisioning/engine.py:269-278 | the active rules from Lakebase with limit 200, or nothing when the read fails |
| RuleMatching.OfType | src/payment_analysis/backend/decisioning/engine.py:282-283 | exactly the rules of the type, each as many times as the cache holds it, and no other rule |
| RuleMatching.OfTypeKeepsOrder | src/payment_analysis/backend/decisioning/engine.py:282-283 | the comprehension keeps the cached order of the rules it keeps |
| RuleMatching.LoadRules | src/payment_analysis/backend/decisioning/engine.py:262-284 | the cached list, refreshed to [] on a failed read, narrowed to the type when one is given |
| RuleMatching.EvaluateRules | src/payment_analysis/backend/decisioning/engine.py:524-540 | exactly the rules whose condition holds, each as many times as it was loaded; a raising condition is skipped |
| RuleMatching.EvaluateRulesKeepsOrder | src/payment_analysis/backend/decisioning/engine.py:531-540 | the matches keep the loaded order |
| RuleMatching.FirstMatchIsFirstHolding | src/payment_analysis/backend/decisioning/engine.py:531-540 | the first match is the first loaded rule of the type whose condition holds |
| RuleMatching.NoMatchIffNoneHolds | src/payment_analysis/backend/decisioning/engine.py:531-540 | there is no match exactly when no rule of the type holds |
| RuleMatching.RuleReason | src/payment_analysis/backend/decisioning/engine.py:596 | the reason reads "[Rule: name] action_summary" |
| RuleMatching.Provenance | src/payment_analysis/backend/decisioning/engine.py:597-601 | authentication provenance adds exactly `matched_rule_id` and `matched_rule_name` |
| RuleMatching.Override | src/payment_analysis/backend/decisioning/engine.py:591-601 | only with the engine enabled and a match: the first match rewrites the reason, authentication also gets provenance, and nothing else changes |
| RuleMatching.OverrideKeepsMetadata | src/payment_analysis/backend/decisioning/engine.py:597-601 | earlier metadata survives an override except the two provenance keys |
| RuleMatching.ApplyRules | src/payment_analysis/backend/decisioning/engine.py:590-601 | a disabled engine loads no rules; otherwise load, evaluate, then override |
| RuleMatching.ApplyRulesPicksFirstHolding | src/payment_analysis/backend/decisioning/engine.py:590-601 | end to end, the reason comes from the first holding rule of the type; with none the decision is unchanged |
| Enrichment.Prefixed | src/payment_analysis/backend/decisioning/engine.py:559 | every key gets the prefix, and nothing else is present |
| Enrichment.PrefixedOrigin | src/payment_analysis/backend/decisioning/engine.py:559 | stripping the prefix gives back the original key and value |
| Enrichment.MergePrefixed | src/payment_analysis/backend/decisioning/engine.py:557-559 | the merged keys are the old ones plus the prefixed ones; unprefixed old entries are kept |
| Enrichment.MergePrefixedOrigin | src/payment_analysis/backend/decisioning/engine.py:557-559 | a merged key was there before, or it is the prefixed key of a merged entry |
| Enrichment.NetworkCode | src/payment_analysis/backend/decisioning/engine.py:456-473 | codes lie in 0..5, and 5 means exactly "not a known network" |
| Enrichment.NetworkCodeInjective | src/payment_analysis/backend/decisioning/engine.py:456 | the five known networks get distinct codes |
| Enrichment.CardNetwork | src/payment_analysis/backend/decisioning/engine.py:455 | a missing or empty network counts as visa; otherwise it is lower-cased |
| Enrichment.OrDefault | src/payment_analysis/backend/decisioning/engine.py:452 | Python's `x or d` on a float: a missing or zero value gives the default |
| Enrichment.BuildMlFeatures | src/payment_analysis/backend/decisioning/engine.py:441-475 | the amount in major units, the defaulted scores, the cross-border and weekend flags, and the network code (a missing network gives 0) |
| Enrichment.CrossBorderCases | src/payment_analysis/backend/decisioning/engine.py:462 | a domestic card is never cross-border and a foreign one always is; a missing or empty country never is |
| Enrichment.TruthyNum | src/payment_analysis/backend/decisioning/engine.py:513 | a zero ML risk score is stored in metadata as null |
| Enrichment.EnrichWithMl | src/payment_analysis/backend/decisioning/engine.py:477-520 | with the calls skipped the context is unchanged; a risk answer writes ml_risk_score (null for zero) and ml_risk_tier, an approval answer with a probability writes ml_approval_probability and ml_model_version, and a missing answer leaves its keys as they were; a risk score fills `risk_score` only when it was absent; no key is removed and only those four change |
| Enrichment.RetryDelay | src/payment_analysis/backend/decisioning/engine.py:655-657 | the first delay when present and non-zero, else the suggested one |
| Enrichment.MergeRetryAnswer | src/payment_analysis/backend/decisioning/engine.py:645-658 | an answer with a success probability writes that probability, its should-retry flag and model version, and the retry delay when one is known; without a delay the old delay key stays; no key is removed and nothing else changes |
| Enrichment.MergeRetryIdempotent | src/payment_analysis/backend/decisioning/engine.py:645-658 | merging the same retry answer twice is the same as merging it once |
| Enrichment.MergeRoutingAnswer | src/payment_analysis/backend/decisioning/engine.py:721-730 | a non-empty recommended route writes the route, its confidence and the alternatives, adding exactly those three keys; any other answer leaves the metadata as it was; every other key keeps its value |
| Enrichment.MergeRoutingIdempotent | src/payment_analysis/backend/decisioning/engine.py:721-730 | merging the same routing answer twice is the same as merging it once |
| Enrichment.EnrichAuthentication | src/payment_analysis/backend/decisioning/engine.py:557-577 | every field but the metadata is the ML merge's; the metadata holds exactly the ML keys plus the "vs_", agent_ and "stream_" keys, with the similar-transaction, recommendation and streaming values, and an ML key none of these overwrites keeps its ML value |
| Enrichment.WithRecommendation | src/payment_analysis/backend/decisioning/engine.py:562-571 | the top recommendation adds exactly the three agent_ keys, holding its action summary, confidence and expected impact; other keys keep their values |
| Enrichment.MlFeatures | src/payment_analysis/backend/decisioning/engine.py:583 | exactly the "ml_" entries, with their values |
| Enrichment.AuthenticationFeaturesComeFromMl | src/payment_analysis/backend/decisioning/engine.py:583-588 | every feature written came with the caller's metadata or from the ML merge; never from similarity, recommendation or streaming |
| Enrichment.MlFeaturesIgnorePrefixed | src/payment_analysis/backend/decisioning/engine.py:557-577 | a "vs_" or "stream_" merge leaves the ml_ entries alone |
| Enrichment.MlFeaturesIgnoreRecommendation | src/payment_analysis/backend/decisioning/engine.py:562-571 | the agent_ entries are not ml_ entries |
| DecisionRoute.FindAssignment | src/payment_analysis/backend/routes/decision.py:49-53 | the first assignment row of the experiment and subject, or none when there is none |
| DecisionRoute.VariantOf | src/payment_analysis/backend/routes/decision.py:59 | "treatment" exactly when the digest's last byte is odd, else "control" |
| DecisionRoute.GetOrAssignVariant | src/payment_analysis/backend/routes/decision.py:41-68 | no experiment or subject gives None with no write; otherwise the store grows by at most the hash-derived assignment |
| DecisionRoute.ExistingAssignmentReturned | src/payment_analysis/backend/routes/decision.py:49-55 | an existing assignment is returned verbatim and nothing is written |
| DecisionRoute.NonAssignableWritesNothing | src/payment_analysis/backend/routes/decision.py:56-58 | a missing or non-running, non-draft experiment gives None and no write |
| DecisionRoute.AssignmentIdempotent | src/payment_analysis/backend/routes/decision.py:41-68 | a repeat call returns the same variant and writes nothing |
| DecisionRoute.EnrollmentDependsOnlyOnKey | src/payment_analysis/backend/routes/decision.py:59 | a new enrollment's variant depends on the subject key alone |
| DecisionRoute.AssignmentKeepsOneEach | src/payment_analysis/backend/routes/decision.py:47-68 | the decision path never gives a subject two assignments in one experiment |
| DecisionRoute.WithAb | src/payment_analysis/backend/routes/decision.py:71-78 | the dump plus `experiment_id` and `variant`, each only when given; nothing else changes |
| DecisionRoute.WithAbNothingToAdd | src/payment_analysis/backend/routes/decision.py:71-78 | with neither field given, the response is the dump |
| DecisionRoute.SubjectKey | src/payment_analysis/backend/routes/decision.py:141 | the subject key, or else the merchant id |
| DecisionRoute.EngineDecide | src/payment_analysis/backend/routes/decision.py:141-176 | the variant defaults to "control"; the engine's decision, or the policy's when the engine raises; the log row carries the decision's audit id and the A/B response; a reused audit id fails the log commit, while the enrollment committed before it stays |
| DecisionRoute.FallbackUsesPolicy | src/payment_analysis/backend/routes/decision.py:156-175 | when the engine raises, the answer is the policy's for the same variant, and it is logged |
| DecisionRoute.EngineRecordOutcome | src/payment_analysis/backend/decisioning/engine.py:828-859 | true, with the outcome appended, exactly when there is a session and the commit succeeds |
| DecisionRoute.RecordOutcomeRoute | src/payment_analysis/backend/routes/decision.py:291-307 | `accepted` mirrors the engine's answer, with the "recorded" message when accepted and the "could not persist" message when the engine refuses; an exception becomes accepted=false with its text and is never raised |
| DecisionRoute.RecordOutcomeRouteAppendsOnly | src/payment_analysis/backend/routes/decision.py:291-307 | the route never alters reported outcomes, and adds exactly one exactly when the outcome is accepted |
| Experiments.ListExperiments | src/payment_analysis/backend/routes/experiments.py:38-47 | a limit outside [1, 200] is 422; otherwise exactly min(limit, experiments) experiments, none more often than stored, newest first, and no omitted experiment is newer than a returned one |
| Experiments.AssignmentsOf | src/payment_analysis/backend/routes/experiments.py:108-110 | a row is kept exactly when it belongs to the experiment, as many times as the table holds it |
| Experiments.ListAssignments | src/payment_analysis/backend/routes/experiments.py:99-114 | exactly min(clamped limit, rows of the experiment) rows, the limit clamped to [1, 500]; each a row of the experiment and none more often than the table holds it, newest first, and no omitted row of the experiment is newer than a returned one |
| Experiments.ListAssignmentsLimitPrefix | src/payment_analysis/backend/routes/experiments.py:99-114 | a smaller limit returns a prefix of what a larger one returns |
| Experiments.CreateExperiment | src/payment_analysis/backend/routes/experiments.py:29-35 | an empty name is 422; otherwise a draft experiment is stored under its id |
| Experiments.CreatedExperimentUsable | src/payment_analysis/backend/routes/experiments.py:29-97 | a created experiment can be started, which records the start time, and accepts assignments |
| Experiments.StartExperiment | src/payment_analysis/backend/routes/experiments.py:50-60 | an unknown id is 404; otherwise status is running, and an existing `started_at` is kept |
| Experiments.StopExperiment | src/payment_analysis/backend/routes/experiments.py:63-73 | an unknown id is 404; otherwise status is stopped and `ended_at` is now |
| Experiments.RestartKeepsFirstStartAndEnd | src/payment_analysis/backend/routes/experiments.py:50-73 | start, stop, start: running, with the first start time and the stop's end time |
| Experiments.StartIdempotent | src/payment_analysis/backend/routes/experiments.py:50-60 | starting twice is starting once |
| Experiments.Assign | src/payment_analysis/backend/routes/experiments.py:76-96 | empty fields are 422, an unknown experiment 404, one not running or in draft 400; otherwise the row is appended as given |
| Experiments.AssignCanDuplicate | src/payment_analysis/backend/routes/experiments.py:87-96 | assigning an enrolled subject breaks the one-assignment-per-subject invariant |
| Experiments.FindAssignmentInPrefix | src/payment_analysis/backend/routes/decision.py:49-55 | appending rows never changes which assignment is found first |
| Experiments.Subjects | src/payment_analysis/backend/routes/experiments.py:160-163 | exactly the distinct subjects assigned to the variant |
| Experiments.AverageLatency | src/payment_analysis/backend/routes/experiments.py:200-203 | none exactly when no outcome has a truthy latency |
| Experiments.AverageLatencyWithinBounds | src/payment_analysis/backend/routes/experiments.py:200-203 | the average lies between the bounds of the latencies it averages |
| Experiments.NoLatencyIffZeroCount | src/payment_analysis/backend/routes/experiments.py:200-203 | the latency count is 0 exactly when no outcome has a truthy latency |
| Experiments.OutcomesOf | src/payment_analysis/backend/routes/experiments.py:185-190 | exactly the outcomes whose audit id belongs to the variant's decisions, each as many times as it was recorded |
| Experiments.OutcomesOfAppend | src/payment_analysis/backend/routes/experiments.py:185-190 | an outcome recorded later is added at the end exactly when its audit id is one of the decisions' |
| Experiments.ApprovedCount | src/payment_analysis/backend/routes/experiments.py:196 | at most the number of outcomes, and equal exactly when all were approved |
| Experiments.ApprovalRate | src/payment_analysis/backend/routes/experiments.py:199 | defined exactly when there are outcomes; lies in [0, 1] and times the total gives the approved count |
| Experiments.Stats | src/payment_analysis/backend/routes/experiments.py:175-204 | the variant, its subject count and logged decisions; the outcomes counted are those of its decisions, with the approved among them and their mean latency; approved at most outcomes, rate in [0, 1] |
| Experiments.RecordedOutcomeCounted | src/payment_analysis/backend/routes/experiments.py:175-204 | an outcome the engine records for a decision logged under the variant adds one to its outcomes, and one to its approvals when approved; any other call changes neither |
| Experiments.VariantStatsOf | src/payment_analysis/backend/routes/experiments.py:175-204 | no stats exactly when the variant has no subjects |
| Experiments.Lift | src/payment_analysis/backend/routes/experiments.py:242-243 | defined exactly when the control rate is positive; positive exactly when treatment beats control; lift × c = (t − c) × 100 |
| Experiments.PooledBetweenRates | src/payment_analysis/backend/routes/experiments.py:246-248 | the pooled rate lies between the two variant rates, and strictly inside (0, 1) exactly when approvals are neither none nor all |
| Experiments.Test | src/payment_analysis/backend/routes/experiments.py:242-253 | a p-value exists exactly when 0 < pooled < 1; significant exactly when p < 0.05 |
| Experiments.SignificantRecommendation | src/payment_analysis/backend/routes/experiments.py:255-261 | positive lift graduates the treatment, negative keeps the control, otherwise no meaningful difference |
| Experiments.Analyse | src/payment_analysis/backend/routes/experiments.py:233-264 | corrected: no analysis unless comparable; significant picks by lift; not significant asks for 2·max(100, n) outcomes |
| Experiments.AnalyseAsWritten | src/payment_analysis/backend/routes/experiments.py:233-264 | as written: a non-comparable pair gives no analysis; a failure is a 500 |
| Experiments.AsWrittenFailsIffNotYetSignificant | src/payment_analysis/backend/routes/experiments.py:262-264 | as written it fails exactly in the not-yet-significant branch, and otherwise agrees with the corrected analysis |
| Experiments.AllApprovedFailsAsWritten | src/payment_analysis/backend/routes/experiments.py:246-264 | all outcomes approved leaves no p-value, and the as-written analysis then fails |
| Experiments.ZeroControlRateNeverGraduates | src/payment_analysis/backend/routes/experiments.py:242-261 | a zero control rate gives no lift and never graduates the treatment |
| Experiments.BareResults | src/payment_analysis/backend/routes/experiments.py:166-172 | no subjects: no stats and no analysis |
| Experiments.Results | src/payment_analysis/backend/routes/experiments.py:139-276 | corrected: 404 for an unknown id; stats per variant; the analysis of those stats |
| Experiments.ResultsAsWritten | src/payment_analysis/backend/routes/experiments.py:139-276 | as written: 404 for an unknown id; where it answers, it agrees with the corrected results |
| Experiments.ResultsAsWrittenFailsIff | src/payment_analysis/backend/routes/experiments.py:262-264 | the endpoint answers 500 exactly when the corrected results recommend waiting |
| Experiments.IgnoredAssignmentsLeaveResults | src/payment_analysis/backend/routes/experiments.py:160-163 | assignments to other variants, and repeats of a counted subject, leave the results unchanged |
| Experiments.SubjectsAfterIgnored | src/payment_analysis/backend/routes/experiments.py:160-163 | an ignored assignment leaves every variant's subjects unchanged |
| ConfigProposals.AlreadyReviewed | src/payment_analysis/backend/routes/config_proposals.py:77-78 | a reviewed proposal is refused with 400 |
| ConfigProposals.CreateProposal | src/payment_analysis/backend/routes/config_proposals.py:54-69 | an invalid body is 422; otherwise a pending proposal with confidence in [0, 1], 0.5 by default |
| ConfigProposals.CreatedProposalReviewable | src/payment_analysis/backend/routes/config_proposals.py:54-87 | a created proposal passes the review's 404 and 400 gates: the review succeeds exactly for approve or reject, else 422 |
| ConfigProposals.Selected | src/payment_analysis/backend/routes/config_proposals.py:46-49 | a proposal is kept exactly when no status is given or its status matches, as many times as stored |
| ConfigProposals.ListProposals | src/payment_analysis/backend/routes/config_proposals.py:41-51 | a limit outside [1, 200] is 422; otherwise exactly min(limit, matching proposals) of the proposals matching the status, none more often than stored, newest first, and no omitted matching proposal is newer than a returned one |
| ConfigProposals.ListProposalsLimitPrefix | src/payment_analysis/backend/routes/config_proposals.py:41-51 | a smaller valid limit returns a prefix of what a larger one returns |
| ConfigProposals.Prefix | src/payment_analysis/backend/routes/config_proposals.py:115 | `s[:n]` is a prefix of at most n characters, and all of `s` when it is short enough |
| ConfigProposals.AppliedDescription | src/payment_analysis/backend/routes/config_proposals.py:115 | the description is the fixed text then at most 200 characters of the rationale |
| ConfigProposals.AgentLabel | src/payment_analysis/backend/routes/config_proposals.py:125 | the label is "Agent-proposed: " then the code |
| ConfigProposals.ApplyDecisionConfig | src/payment_analysis/backend/routes/config_proposals.py:106-116 | an upsert of the target key; other keys are untouched |
| ConfigProposals.ApplyDeclineCode | src/payment_analysis/backend/routes/config_proposals.py:117-127 | fails exactly on a non-integer value; an existing code gets only its backoff changed, a new one the agent label |
| ConfigProposals.ApplyRoutePerformance | src/payment_analysis/backend/routes/config_proposals.py:128-132 | only an existing route is updated, never inserted; the value is read only then |
| ConfigProposals.ApplyConfigChange | src/payment_analysis/backend/routes/config_proposals.py:104-134 | dispatch by change type; an unknown type changes nothing and succeeds |
| ConfigProposals.ApplyTouchesOnlyTarget | src/payment_analysis/backend/routes/config_proposals.py:104-134 | applying touches at most the target key of one table |
| ConfigProposals.Review | src/payment_analysis/backend/routes/config_proposals.py:72-101 | 404 unknown, 400 not pending, 422 bad action; reject gives rejected, approve gives applied or, when applying fails, approved |
| ConfigProposals.ReviewIsFinal | src/payment_analysis/backend/routes/config_proposals.py:77-78 | a second review is refused with 400 |
| ConfigProposals.ReviewTouchesOneProposal | src/payment_analysis/backend/routes/config_proposals.py:72-101 | every other proposal is unchanged |
| ConfigProposals.UnknownTypeEndsApplied | src/payment_analysis/backend/routes/config_proposals.py:89-93 | an unknown change type still ends "applied", with the tables untouched |
| ConfigProposals.NonIntegerBackoffStaysApproved | src/payment_analysis/backend/routes/config_proposals.py:89-96 | a non-integer backoff stays approved, with the tables untouched |
| ConfigProposals.NormalizedKeeps | src/payment_analysis/backend/routes/config_proposals.py:80 | a lower-case action with no surrounding whitespace is compared as it is |
| Lakebase.SchemaCandidate | src/payment_analysis/backend/lakebase_config.py:18 | a blank or absent name becomes "payment_analysis"; otherwise the stripped name |
| Lakebase.RemoveUnderscoresAlnum | src/payment_analysis/backend/lakebase_config.py:19 | `replace("_", "").isalnum()` holds exactly for a valid schema name |
| Lakebase.DefaultSchemaValid | src/payment_analysis/backend/lakebase_config.py:18-19 | the default name passes the check |
| Lakebase.CheckSchemaName | src/payment_analysis/backend/lakebase_config.py:19-21 | accepted exactly when valid; the error names the candidate |
| Lakebase.SafeSchemaName | src/payment_analysis/backend/lakebase_config.py:16-21 | the candidate when valid, else the ValueError |
| Lakebase.SafeSchemaNameIdempotent | src/payment_analysis/backend/lakebase_config.py:16-21 | a validated name validates to itself |
| Lakebase.StripValidName | src/payment_analysis/backend/lakebase_config.py:18-19 | a valid name has no surrounding whitespace |
| Lakebase.ClampLimit | src/payment_analysis/backend/lakebase_config.py:129 | `max(1, min(limit, hi))` lies in [1, hi] and keeps an in-range limit |
| Lakebase.ToRecord | src/payment_analysis/backend/lakebase_config.py:149-160 | a falsy condition becomes None; a null priority gives 100 and a null is_active gives true |
| Lakebase.RuleOrderKeyMeaning | src/payment_analysis/backend/lakebase_config.py:140 | the sort key order is priority ascending, then updated_at descending, with Postgres null placement |
| Lakebase.SortedRulesInOrder | src/payment_analysis/backend/lakebase_config.py:140 | a key-sorted list is in the query's order |
| Lakebase.SelectRules | src/payment_analysis/backend/lakebase_config.py:132-141 | exactly the matching rows, each as many times as the table holds it, in the query's order |
| Lakebase.GetApprovalRules | src/payment_analysis/backend/lakebase_config.py:117-165 | None when unconfigured or failing; otherwise the first of the selected rows (each matching row once per occurrence, in the query's order) as records, cut at the clamped limit |
| Lakebase.GetApprovalRulesSound | src/payment_analysis/backend/lakebase_config.py:132-162 | every returned rule is a matching row, in the query's order |
| Lakebase.GetApprovalRuleById | src/payment_analysis/backend/lakebase_config.py:199-232 | a row with that id as a record; found whenever such a row exists and the read succeeds |
| Lakebase.FindRow | src/payment_analysis/backend/lakebase_config.py:211-212 | the first row with the id, or none when no row has it |
| Lakebase.NewRule | src/payment_analysis/backend/lakebase_config.py:255-270 | an empty condition is stored as null |
| Lakebase.CreateApprovalRule | src/payment_analysis/backend/lakebase_config.py:235-276 | true with the row appended, or false with nothing changed (unconfigured, failing or a duplicate id) |
| Lakebase.CreatedRuleReadsBack | src/payment_analysis/backend/lakebase_config.py:199-276 | a rule the insert accepted is read back by its id as that very row |
| Lakebase.SetColumns | src/payment_analysis/backend/lakebase_config.py:298-317 | the SET clause has updated_at and exactly the given fields |
| Lakebase.PatchRow | src/payment_analysis/backend/lakebase_config.py:298-328 | given fields replaced, the others kept, updated_at set |
| Lakebase.UpdateApprovalRule | src/payment_analysis/backend/lakebase_config.py:279-333 | None when unconfigured or failing; otherwise true exactly when some row has the id, and those rows are patched in place |
| Lakebase.UpdateMissingChangesNothing | src/payment_analysis/backend/lakebase_config.py:328-330 | updating a missing id reports false and changes nothing |
| Lakebase.DeleteApprovalRule | src/payment_analysis/backend/lakebase_config.py:336-350 | true whenever the DELETE runs; afterwards each row without the id is there exactly as often as before, and no row has the id |
| Lakebase.DeleteIdempotent | src/payment_analysis/backend/lakebase_config.py:336-350 | deleting twice is deleting once, and the second delete still reports true |
| Lakebase.WritableSettings | src/payment_analysis/backend/lakebase_config.py:67-69 | only non-empty keys with string values are written |
| Lakebase.WriteAppSettingsKeys | src/payment_analysis/backend/lakebase_config.py:59-82 | unconfigured or empty settings return `bool(settings)` and write nothing; otherwise an upsert, or false |
| Lakebase.WriteAppSettingsSkips | src/payment_analysis/backend/lakebase_config.py:67-69 | a skipped entry never reaches the table |
| Lakebase.WriteAppConfig | src/payment_analysis/backend/lakebase_config.py:85-114 | true with the singleton row and both settings upserted, or false with nothing written |
| Lakebase.UcConfigOf | src/payment_analysis/backend/lakebase_config.py:43-46 | the pair is set exactly when both stripped columns are non-empty |
| Lakebase.LoadAppConfigAndSettings | src/payment_analysis/backend/lakebase_config.py:24-56 | unconfigured gives nothing; a failure keeps what was read before it |
| Lakebase.AppConfigRoundTrip | src/payment_analysis/backend/lakebase_config.py:24-116 | a written catalog and schema without surrounding whitespace load back as the pair, and the settings as written |
| RulesApi.ValidateRuleIn | src/payment_analysis/backend/routes/rules.py:43-50 | valid exactly within the field bounds; priority 100 and active by default |
| RulesApi.FullPatch | src/payment_analysis/backend/routes/rules.py:53-60 | the patch that sets every field of a create body |
| RulesApi.PatchBoundsMatchCreate | src/payment_analysis/backend/routes/rules.py:43-60 | a create body is valid exactly when the full patch of it is |
| RulesApi.Required | src/payment_analysis/backend/routes/rules.py:65-69 | a missing key raises; null renders as "None" |
| RulesApi.Optional | src/payment_analysis/backend/routes/rules.py:68 | only a non-empty string survives |
| RulesApi.RowToOut | src/payment_analysis/backend/routes/rules.py:63-74 | fails exactly on a missing required key or a null priority; falsy optionals become None; a missing priority gives 100 and a missing is_active gives true |
| RulesApi.RecordRow | src/payment_analysis/backend/lakebase_config.py:149-160 | a Lakebase record's dict carries its id, priority and activity |
| RulesApi.RecordRowConverts | src/payment_analysis/backend/routes/rules.py:63-74 | a Lakebase record always converts and keeps its fields |
| RulesApi.PayloadRow | src/payment_analysis/backend/routes/rules.py:77-89 | the echoed payload has no timestamps |
| RulesApi.PayloadRowRoundTrip | src/payment_analysis/backend/routes/rules.py:77-89 | the echoed payload converts back to the validated fields under the new id |
| RulesApi.FirstWithId | src/payment_analysis/backend/routes/rules.py:94-95 | the first row whose id text is the id, or none |
| RulesApi.FindRuleById | src/payment_analysis/backend/routes/rules.py:92-97 | the first row with the id, converted; None exactly when no row has it |
| RulesApi.FoundHasId | src/payment_analysis/backend/routes/rules.py:92-97 | a rule found by id carries that id, even when the row's id was null and rendered as "None" |
| RulesApi.LakehouseUnavailable | src/payment_analysis/backend/routes/rules.py:344-345 | an unavailable Lakehouse is 503 |
| RulesApi.LakehouseFailed | src/payment_analysis/backend/routes/rules.py:356-359 | a failed Lakehouse write is 502 |
| RulesApi.LakehouseWriteStep | src/payment_analysis/backend/routes/rules.py:267-282 | passes exactly when available and the write returns true |
| RulesApi.Surface | src/payment_analysis/backend/lakebase_config.py:19-21 | an invalid schema name in a Lakebase helper surfaces as a 500 |
| RulesApi.UpdateRuleLakebase | src/payment_analysis/backend/routes/rules.py:312-342 | a failed update is 502 and an unknown id 404, both with the table unchanged; otherwise every row of the id is patched and stays committed, and the answer is the rule read back, or 404 "not found after update" exactly when the read-back fails |
| RulesApi.UpdateRuleEchoesPatch | src/payment_analysis/backend/routes/rules.py:323-340 | a successful answer is the first row of the id as patched, read back and converted |
| RulesApi.UpdateRuleLakehouse | src/payment_analysis/backend/routes/rules.py:344-377 | the write step, then the rule found among rows read back, or 404 |
| RulesApi.DeleteRuleLakebase | src/payment_analysis/backend/routes/rules.py:390-399 | 502 only when the delete fails; a missing rule succeeds |
| RulesApi.DeleteRuleLakehouse | src/payment_analysis/backend/routes/rules.py:401-408 | 503 unavailable, 502 failed, else success |
| RulesApi.CreateRuleLakebase | src/payment_analysis/backend/routes/rules.py:240-265 | the payload echoed under the new id when the insert succeeds, else 502 |
| RulesApi.CreateRuleLakehouse | src/payment_analysis/backend/routes/rules.py:267-298 | after the write step, the rule read back, or else the echoed payload |
| RulesApi.AllOut | src/payment_analysis/backend/routes/rules.py:224-226 | every row converted, or a failure when some row cannot be |
| RulesApi.RecordRowOut | src/payment_analysis/backend/routes/rules.py:224 | a record's response never fails |
| RulesApi.ListRules | src/payment_analysis/backend/routes/rules.py:211-226 | a limit outside [1, 500] is 422; Lakebase rules when configured and read, else the Lakehouse rows |
| RulesApi.CreateRule | src/payment_analysis/backend/routes/rules.py:229-298 | 422 invalid; Lakebase path when configured, else Lakehouse; the answer carries the new id |
| RulesApi.DeleteRule | src/payment_analysis/backend/routes/rules.py:380-415 | on Lakebase the rule is gone afterwards; on the Lakehouse path the Lakebase table is untouched |
| RulesApi.NonEmpty | src/payment_analysis/backend/routes/rules.py:196-198 | `x or None`: None exactly for "" |
| RulesApi.MirrorPatch | src/payment_analysis/backend/routes/rules.py:192-202 | an empty name and a priority of 100 are sent as None; the condition is passed through; is_active is always sent, true by default |
| RulesApi.MirrorUpdate | src/payment_analysis/backend/routes/rules.py:176-208 | the mirror does nothing unless the database is configured; it never adds or drops rows and leaves rules with other ids unchanged |
| RulesApi.UpdateRule | src/payment_analysis/backend/routes/rules.py:301-377 | an invalid patch is 422 and changes nothing; the Lakebase path when configured; otherwise the Lakehouse answer, with the Lakebase table unchanged; a success carries the id |
| Dependencies.Lookup | src/payment_analysis/backend/dependencies.py:97 | a header value exactly when the name is present |
| Dependencies.HostText | src/payment_analysis/backend/dependencies.py:105 | no surrounding blanks and no trailing slash |
| Dependencies.RequestHost | src/payment_analysis/backend/dependencies.py:95-100 | the first entry of a non-blank X-Forwarded-Host, stripped; else Host, or "" |
| Dependencies.RequestHostSingleForwarded | src/payment_analysis/backend/dependencies.py:97-99 | a single clean forwarded host is taken as it is |
| Dependencies.ForwardedHostWins | src/payment_analysis/backend/dependencies.py:97-99 | a non-blank forwarded host wins over Host, and the result holds no comma |
| Dependencies.ConfigRawHost | src/payment_analysis/backend/dependencies.py:103-108 | "" exactly when the host text is empty or the placeholder; otherwise the host text |
| Dependencies.PlaceholderIsUnset | src/payment_analysis/backend/dependencies.py:106-107 | the placeholder never counts as configured |
| Dependencies.AppsHostIgnoresCase | src/payment_analysis/backend/dependencies.py:131-133 | whether a host is an Apps host does not depend on letter case |
| Dependencies.BearerToken | src/payment_analysis/backend/dependencies.py:146-150 | a non-empty stripped token after a "bearer " prefix matched in any case |
| Dependencies.BearerTokenRoundTrip | src/payment_analysis/backend/dependencies.py:147-148 | the token written after the scheme is the token read back |
| Dependencies.OboToken | src/payment_analysis/backend/dependencies.py:136-151 | the forwarded token wins; otherwise the bearer token only on an Apps host; else None |
| Dependencies.AuthorizationIgnoredOffApps | src/payment_analysis/backend/dependencies.py:144-147 | off an Apps host the Authorization header is never read |
| Dependencies.WorkspaceHost | src/payment_analysis/backend/dependencies.py:166-168 | the configured host, else the one derived from the request |
| Dependencies.PickCredentials | src/payment_analysis/backend/dependencies.py:176-183 | the user token, then DATABRICKS_TOKEN, then the client id and secret |
| Dependencies.GetWorkspaceClient | src/payment_analysis/backend/dependencies.py:154-185 | 503 exactly when no host; otherwise the absolute host with the first credentials, or 401 |
| Dependencies.UserTokenBeatsEnvironment | src/payment_analysis/backend/dependencies.py:176-178 | a user token decides the client, whatever the environment holds |
| Dependencies.EffectiveDatabricksHost | src/payment_analysis/backend/dependencies.py:267-273 | the bootstrap host unless blank or the example host; else the derived host, or None |
| Dependencies.ExampleHostIsUnset | src/payment_analysis/backend/dependencies.py:269-270 | an example bootstrap host behaves exactly like none |
| Runtime.DevDbPort | src/payment_analysis/backend/runtime.py:31-40 | None when unset or empty; otherwise the parsed integer, None when unparsable |
| Runtime.DbConfigured | src/payment_analysis/backend/runtime.py:70-76 | configured exactly by a truthy dev port, a non-blank connection string, or all three Autoscaling ids |
| Runtime.EnvPortConfigures | src/payment_analysis/backend/runtime.py:31-40 | read from the environment, the port configures the database exactly when APX_DEV_DB_PORT is set, non-empty and parses to a non-zero integer, unless the connection string or the Autoscaling ids already do |
| Runtime.NormalizeLakebaseUrl | src/payment_analysis/backend/runtime.py:14-23 | blank gives ""; only a plain "postgresql" scheme without "psycopg" is rewritten, and nothing else changes |
| Runtime.NormalizeStable | src/payment_analysis/backend/runtime.py:14-23 | normalising a normalised URL changes nothing |
| Runtime.RequireSsl | src/payment_analysis/backend/runtime.py:108-109 | sslmode=require is appended with "&" or "?", unless some sslmode is present |
| Runtime.RequireSslIdempotent | src/payment_analysis/backend/runtime.py:108-109 | the result names an sslmode, extends the input, and a second pass changes nothing |
| Runtime.DatabaseName | src/payment_analysis/backend/runtime.py:123-124 | the database name is never empty and never the schema name "payment_analysis" (both map to the default database); any other name is kept, stripped |
| Runtime.DatabaseNameIdempotent | src/payment_analysis/backend/runtime.py:123-124 | a mapped name maps to itself |
| Runtime.EngineUrl | src/payment_analysis/backend/runtime.py:89-132 | the dev, direct or Autoscaling target in that order: the local dev URL with sslmode=disable, or the missing-password error; the normalized connection string with sslmode required, or the empty-string error; else the Autoscaling database |
| Runtime.ModelSchema | src/payment_analysis/backend/runtime.py:231-232 | always a valid name: the stripped setting when valid, else the default |
| Runtime.ModelSchemaMatchesSafeSchema | src/payment_analysis/backend/runtime.py:231-232 | table creation uses the Lakebase helpers' schema wherever they accept it |
| Notebooks.CategoryValue | src/payment_analysis/backend/routes/notebooks.py:23-29 | every category value is non-empty |
| Notebooks.CategoriesListed | src/payment_analysis/backend/routes/notebooks.py:23-29 | all categories are listed, with distinct values |
| Notebooks.RegistryIdsDistinct | src/payment_analysis/backend/routes/notebooks.py:55-144 | registry ids are pairwise distinct |
| Notebooks.InCategory | src/payment_analysis/backend/routes/notebooks.py:167 | exactly the entries of the category, as many as the category counts |
| Notebooks.InCategoryAppend | src/payment_analysis/backend/routes/notebooks.py:167 | the comprehension keeps registry order: filtering a concatenation is filtering each part in turn |
| Notebooks.CountsAddUp | src/payment_analysis/backend/routes/notebooks.py:169-173 | the per-category counts sum to the number of entries |
| Notebooks.CountByCategory | src/payment_analysis/backend/routes/notebooks.py:170-173 | a category is a key exactly when it has entries, and its value is its count |
| Notebooks.CountOfSnoc | src/payment_analysis/backend/routes/notebooks.py:171-173 | one more entry adds one to its own category only |
| Notebooks.ListNotebooks | src/payment_analysis/backend/routes/notebooks.py:151-179 | the category's entries in registry order (all when none is given); total is the category's count; counts over the whole registry |
| Notebooks.Find | src/payment_analysis/backend/routes/notebooks.py:185-187 | an entry with the id, or none exactly when no entry has it |
| Notebooks.FindUnique | src/payment_analysis/backend/routes/notebooks.py:185-187 | with distinct ids the entry found is the only one |
| Notebooks.GetNotebook | src/payment_analysis/backend/routes/notebooks.py:182-190 | the entry with the id, else 404 |
| Notebooks.GetNotebookFindsEach | src/payment_analysis/backend/routes/notebooks.py:182-190 | every registry entry can be looked up by its id |
| Notebooks.GetNotebookUrl | src/payment_analysis/backend/routes/notebooks.py:193-218 | 404 exactly when the notebook is unknown; otherwise base + "/workspace" + path |
| Notebooks.UrlEndsWithPath | src/payment_analysis/backend/routes/notebooks.py:210 | the URL ends with the workspace path |
| Notebooks.Title | src/payment_analysis/backend/routes/notebooks.py:233 | `str.title()`: length kept, non-letters kept, a letter upper-cased exactly at the start of a word |
| Notebooks.DisplayName | src/payment_analysis/backend/routes/notebooks.py:233 | the display name is as long as the value |
| Notebooks.DisplayNameWords | src/payment_analysis/backend/routes/notebooks.py:233 | every category displays as its value with each "_" a space and each word capitalised ("ml_training" as "Ml Training") |
| Notebooks.Refs | src/payment_analysis/backend/routes/notebooks.py:235-242 | one reference per entry, with its id, name and job |
| Notebooks.Summarize | src/payment_analysis/backend/routes/notebooks.py:228-248 | every category appears, even when empty, with its display name, count and the id, name and job name of each of its entries in order; the total is the number of entries |
| Notebooks.SummaryCountsAddUp | src/payment_analysis/backend/routes/notebooks.py:228-248 | the summary's counts add up to its total |
| Notebooks.GetCategorySummary | src/payment_analysis/backend/routes/notebooks.py:221-248 | every category is listed with its display name, the number of registry entries in it and those entries' refs in registry order; the total is the size of the registry |
| VersionCheck.Get | scripts/verify_versions.py:65-67 | `dict.get`: none exactly when the key is absent |
| VersionCheck.UniqueGet | scripts/verify_versions.py:65-67 | with unique keys, each pair is found by its key |
| VersionCheck.Put | scripts/verify_versions.py:53 | `d[k] = v`: an existing key keeps its place, a new key goes last, keys stay unique |
| VersionCheck.PutGet | scripts/verify_versions.py:53 | after `d[k] = v`, k maps to v and other keys are unchanged |
| VersionCheck.PutAll | scripts/verify_versions.py:47-54 | keys stay unique |
| VersionCheck.PutAllLastWins | scripts/verify_versions.py:47-54 | the last entry for a key wins |
| VersionCheck.NormalizeName | scripts/verify_versions.py:53 | lower-case with "-" for "_", length kept |
| VersionCheck.NormalizeNameIdempotent | scripts/verify_versions.py:53 | normalising twice is normalising once |
| VersionCheck.RequirementLine | scripts/verify_versions.py:47-54 | skipped exactly for blank, "#" and "=="-free lines; names are normalised |
| VersionCheck.RequirementLineRoundTrip | scripts/verify_versions.py:52-53 | "name==version" reads back as the normalised name and stripped version |
| VersionCheck.ParseRequirements | scripts/verify_versions.py:41-54 | a missing file gives {}; keys are unique |
| VersionCheck.RequirementsLaterPinWins | scripts/verify_versions.py:47-54 | a later pin of a package wins |
| VersionCheck.RequirementsSkipLine | scripts/verify_versions.py:49-51 | a skipped line changes nothing |
| VersionCheck.RequirementKeysNormalized | scripts/verify_versions.py:53 | every requirements key is a normalised name |
| VersionCheck.LockStep | scripts/verify_versions.py:30-37 | a name line arms; a version line records only under a truthy pending name, then disarms; other lines change nothing |
| VersionCheck.ScanLock | scripts/verify_versions.py:29-37 | keys stay unique |
| VersionCheck.ParseLock | scripts/verify_versions.py:24-38 | keys stay unique |
| VersionCheck.FieldValueRoundTrip | scripts/verify_versions.py:33-35 | the quoted value after "=" reads back as written |
| VersionCheck.NameLineArms | scripts/verify_versions.py:32-33 | a name line arms that name |
| VersionCheck.VersionLineRecords | scripts/verify_versions.py:34-37 | under an armed name a version line records the pair and disarms |
| VersionCheck.LockRecordsPair | scripts/verify_versions.py:29-37 | a name line then a version line add exactly that pair |
| VersionCheck.LockVersionWithoutName | scripts/verify_versions.py:34 | a version line with no pending name is ignored |
| VersionCheck.NameSpan | scripts/verify_versions.py:18 | the longest prefix of name characters |
| VersionCheck.PyprojectLine | scripts/verify_versions.py:18-20 | a matched pin yields a non-empty normalised name |
| VersionCheck.PyprojectLineRoundTrip | scripts/verify_versions.py:18-20 | an indented `"name[extras]==version"` reads back as the normalised name and stripped version |
| VersionCheck.ExtrasDropped | scripts/verify_versions.py:18-19 | extras never reach the key |
| VersionCheck.ParsePyproject | scripts/verify_versions.py:12-21 | keys are unique |
| VersionCheck.PyprojectKeysNormalized | scripts/verify_versions.py:19 | every pyproject key is a normalised name |
| VersionCheck.ErrorFor | scripts/verify_versions.py:64-70 | an error exactly when the lock lacks the package or pins another version |
| VersionCheck.Compare | scripts/verify_versions.py:63-79 | one error per disagreeing package, none for an agreeing one, all from this file |
| VersionCheck.CompareEmptyIff | scripts/verify_versions.py:63-79 | no errors exactly when every pin agrees with the lock |
| VersionCheck.VerifyVersions | scripts/verify_versions.py:57-94 | errors are the requirements errors then the pyproject errors; status 1 exactly when there are errors |
| VersionCheck.PassesIffAllAgree | scripts/verify_versions.py:81-94 | status 0 exactly when both files agree with the lock |
| VersionCheck.ErrorsNamePins | scripts/verify_versions.py:63-79 | every error names a pin of its own file |
| VersionCheck.OneErrorPerPackage | scripts/verify_versions.py:63-79 | at most one error per package and file |

## Left out

- SQL text, sessions, commits, engine creation and `validate_db`. Every table is
  an in-memory map or sequence, and a failing statement is a boolean input.
- `rule_engine.evaluate_condition`, `policies.decide_*` and
  `serialize_context`. Their files are not part of this model; they are
  function parameters.
- Floats and their string parsing. Rates, lifts and the pooled proportion are
  `real`; `float()` and `int()` are partial functions given as parameters.
  `math.log1p`, `sqrt` and `erf` are left out. The p-value is a parameter of
  the analysis, applied only where the code computes one.
- SHA-256. It is a parameter from strings to 32-byte digests; only the parity
  of the last byte is used.
- The wall clock. `time.monotonic()` and `datetime.utcnow()` are integer time
  parameters; the hour and weekday are given to `BuildMlFeatures`.
- Concurrency. `asyncio.gather`/`wait_for` timeouts are modelled only as
  optional results. The cache lock's repeated check sees the same entry in a
  sequential run, so it is not repeated.
- Model serving, vector search and feature-store calls. Their answers are
  `Option` inputs.
- `_lookup_similar_transactions` averages, `_read_streaming_features`,
  `_load_recommendations` reads and `_write_online_features`. These are only
  their results, or the feature map they would write (`Enrichment.MlFeatures`).
- The log-amount, hour and risk-amount features of `_build_ml_features`.
  They need `log1p`.
- The retry and routing branches of `decide_*` beyond the ML merge and the
  rule override. They are policy code not part of this model.
- The recommendation message texts. Only the branch chosen is modelled; the
  not-yet-significant text raises as written (see Findings).
- `get_countries_from_lakebase` and `get_online_features_from_lakebase`. They
  are read-only queries outside the decision path; only their limit clamp
  (`Lakebase.ClampLimit`) is modelled.
- `get_workspace_client_optional`, `get_workspace_client_app_identity`,
  `get_effective_workspace_url` and the `Runtime.ws` client. They repeat the
  host and credential logic of `GetWorkspaceClient`.
- `workspace_url_from_apps_host` and `ensure_absolute_workspace_url`. They are
  parameters.
- `urlparse`/`urlunparse`. They are parameters of `Runtime.NormalizeLakebaseUrl`.
- The Autoscaling user name and host resolution of `engine_url`. These are SDK
  calls, so the Autoscaling target stops at the database name.
- `str.strip`, `lower`, `upper`, `isalnum` and `title` on non-ASCII text. They
  are modelled over ASCII only: `strip()` removes every ASCII character
  `str.isspace()` accepts (including U+001C to U+001F), but not non-ASCII
  whitespace such as U+0085 or U+00A0.
- Descriptions, tags and documentation URLs of the notebook registry. The
  registry keeps id, name, category, path and job name.
- The printed text of `verify_versions.py`. Only the error list and the exit
  status are modelled.
- Multi-line matches of the `pyproject.toml` pattern. `\s*` can span lines;
  the model applies the pattern line by line.
- `_sync_rule_to_lakehouse` and the Lakehouse service. They are modelled as
  their observable answer to the request (availability, write result, rows
  read back).
- `Experiments.ListExperiments`, `Experiments.ListAssignments`,
  `ConfigProposals.ListProposals`: SQL `ORDER BY created_at DESC` leaves the
  order of equal timestamps to the database. The model sorts stably (earlier
  rows first among equals); the contracts state only what holds for any tie
  order, so which of several equal-timestamp rows survive the cut is not
  promised.
- `DecisionRoute.FindAssignment`, `Experiments.FindAssignmentInPrefix`: the
  query ends in `.limit(1)` without `ORDER BY`, so the database may return any
  matching row. The model returns the first in table order. The table has no
  unique (experiment, subject) constraint; the decision path inserts a row
  only when none is found, so on its own it never creates a second one.
- `Experiments.AverageLatencyWithinBounds`: bounds the average by the latency
  bounds rather than stating the exact quotient.
- `ConfigProposals.ApplyTouchesOnlyTarget`: states what applying may change,
  not the new values; those are stated by the three per-table members.

## Findings

| source | as written | input that shows it | evidently intended | confidence | as-written member | corrected member |
|---|---|---|---|---|---|---|
| src/payment_analysis/backend/routes/experiments.py:262-264 | the not-yet-significant message puts a conditional expression inside the format specification of `p_value`, which Python rejects, so the branch raises and the results endpoint answers 500 | two variants with outcomes, all approved (pooled rate 1, so no p-value) | the recommendation to collect 2·max(100, n) outcomes, with the p-value or "N/A" | not executed | Experiments.AnalyseAsWritten, Experiments.ResultsAsWritten (shown by Experiments.AllApprovedFailsAsWritten, Experiments.ResultsAsWrittenFailsIff) | Experiments.Analyse, Experiments.Results |
| src/payment_analysis/backend/decisioning/engine.py:100-104 | `_int` catches ValueError and TypeError, but `int(float("inf"))` raises OverflowError, which escapes `_params_from_config` and `_load_config`; the entry stays stale and every later load raises again | decision_config holding "inf" for retry_backoff_transient and "0.9" for risk_threshold_high | an unconvertible integer falls back to its own default, like every other parse failure | not executed | Params.IntFieldAsWritten, Params.FromKvAsWritten, TtlCache.LoadConfigAsWritten (shown by Params.InfiniteIntLosesOtherFields, TtlCache.OverflowNeverRefreshes) | Params.IntField, Params.FromKv, TtlCache.LoadConfig |

=== FILE: config_proposals.dfy ===
/**
 * Agent-proposed configuration changes and their review (routes/config_proposals.py):
 * a proposal is created pending, an operator approves or rejects it once, and
 * an approved change is applied to the configuration table its change type
 * names. A change that cannot be applied leaves the proposal approved.
 *
 * Python's `int(str)` and `float(str)` are parameters: they yield the number a
 * string spells, or `None` where Python raises ValueError.
 */
module ConfigProposals {
  import opened Wrappers
  import opened Strings
  import opened Sorting
  import opened Entities

  const ProposalNotFound := HttpError(404, "Proposal not found")
  const InvalidAction := HttpError(422, "Action must be 'approve' or 'reject'")

  /** The 400 for a proposal that was already reviewed. */
  function AlreadyReviewed(status: string): (e: HttpError)
    ensures e.status == 400
  {
    HttpError(400, "Proposal is already " + status)
  }

  const ProposalListMax := 200
  const ApproveAction := "approve"
  const RejectAction := "reject"

  const DecisionConfigChange := "decision_config"
  const DeclineCodeChange := "decline_code"
  const RoutePerformanceChange := "route_performance"

  /** The three configuration tables a change can target, keyed by primary key. */
  datatype Tables = Tables(
    config: map<string, DecisionConfig>,
    declineCodes: map<string, RetryableDeclineCode>,
    routes: map<string, RoutePerformance>)

  datatype ProposalStore = ProposalStore(proposals: map<string, ProposedConfigChange>, tables: Tables)

  // ---------------------------------------------------------------------------
  // Creating and listing proposals
  // ---------------------------------------------------------------------------

  /** The request body of a new proposal; `confidence` is `None` when omitted. */
  datatype ProposalIn = ProposalIn(
    sourceAgent: string,
    changeType: string,
    targetKey: string,
    currentValue: Option<string>,
    proposedValue: string,
    rationale: string,
    expectedImpactPct: Option<real>,
    confidence: Option<real>)

  /** The body's validation: five non-empty strings and a confidence, when given, in [0, 1]. */
  predicate ValidProposalIn(p: ProposalIn) {
    p.sourceAgent != [] && p.changeType != [] && p.targetKey != [] && p.proposedValue != [] && p.rationale != []
    && (p.confidence.Some? ==> 0.0 <= p.confidence.value <= 1.0)
  }

  /** `create_proposal`: a valid body becomes a pending proposal stored under `id`. */
  function CreateProposal(store: ProposalStore, id: string, now: Time, p: ProposalIn): (r: Result<(ProposedConfigChange, ProposalStore), HttpError>)
    ensures r.Err? <==> !ValidProposalIn(p)
    ensures r.Err? ==> r.error == ValidationFailed
    ensures r.Ok? ==> r.value.0.status == ProposalPending && 0.0 <= r.value.0.confidence <= 1.0
    ensures r.Ok? && p.confidence.None? ==> r.value.0.confidence == 0.5
    ensures r.Ok? ==> (r.value.0.targetKey == p.targetKey && r.value.0.proposedValue == p.proposedValue
                       && r.value.0.changeType == p.changeType)
    ensures r.Ok? ==> r.value.1 == ProposalStore(store.proposals[id := r.value.0], store.tables)
  {
    if !ValidProposalIn(p) then Err(ValidationFailed)
    else
      var proposal := NewProposal(id, now, p.sourceAgent, p.changeType, p.targetKey, p.currentValue,
        p.proposedValue, p.rationale, p.expectedImpactPct, p.confidence);
      Ok((proposal, ProposalStore(store.proposals[id := proposal], store.tables)))
  }

  /**
   * A created proposal is pending under its id, so a review finds it and has
   * not seen it before: only an unknown action can still refuse it.
   */
  lemma CreatedProposalReviewable(store: ProposalStore, id: string, now: Time, p: ProposalIn, action: string,
                                  reviewedBy: Option<string>, later: Time, parseInt: IntParser, parseFloat: FloatParser)
    requires ValidProposalIn(p)
    ensures var s := CreateProposal(store, id, now, p).value.1;
      var r := Review(s, id, action, reviewedBy, later, parseInt, parseFloat);
      (r.Ok? <==> NormalizeAction(action) in {ApproveAction, RejectAction})
      && (r.Err? ==> r == Err(InvalidAction))
  {
  }

  /** The ordering column of `list_proposals`. */
  function ProposalTime(p: ProposedConfigChange): int {
    p.createdAt
  }

  /** The proposals `list_proposals` chooses from: all of them, or those in a non-empty status. */
  function Selected(rows: seq<ProposedConfigChange>, status: Option<string>): (r: seq<ProposedConfigChange>)
    ensures |r| <= |rows|
    ensures forall x :: x in r <==> x in rows && (Truthy(status) ==> x.status == status.value)
    ensures forall x :: multiset(r)[x] == if Truthy(status) ==> x.status == status.value then multiset(rows)[x] else 0
  {
    if Truthy(status) then
      FilterCounts(rows, (p: ProposedConfigChange) => p.status == status.value);
      Filter(rows, (p: ProposedConfigChange) => p.status == status.value) else rows
  }

  /**
   * `list_proposals`: the limit must lie in [1, 200]; a non-empty status keeps
   * only the proposals in that status; newest first, up to the limit.
   */
  function ListProposals(rows: seq<ProposedConfigChange>, limit: int, status: Option<string>): (r: Result<seq<ProposedConfigChange>, HttpError>)
    ensures r.Err? <==> !(1 <= limit <= ProposalListMax)
    ensures r.Err? ==> r.error == ValidationFailed
    ensures r.Ok? ==> NewestListing(r.value, Selected(rows, status), ProposalTime, limit)
    ensures r.Ok? && Truthy(status) ==> forall i :: 0 <= i < |r.value| ==> r.value[i].status == status.value
    ensures r.Ok? && |rows| <= limit ==> forall x :: x in rows && (Truthy(status) ==> x.status == status.value) ==> x in r.value
  {
    if !(1 <= limit <= ProposalListMax) then Err(ValidationFailed)
    else Ok(NewestFirst(Selected(rows, status), ProposalTime, limit))
  }

  /** Raising the limit keeps the proposals a lower limit returns, at the front and in order. */
  lemma ListProposalsLimitPrefix(rows: seq<ProposedConfigChange>, status: Option<string>, lo: int, hi: int)
    requires 1 <= lo <= hi <= ProposalListMax
    ensures ListProposals(rows, lo, status).value <= ListProposals(rows, hi, status).value
  {
    NewestFirstPrefix(Selected(rows, status), ProposalTime, lo, hi);
  }

  // ---------------------------------------------------------------------------
  // Applying a change
  // ---------------------------------------------------------------------------

  /** Why an approved change could not be applied: the value is not a number. */
  datatype ApplyError = NotAnInteger(value: string) | NotAFloat(value: string)

  /** The first `n` characters of `s` (`s[:n]`). */
  function Prefix(s: string, n: nat): (r: string)
    ensures |r| <= n && r <= s
    ensures |s| <= n ==> r == s
  {
    if |s| <= n then s else s[..n]
  }

  /** The description of a configuration row a proposal creates. */
  function AppliedDescription(rationale: string): (d: string)
    ensures 29 <= |d| <= 29 + 200
    ensures d[..29] == "Applied from agent proposal: " && d[29..] <= rationale
  {
    "Applied from agent proposal: " + Prefix(rationale, 200)
  }

  /** The label of a decline code a proposal creates. */
  function AgentLabel(code: string): (l: string)
    ensures |l| == 16 + |code| && l[..16] == "Agent-proposed: " && l[16..] == code
  {
    "Agent-proposed: " + code
  }

  /** `decision_config`: the key's value is replaced, or a row is created with a description. */
  function ApplyDecisionConfig(config: map<string, DecisionConfig>, key: string, value: string, rationale: string, now: Time): (r: map<string, DecisionConfig>)
    ensures r.Keys == config.Keys + {key}
    ensures forall k :: k in config && k != key ==> r[k] == config[k]
    ensures key in config ==> r[key] == config[key].(value := value, updatedAt := now)
    ensures key !in config ==> r[key] == DecisionConfig(key, value, Some(AppliedDescription(rationale)), now)
  {
    if key in config then config[key := config[key].(value := value, updatedAt := now)]
    else config[key := DecisionConfig(key, value, Some(AppliedDescription(rationale)), now)]
  }

  /**
   * `decline_code`: the value must be an integer. An existing code gets only its
   * backoff replaced; a new one is created with the agent label and the
   * column defaults otherwise.
   */
  function ApplyDeclineCode(codes: map<string, RetryableDeclineCode>, key: string, value: string, now: Time, parseInt: IntParser): (r: Result<map<string, RetryableDeclineCode>, ApplyError>)
    ensures r.Err? <==> parseInt(value).None?
    ensures r.Err? ==> r.error == NotAnInteger(value)
    ensures r.Ok? ==> r.value.Keys == codes.Keys + {key}
    ensures r.Ok? ==> forall k :: k in codes && k != key ==> r.value[k] == codes[k]
    ensures r.Ok? && key in codes ==> r.value[key] == codes[key].(defaultBackoffSeconds := parseInt(value).value, updatedAt := now)
    ensures r.Ok? && key !in codes ==> r.value[key] == NewRetryableDeclineCode(key, AgentLabel(key), Some(parseInt(value).value), now)
  {
    match parseInt(value)
    case None => Err(NotAnInteger(value))
    case Some(n) =>
      if key in codes then Ok(codes[key := codes[key].(defaultBackoffSeconds := n, updatedAt := now)])
      else Ok(codes[key := NewRetryableDeclineCode(key, AgentLabel(key), Some(n), now)])
  }

  /**
   * `route_performance`: only an existing route is updated, with the value as
   * its approval rate, which must then be a float; an unknown route is left
   * alone and the value is never read.
   */
  function ApplyRoutePerformance(routes: map<string, RoutePerformance>, key: string, value: string, now: Time, parseFloat: FloatParser): (r: Result<map<string, RoutePerformance>, ApplyError>)
    ensures r.Err? <==> key in routes && parseFloat(value).None?
    ensures r.Err? ==> r.error == NotAFloat(value)
    ensures r.Ok? ==> r.value.Keys == routes.Keys
    ensures r.Ok? ==> forall k :: k in routes && k != key ==> r.value[k] == routes[k]
    ensures r.Ok? && key in routes ==> r.value[key] == routes[key].(approvalRatePct := parseFloat(value).value, updatedAt := now)
    ensures key !in routes ==> r == Ok(routes)
  {
    if key !in routes then Ok(routes)
    else match parseFloat(value)
      case None => Err(NotAFloat(value))
      case Some(f) => Ok(routes[key := routes[key].(approvalRatePct := f, updatedAt := now)])
  }

  /**
   * `_apply_config_change`: the change goes to the table its type names, under
   * the proposal's target key; an unknown type changes nothing and succeeds.
   */
  function ApplyConfigChange(t: Tables, p: ProposedConfigChange, now: Time, parseInt: IntParser, parseFloat: FloatParser): (r: Result<Tables, ApplyError>)
    ensures p.changeType == DecisionConfigChange ==>
      r == Ok(t.(config := ApplyDecisionConfig(t.config, p.targetKey, p.proposedValue, p.rationale, now)))
    ensures p.changeType == DeclineCodeChange ==>
      (r.Err? <==> ApplyDeclineCode(t.declineCodes, p.targetKey, p.proposedValue, now, parseInt).Err?)
      && (r.Ok? ==> r.value == t.(declineCodes := ApplyDeclineCode(t.declineCodes, p.targetKey, p.proposedValue, now, parseInt).value))
    ensures p.changeType == RoutePerformanceChange ==>
      (r.Err? <==> ApplyRoutePerformance(t.routes, p.targetKey, p.proposedValue, now, parseFloat).Err?)
      && (r.Ok? ==> r.value == t.(routes := ApplyRoutePerformance(t.routes, p.targetKey, p.proposedValue, now, parseFloat).value))
    ensures p.changeType !in {DecisionConfigChange, DeclineCodeChange, RoutePerformanceChange} ==> r == Ok(t)
  {
    if p.changeType == DecisionConfigChange then
      Ok(t.(config := ApplyDecisionConfig(t.config, p.targetKey, p.proposedValue, p.rationale, now)))
    else if p.changeType == DeclineCodeChange then
      var codes :- ApplyDeclineCode(t.declineCodes, p.targetKey, p.proposedValue, now, parseInt);
      Ok(t.(declineCodes := codes))
    else if p.changeType == RoutePerformanceChange then
      var routes :- ApplyRoutePerformance(t.routes, p.targetKey, p.proposedValue, now, parseFloat);
      Ok(t.(routes := routes))
    else Ok(t)
  }

  /**
   * Whatever the change, applying it touches at most the target key of one
   * table, never adds a route, and adds at most the target key elsewhere.
   */
  lemma ApplyTouchesOnlyTarget(t: Tables, p: ProposedConfigChange, now: Time, parseInt: IntParser, parseFloat: FloatParser)
    requires ApplyConfigChange(t, p, now, parseInt, parseFloat).Ok?
    ensures var u := ApplyConfigChange(t, p, now, parseInt, parseFloat).value;
      u.routes.Keys == t.routes.Keys
      && u.config.Keys <= t.config.Keys + {p.targetKey}
      && u.declineCodes.Keys <= t.declineCodes.Keys + {p.targetKey}
      && (forall k :: k in t.config && k != p.targetKey ==> u.config[k] == t.config[k])
      && (forall k :: k in t.declineCodes && k != p.targetKey ==> u.declineCodes[k] == t.declineCodes[k])
      && (forall k :: k in t.routes && k != p.targetKey ==> u.routes[k] == t.routes[k])
  {
  }

  // ---------------------------------------------------------------------------
  // Review
  // ---------------------------------------------------------------------------

  /** The action as compared: lower-cased, then stripped of surrounding whitespace. */
  function NormalizeAction(action: string): string {
    Strip(Lower(action))
  }

  /**
   * `review_proposal`: an unknown proposal is 404, one that is not pending is
   * 400, an action other than approve or reject is 422. A rejection records
   * the reviewer; an approval applies the change and marks the proposal
   * applied, or leaves it approved with the tables untouched when the change
   * cannot be applied.
   */
  function Review(store: ProposalStore, id: string, action: string, reviewedBy: Option<string>, now: Time,
                  parseInt: IntParser, parseFloat: FloatParser): (r: Result<(ProposedConfigChange, ProposalStore), HttpError>)
    ensures id !in store.proposals ==> r == Err(ProposalNotFound)
    ensures id in store.proposals && store.proposals[id].status != ProposalPending ==>
      r == Err(AlreadyReviewed(store.proposals[id].status))
    ensures r.Ok? <==> (id in store.proposals && store.proposals[id].status == ProposalPending
                        && NormalizeAction(action) in {ApproveAction, RejectAction})
    ensures id in store.proposals && store.proposals[id].status == ProposalPending && r.Err? ==> r == Err(InvalidAction)
    ensures r.Ok? ==> r.value.1.proposals == store.proposals[id := r.value.0]
    ensures r.Ok? ==> r.value.0 == store.proposals[id].(status := r.value.0.status, reviewedBy := reviewedBy,
      reviewedAt := Some(now), appliedAt := r.value.0.appliedAt)
    ensures r.Ok? && NormalizeAction(action) == RejectAction ==>
      r.value.0.status == ProposalRejected && r.value.0.appliedAt == store.proposals[id].appliedAt && r.value.1.tables == store.tables
    ensures r.Ok? && NormalizeAction(action) == ApproveAction ==>
      var applied := ApplyConfigChange(store.tables, store.proposals[id], now, parseInt, parseFloat);
      (applied.Ok? ==> r.value.0.status == ProposalApplied && r.value.0.appliedAt == Some(now) && r.value.1.tables == applied.value)
      && (applied.Err? ==> (r.value.0.status == ProposalApproved && r.value.0.appliedAt == store.proposals[id].appliedAt
                            && r.value.1.tables == store.tables))
  {
    if id !in store.proposals then Err(ProposalNotFound)
    else
      var p := store.proposals[id];
      if p.status != ProposalPending then Err(AlreadyReviewed(p.status))
      else
        var act := NormalizeAction(action);
        if act != ApproveAction && act != RejectAction then Err(InvalidAction)
        else
          var reviewed := p.(status := if act == ApproveAction then ProposalApproved else ProposalRejected,
            reviewedBy := reviewedBy, reviewedAt := Some(now));
          var (final, tables) :=
            if reviewed.status == ProposalApproved then
              match ApplyConfigChange(store.tables, reviewed, now, parseInt, parseFloat)
              case Ok(u) => (reviewed.(status := ProposalApplied, appliedAt := Some(now)), u)
              case Err(_) => (reviewed, store.tables)
            else (reviewed, store.tables);
          Ok((final, ProposalStore(store.proposals[id := final], tables)))
  }

  /** A proposal is reviewed at most once: reviewing it again is refused with 400. */
  lemma ReviewIsFinal(store: ProposalStore, id: string, a1: string, a2: string, by1: Option<string>, by2: Option<string>,
                      t1: Time, t2: Time, parseInt: IntParser, parseFloat: FloatParser)
    requires Review(store, id, a1, by1, t1, parseInt, parseFloat).Ok?
    ensures var after := Review(store, id, a1, by1, t1, parseInt, parseFloat).value;
      Review(after.1, id, a2, by2, t2, parseInt, parseFloat) == Err(AlreadyReviewed(after.0.status))
      && after.0.status in {ProposalRejected, ProposalApproved, ProposalApplied}
  {
  }

  /** Review changes no proposal but the one reviewed. */
  lemma ReviewTouchesOneProposal(store: ProposalStore, id: string, action: string, reviewer: Option<string>, now: Time,
                                 parseInt: IntParser, parseFloat: FloatParser, other: string)
    requires Review(store, id, action, reviewer, now, parseInt, parseFloat).Ok?
    requires other != id && other in store.proposals
    ensures var after := Review(store, id, action, reviewer, now, parseInt, parseFloat).value.1;
      other in after.proposals && after.proposals[other] == store.proposals[other]
  {
  }

  /** An approved change of a type nothing applies still ends "applied", with the tables untouched. */
  lemma UnknownTypeEndsApplied(store: ProposalStore, id: string, reviewer: Option<string>, now: Time, parseInt: IntParser, parseFloat: FloatParser)
    requires id in store.proposals && store.proposals[id].status == ProposalPending
    requires store.proposals[id].changeType !in {DecisionConfigChange, DeclineCodeChange, RoutePerformanceChange}
    ensures var r := Review(store, id, ApproveAction, reviewer, now, parseInt, parseFloat);
      r.Ok? && r.value.0.status == ProposalApplied && r.value.1.tables == store.tables
  {
    StripLowerApprove();
  }

  /** A decline-code change whose value is not an integer is approved but not applied, and can never be retried. */
  lemma NonIntegerBackoffStaysApproved(store: ProposalStore, id: string, reviewer: Option<string>, now: Time, parseInt: IntParser, parseFloat: FloatParser)
    requires id in store.proposals && store.proposals[id].status == ProposalPending
    requires store.proposals[id].changeType == DeclineCodeChange
    requires parseInt(store.proposals[id].proposedValue).None?
    ensures var r := Review(store, id, ApproveAction, reviewer, now, parseInt, parseFloat);
      r.Ok? && r.value.0.status == ProposalApproved && r.value.1.tables == store.tables
      && Review(r.value.1, id, ApproveAction, reviewer, now, parseInt, parseFloat).Err?
  {
    StripLowerApprove();
  }

  /** "approve" is already lower-case and stripped. */
  lemma StripLowerApprove()
    ensures NormalizeAction(ApproveAction) == ApproveAction
  {
    NormalizedKeeps(ApproveAction);
  }

  /** A lower-case action with no surrounding whitespace is compared as it is. */
  lemma NormalizedKeeps(a: string)
    requires forall i :: 0 <= i < |a| ==> !('A' <= a[i] <= 'Z')
    requires |a| > 0 ==> a[0] !in Whitespace && a[|a| - 1] !in Whitespace
    ensures NormalizeAction(a) == a
  {
    assert Lower(a) == a;
    TrimKeepsTrimmed(a, Whitespace);
  }
}

=== FILE: decision_route.dfy ===
/**
 * The decisioning API's A/B plumbing (routes/decision.py) and the engine's
 * outcome recorder (engine.py): variant assignment, the merge of experiment
 * fields into the response, the engine-or-policy fallback with its audit log,
 * and the outcome endpoint.
 *
 * The session is an in-memory store. SHA-256 is a parameter (`Sha256`) that
 * maps a subject key to its 32-byte digest; only the parity of the last byte is
 * used. The engine's and the policies' decisions are parameters too.
 */
module DecisionRoute {
  import opened Wrappers
  import opened Strings
  import opened Entities
  import opened RuleMatching

  /** A SHA-256 digest: 32 bytes. */
  type Digest = s: seq<bv8> | |s| == 32 witness seq(32, _ => 0 as bv8)

  /** `hashlib.sha256(key.encode()).digest()` */
  type Sha256 = string -> Digest

  /** The experiments and assignments tables. */
  datatype AbStore = AbStore(experiments: map<string, Experiment>, assignments: seq<ExperimentAssignment>)

  /** An experiment accepts new subjects while it is running or still in draft. */
  predicate Assignable(e: Experiment) {
    e.status == ExperimentRunning || e.status == ExperimentDraft
  }

  /** The position of the first assignment of `subject` in `experimentId`. */
  function FindAssignment(rows: seq<ExperimentAssignment>, experimentId: string, subject: string): (r: Option<nat>)
    ensures r.Some? ==> r.value < |rows| && rows[r.value].experimentId == experimentId && rows[r.value].subjectKey == subject
    ensures r.Some? ==> forall j :: 0 <= j < r.value ==> !(rows[j].experimentId == experimentId && rows[j].subjectKey == subject)
    ensures r.None? <==> forall j :: 0 <= j < |rows| ==> !(rows[j].experimentId == experimentId && rows[j].subjectKey == subject)
  {
    if |rows| == 0 then None
    else if rows[0].experimentId == experimentId && rows[0].subjectKey == subject then Some(0)
    else match FindAssignment(rows[1..], experimentId, subject)
      case Some(j) => Some(j + 1)
      case None => None
  }

  /** "treatment" when the digest's last byte is odd, else "control". */
  function VariantOf(sha: Sha256, subject: string): (v: string)
    ensures v == "treatment" <==> sha(subject)[31] % 2 == 1
    ensures v == "treatment" || v == "control"
  {
    if sha(subject)[31] % 2 == 1 then "treatment" else "control"
  }

  /**
   * `_get_or_assign_variant`: no experiment or subject gives None; an existing
   * assignment is returned as stored; an unknown or non-assignable experiment
   * gives None; otherwise the subject is enrolled with its hash-derived variant.
   */
  function GetOrAssignVariant(store: AbStore, experimentId: Option<string>, subject: string, sha: Sha256, now: Time): (r: (Option<string>, AbStore))
    ensures !Truthy(experimentId) || subject == [] ==> r == (None, store)
    ensures r.1.experiments == store.experiments
    ensures r.1 == store || r.1.assignments == store.assignments + [ExperimentAssignment(experimentId.value, subject, VariantOf(sha, subject), now)]
    ensures r.1 != store ==>
      && Truthy(experimentId) && subject != [] && r.0 == Some(VariantOf(sha, subject))
      && FindAssignment(store.assignments, experimentId.value, subject).None?
      && experimentId.value in store.experiments && Assignable(store.experiments[experimentId.value])
  {
    if !Truthy(experimentId) || subject == [] then (None, store)
    else
      var id := experimentId.value;
      match FindAssignment(store.assignments, id, subject)
      case Some(j) => (Some(store.assignments[j].variant), store)
      case None =>
        if id !in store.experiments || !Assignable(store.experiments[id]) then (None, store)
        else
          var variant := VariantOf(sha, subject);
          (Some(variant), store.(assignments := store.assignments + [ExperimentAssignment(id, subject, variant, now)]))
  }

  /** An existing assignment is returned verbatim and nothing is written. */
  lemma ExistingAssignmentReturned(store: AbStore, id: string, subject: string, sha: Sha256, now: Time, j: nat)
    requires id != [] && subject != [] && FindAssignment(store.assignments, id, subject) == Some(j)
    ensures GetOrAssignVariant(store, Some(id), subject, sha, now) == (Some(store.assignments[j].variant), store)
  {
  }

  /** Without a stored assignment, an unknown or non-assignable experiment gives None and writes nothing. */
  lemma NonAssignableWritesNothing(store: AbStore, id: string, subject: string, sha: Sha256, now: Time)
    requires FindAssignment(store.assignments, id, subject).None?
    requires id !in store.experiments || !Assignable(store.experiments[id])
    ensures GetOrAssignVariant(store, Some(id), subject, sha, now) == (None, store)
  {
  }

  /**
   * Asking again returns the same variant and writes nothing, whatever the
   * clock says: the first call either found an assignment or stored one.
   */
  lemma {:induction false} AssignmentIdempotent(store: AbStore, id: string, subject: string, sha: Sha256, t1: Time, t2: Time)
    ensures var (v1, s1) := GetOrAssignVariant(store, Some(id), subject, sha, t1);
      v1.Some? ==> GetOrAssignVariant(s1, Some(id), subject, sha, t2) == (v1, s1)
  {
    var (v1, s1) := GetOrAssignVariant(store, Some(id), subject, sha, t1);
    if v1.Some? && s1 != store {
      var rows := s1.assignments;
      var n := |store.assignments|;
      assert rows[n] == ExperimentAssignment(id, subject, VariantOf(sha, subject), t1);
      forall j | 0 <= j < n ensures !(rows[j].experimentId == id && rows[j].subjectKey == subject) {
        assert rows[j] == store.assignments[j];
      }
      assert FindAssignment(rows, id, subject) == Some(n);
    }
  }

  /** A new enrollment's variant depends on the subject key alone, not on the experiment or the store. */
  lemma EnrollmentDependsOnlyOnKey(s1: AbStore, s2: AbStore, id1: string, id2: string, subject: string, sha: Sha256, t1: Time, t2: Time)
    requires GetOrAssignVariant(s1, Some(id1), subject, sha, t1).1 != s1
    requires GetOrAssignVariant(s2, Some(id2), subject, sha, t2).1 != s2
    ensures GetOrAssignVariant(s1, Some(id1), subject, sha, t1).0 == GetOrAssignVariant(s2, Some(id2), subject, sha, t2).0
  {
  }

  /** At most one assignment per experiment and subject. */
  ghost predicate OneAssignmentEach(rows: seq<ExperimentAssignment>) {
    forall i, j :: 0 <= i < j < |rows| ==> !(rows[i].experimentId == rows[j].experimentId && rows[i].subjectKey == rows[j].subjectKey)
  }

  /** Enrolling through the decision path never gives a subject a second assignment. */
  lemma AssignmentKeepsOneEach(store: AbStore, experimentId: Option<string>, subject: string, sha: Sha256, now: Time)
    requires OneAssignmentEach(store.assignments)
    ensures OneAssignmentEach(GetOrAssignVariant(store, experimentId, subject, sha, now).1.assignments)
  {
    var s1 := GetOrAssignVariant(store, experimentId, subject, sha, now).1;
    if s1 != store {
      var rows := s1.assignments;
      var n := |store.assignments|;
      forall i, j | 0 <= i < j < |rows| ensures !(rows[i].experimentId == rows[j].experimentId && rows[i].subjectKey == rows[j].subjectKey) {
        if j == n {
          assert rows[i] == store.assignments[i];
        } else {
          assert rows[i] == store.assignments[i] && rows[j] == store.assignments[j];
        }
      }
    }
  }

  // ---------------------------------------------------------------------------
  // Responses, the fallback and the audit log
  // ---------------------------------------------------------------------------

  /** `_with_ab`: the decision dump plus `experiment_id` and `variant`, each only when given. */
  function WithAb(dump: Metadata, experimentId: Option<string>, variant: Option<string>): (out: Metadata)
    ensures out.Keys == dump.Keys + (if experimentId.Some? then {"experiment_id"} else {}) + (if variant.Some? then {"variant"} else {})
    ensures experimentId.Some? ==> out["experiment_id"] == Str(experimentId.value)
    ensures variant.Some? ==> out["variant"] == Str(variant.value)
    ensures forall k :: k in dump && k != "experiment_id" && k != "variant" ==> out[k] == dump[k]
  {
    var withExperiment := if experimentId.Some? then dump["experiment_id" := Str(experimentId.value)] else dump;
    if variant.Some? then withExperiment["variant" := Str(variant.value)] else withExperiment
  }

  /** With neither field given, the response is the dump itself. */
  lemma WithAbNothingToAdd(dump: Metadata)
    ensures WithAb(dump, None, None) == dump
  {
  }

  /** `ctx.subject_key or ctx.merchant_id` */
  function SubjectKey(subjectKey: Option<string>, merchantId: string): (k: string)
    ensures Truthy(subjectKey) ==> k == subjectKey.value
    ensures !Truthy(subjectKey) ==> k == merchantId
  {
    if Truthy(subjectKey) then subjectKey.value else merchantId
  }

  /** The request fields `_engine_decide` reads besides the context handed to the decision makers. */
  datatype Request = Request(subjectKey: Option<string>, merchantId: string, experimentId: Option<string>, serialized: Metadata)

  /** What `_engine_decide` leaves behind: the decision, the variant used, and the updated tables. */
  datatype Decided = Decided(decision: Decision, variant: string, store: AbStore, logs: seq<DecisionLog>)

  /**
   * The unique index on `audit_id` rejects a second log row with the same id;
   * the commit raises. The enrollment `_get_or_assign_variant` committed
   * before it stays in `store`.
   */
  datatype DecideError = DuplicateAuditId(auditId: string, store: AbStore)

  /**
   * `_engine_decide`: resolve the variant (defaulting to "control"), take the
   * engine's decision or, when the engine raises (`engine` returns None), the
   * pure policy's for the same variant, and log the decision with the response.
   */
  function EngineDecide(t: DecisionType, req: Request, store: AbStore, logs: seq<DecisionLog>, sha: Sha256, now: Time,
                        engine: string -> Option<Decision>, policy: string -> Decision, dump: Decision -> Metadata): (r: Result<Decided, DecideError>)
    ensures var resolved := GetOrAssignVariant(store, req.experimentId, SubjectKey(req.subjectKey, req.merchantId), sha, now);
      var variant := resolved.0.GetOr("control");
      var decision := if engine(variant).Some? then engine(variant).value else policy(variant);
      && (r.Ok? ==> r.value.variant == variant && r.value.store == resolved.1 && r.value.decision == decision
                    && r.value.logs == logs + [DecisionLog(decision.auditId, TypeName(t), req.serialized,
                         WithAb(dump(decision), req.experimentId, Some(variant)), now)])
      && (r.Err? <==> exists i :: 0 <= i < |logs| && logs[i].auditId == decision.auditId)
      && (r.Err? ==> r.error == DuplicateAuditId(decision.auditId, resolved.1))
  {
    var (found, enrolled) := GetOrAssignVariant(store, req.experimentId, SubjectKey(req.subjectKey, req.merchantId), sha, now);
    var variant := found.GetOr("control");
    var decision := match engine(variant) case Some(d) => d case None => policy(variant);
    var response := WithAb(dump(decision), req.experimentId, Some(variant));
    match AppendDecisionLog(logs, DecisionLog(decision.auditId, TypeName(t), req.serialized, response, now))
    case Some(logged) => Ok(Decided(decision, variant, enrolled, logged))
    case None => Err(DuplicateAuditId(decision.auditId, enrolled))
  }

  /** When the engine raises, the response is exactly the pure policy's decision. */
  lemma FallbackUsesPolicy(t: DecisionType, req: Request, store: AbStore, logs: seq<DecisionLog>, sha: Sha256, now: Time,
                           engine: string -> Option<Decision>, policy: string -> Decision, dump: Decision -> Metadata)
    requires forall v :: engine(v).None?
    requires EngineDecide(t, req, store, logs, sha, now, engine, policy, dump).Ok?
    ensures var d := EngineDecide(t, req, store, logs, sha, now, engine, policy, dump).value;
      d.decision == policy(d.variant) && d.logs[|logs|].auditId == d.decision.auditId
      && d.logs[|logs|].response["variant"] == Str(d.variant)
  {
  }

  // ---------------------------------------------------------------------------
  // Outcomes
  // ---------------------------------------------------------------------------

  /** The body of an outcome report. */
  datatype OutcomeIn = OutcomeIn(
    auditId: string, decisionType: string, outcome: string,
    outcomeCode: Option<string>, outcomeReason: Option<string>, latencyMs: Option<int>,
    metadata: Option<Metadata>)

  /**
   * `DecisionEngine.record_outcome`: false without a session, false (nothing
   * stored) when the commit fails, else true with the outcome row appended.
   */
  function EngineRecordOutcome(hasSession: bool, commitFails: bool, outcomes: seq<DecisionOutcome>, body: OutcomeIn, now: Time): (r: (bool, seq<DecisionOutcome>))
    ensures r.0 <==> hasSession && !commitFails
    ensures r.0 ==> r.1 == outcomes + [NewDecisionOutcome(body.auditId, body.decisionType, body.outcome,
      body.outcomeCode, body.outcomeReason, body.latencyMs, body.metadata, now)]
    ensures !r.0 ==> r.1 == outcomes
  {
    if !hasSession || commitFails then (false, outcomes)
    else (true, outcomes + [NewDecisionOutcome(body.auditId, body.decisionType, body.outcome,
      body.outcomeCode, body.outcomeReason, body.latencyMs, body.metadata, now)])
  }

  const OutcomeRecorded := "Outcome recorded for learning loop."
  const OutcomeNotPersisted := "Engine could not persist outcome (session unavailable)."

  /** The outcome endpoint's answer. */
  datatype OutcomeOut = OutcomeOut(accepted: bool, message: string)

  /**
   * The `/outcome` route: `accepted` is the engine's answer; an exception while
   * building the engine (`engineBuilds` false) is reported as not accepted, with
   * the error's text, and never raised.
   */
  function RecordOutcomeRoute(engineBuilds: bool, errorText: string, hasSession: bool, commitFails: bool,
                              outcomes: seq<DecisionOutcome>, body: OutcomeIn, now: Time): (r: (OutcomeOut, seq<DecisionOutcome>))
    ensures r.0.accepted <==> engineBuilds && EngineRecordOutcome(hasSession, commitFails, outcomes, body, now).0
    ensures r.0.accepted ==> r.0.message == OutcomeRecorded
    ensures engineBuilds && !r.0.accepted ==> r.0.message == OutcomeNotPersisted
    ensures !engineBuilds ==> r == (OutcomeOut(false, "Error: " + errorText), outcomes)
    ensures engineBuilds ==> r.1 == EngineRecordOutcome(hasSession, commitFails, outcomes, body, now).1
  {
    if !engineBuilds then (OutcomeOut(false, "Error: " + errorText), outcomes)
    else
      var (ok, recorded) := EngineRecordOutcome(hasSession, commitFails, outcomes, body, now);
      (OutcomeOut(ok, if ok then OutcomeRecorded else OutcomeNotPersisted), recorded)
  }

  /**
   * The route only ever appends: the reported outcomes stay as they were, and
   * exactly one row is added when, and only when, the outcome is accepted.
   */
  lemma RecordOutcomeRouteAppendsOnly(engineBuilds: bool, errorText: string, hasSession: bool, commitFails: bool,
                                      outcomes: seq<DecisionOutcome>, body: OutcomeIn, now: Time)
    ensures var r := RecordOutcomeRoute(engineBuilds, errorText, hasSession, commitFails, outcomes, body, now);
      |r.1| == |outcomes| + (if r.0.accepted then 1 else 0) && r.1[..|outcomes|] == outcomes
  {
  }
}

=== FILE: decline_codes.dfy ===
/**
 * The retryable-decline-code lookup the engine builds from the
 * retryable_decline_codes table (`_decline_codes_map`, engine.py).
 */
module DeclineCodes {
  import opened Wrappers
  import opened Strings
  import opened Folds

  /**
   * One table row. The optional fields are `None` when the row lacks the column;
   * present values already have the column's type, so `int()` cannot fail on them.
   */
  datatype DeclineRow = DeclineRow(
    code: string,
    category: Option<string>,
    defaultBackoffSeconds: Option<int>,
    maxAttempts: Option<int>)

  /** A decline code as the retry policy sees it. */
  datatype RetryableCode = RetryableCode(code: string, category: string, defaultBackoffSeconds: int, maxAttempts: int)

  /** The lookup key of a code: stripped and lower-cased. */
  function NormalizeCode(code: string): (k: string)
    ensures |k| <= |code|
    ensures forall i :: 0 <= i < |k| ==> !('A' <= k[i] <= 'Z')
  {
    Lower(Strip(code))
  }

  /** The entry a row contributes, or `None` for a blank code. */
  function CodeEntry(row: DeclineRow): (e: Option<(string, RetryableCode)>)
    ensures e.None? <==> IsBlank(row.code)
    ensures e.Some? ==> e.value.0 == NormalizeCode(row.code) && e.value.1.code == e.value.0
    ensures e.Some? ==> e.value.1.category == (if row.category.Some? then row.category.value else "soft")
    ensures e.Some? ==> e.value.1.defaultBackoffSeconds == (if row.defaultBackoffSeconds.Some? then row.defaultBackoffSeconds.value else 900)
    ensures e.Some? ==> e.value.1.maxAttempts == (if row.maxAttempts.Some? then row.maxAttempts.value else 3)
  {
    var code := NormalizeCode(row.code);
    if code == [] then None
    else Some((code, RetryableCode(code, row.category.GetOr("soft"), row.defaultBackoffSeconds.GetOr(900), row.maxAttempts.GetOr(3))))
  }

  /** `_decline_codes_map(rows)` */
  function DeclineCodesMap(rows: seq<DeclineRow>): (m: map<string, RetryableCode>)
  {
    LastWins(rows, CodeEntry)
  }

  /** Every key is a non-empty normalised code, and its entry's `code` is the key itself. */
  lemma DeclineCodesMapEntries(rows: seq<DeclineRow>, k: string)
    requires k in DeclineCodesMap(rows)
    ensures k != [] && DeclineCodesMap(rows)[k].code == k
    ensures exists i :: 0 <= i < |rows| && NormalizeCode(rows[i].code) == k && CodeEntry(rows[i]).value.1 == DeclineCodesMap(rows)[k]
  {
    LastWinsFrom(rows, CodeEntry, k);
  }

  /** A code is in the map exactly when some row with a non-blank code normalises to it. */
  lemma DeclineCodesMapKeys(rows: seq<DeclineRow>, k: string)
    ensures k in DeclineCodesMap(rows) <==> exists i :: 0 <= i < |rows| && !IsBlank(rows[i].code) && NormalizeCode(rows[i].code) == k
  {
    LastWinsKeys(rows, CodeEntry, k);
  }

  /** For duplicate codes (after normalisation) the last row wins. */
  lemma DeclineCodesMapLastWins(rows: seq<DeclineRow>, i: int)
    requires 0 <= i < |rows| && !IsBlank(rows[i].code)
    requires forall j :: i < j < |rows| && !IsBlank(rows[j].code) ==> NormalizeCode(rows[j].code) != NormalizeCode(rows[i].code)
    ensures NormalizeCode(rows[i].code) in DeclineCodesMap(rows)
    ensures DeclineCodesMap(rows)[NormalizeCode(rows[i].code)] == CodeEntry(rows[i]).value.1
  {
    LastWinsValue(rows, CodeEntry, i);
  }
}

=== FILE: dependencies.dfy ===
/**
 * Host, token and workspace-client resolution of the FastAPI dependencies
 * (dependencies.py): which request header names the workspace host, when a
 * user token is taken from the request, and the order in which credentials
 * are tried.
 *
 * `workspace_url_from_apps_host` and `ensure_absolute_workspace_url` live in
 * config.py, which is not part of this model; they are parameters, and so is
 * the configured placeholder URL. Building the SDK client is left out: the
 * result names the host and credentials it would be built from.
 */
module Dependencies {
  import opened Wrappers
  import opened Strings
  import opened Entities

  /** Request headers by lower-case name: Starlette's header lookups ignore case. */
  type Headers = map<string, string>

  /** The process environment. */
  type Env = map<string, string>

  function Lookup(m: map<string, string>, k: string): (r: Option<string>)
    ensures r.Some? <==> k in m
    ensures r.Some? ==> r.value == m[k]
  {
    if k in m then Some(m[k]) else None
  }

  const Slash: set<char> := {'/'}

  /** `(s or "").strip().rstrip("/")`: a host with surrounding blanks and trailing slashes removed. */
  function HostText(s: Option<string>): (r: string)
    ensures r != [] ==> r[|r| - 1] != '/' && r[0] !in Whitespace
  {
    var stripped := Strip(s.GetOr(""));
    TrimRight(stripped, Slash)
  }

  // ---------------------------------------------------------------------------
  // Hosts
  // ---------------------------------------------------------------------------

  /**
   * `_request_host_for_derivation`: the first comma-separated entry of a
   * non-blank X-Forwarded-Host, stripped; otherwise the Host header, or "".
   */
  function RequestHost(h: Headers): (r: string)
    ensures var fwd := Lookup(h, "x-forwarded-host");
      fwd.Some? && !IsBlank(fwd.value) ==> ',' !in r && (r != [] ==> r[0] !in Whitespace && r[|r| - 1] !in Whitespace)
    ensures var fwd := Lookup(h, "x-forwarded-host");
      !(fwd.Some? && !IsBlank(fwd.value)) ==> r == Lookup(h, "host").GetOr("")
  {
    var fwd := Lookup(h, "x-forwarded-host");
    if fwd.Some? && !IsBlank(fwd.value) then
      var first := UpToChar(Strip(fwd.value), ',');
      StripFacts(first);
      Strip(first)
    else Lookup(h, "host").GetOr("")
  }

  /** A single forwarded host with no blanks around it is taken as it is. */
  lemma RequestHostSingleForwarded(h: Headers, host: string)
    requires Lookup(h, "x-forwarded-host") == Some(host)
    requires host != [] && host[0] !in Whitespace && host[|host| - 1] !in Whitespace && ',' !in host
    ensures RequestHost(h) == host
  {
    TrimKeepsTrimmed(host, Whitespace);
    var first := UpToChar(host, ',');
    assert first == host;
  }

  /** The Host header is used only when X-Forwarded-Host is absent or blank. */
  lemma ForwardedHostWins(h: Headers, host: string)
    requires Lookup(h, "x-forwarded-host") == Some(host) && !IsBlank(host)
    ensures ',' !in RequestHost(h)
    ensures RequestHost(h) == Strip(UpToChar(Strip(host), ','))
  {
  }

  /**
   * `_config_raw_host`: the configured workspace URL without surrounding
   * blanks or trailing slashes, or "" when that is empty or is the placeholder.
   */
  function ConfigRawHost(workspaceUrl: Option<string>, placeholder: string): (r: string)
    ensures r == [] <==> HostText(workspaceUrl) == [] || HostText(workspaceUrl) == TrimRight(placeholder, Slash)
    ensures r != [] ==> r == HostText(workspaceUrl)
  {
    var raw := HostText(workspaceUrl);
    if raw == [] || raw == TrimRight(placeholder, Slash) then [] else raw
  }

  /** The placeholder, with or without surrounding blanks, never counts as configured. */
  lemma PlaceholderIsUnset(placeholder: string)
    requires placeholder == [] || (placeholder[0] !in Whitespace && placeholder[|placeholder| - 1] !in Whitespace)
    ensures ConfigRawHost(Some(placeholder), placeholder) == []
  {
    TrimKeepsTrimmed(placeholder, Whitespace);
  }

  /** `_is_apps_host`: a non-empty host containing "databricksapps" in any letter case. */
  predicate IsAppsHost(host: string) {
    host != [] && Contains(Lower(host), "databricksapps")
  }

  lemma LowerUpper(s: string)
    ensures Lower(Upper(s)) == Lower(s)
  {
    assert forall i :: 0 <= i < |s| ==> LowerChar(UpperChar(s[i])) == LowerChar(s[i]);
  }

  /** Whether a host is an Apps host does not depend on its letter case. */
  lemma AppsHostIgnoresCase(host: string)
    ensures IsAppsHost(Lower(host)) <==> IsAppsHost(host)
    ensures IsAppsHost(Upper(host)) <==> IsAppsHost(host)
  {
    LowerIdempotent(host);
    LowerUpper(host);
  }

  // ---------------------------------------------------------------------------
  // Tokens
  // ---------------------------------------------------------------------------

  const BearerPrefix := "bearer "

  /** The token of an "Authorization: Bearer <t>" header; the scheme is matched in any letter case. */
  function BearerToken(auth: Option<string>): (r: Option<string>)
    ensures r.Some? ==> r.value != [] && r.value[0] !in Whitespace && r.value[|r.value| - 1] !in Whitespace
    ensures r.Some? ==> auth.Some? && StartsWith(Lower(Strip(auth.value)), BearerPrefix)
  {
    if auth.Some? && StartsWith(Lower(Strip(auth.value)), BearerPrefix) then
      var header := Strip(auth.value);
      assert |Lower(header)| == |header|;
      NonBlank(header[|BearerPrefix|..])
    else None
  }

  /** The stripped text, when anything is left of it. */
  function NonBlank(s: string): (r: Option<string>)
    ensures r.Some? ==> r.value != [] && r.value[0] !in Whitespace && r.value[|r.value| - 1] !in Whitespace
    ensures r.Some? <==> !IsBlank(s)
  {
    var t := Strip(s);
    assert t == Trim(s, Whitespace);
    if t != [] then Some(t) else None
  }

  /** A "Bearer " header round-trips: the token written after the scheme is the token read back. */
  lemma BearerTokenRoundTrip(scheme: string, token: string)
    requires Lower(scheme) == BearerPrefix
    requires token != [] && token[0] !in Whitespace && token[|token| - 1] !in Whitespace
    ensures BearerToken(Some(scheme + token)) == Some(token)
  {
    var header := scheme + token;
    assert header[0] == scheme[0] && LowerChar(scheme[0]) == 'b';
    TrimKeepsTrimmed(header, Whitespace);
    assert Lower(header)[..7] == Lower(scheme);
    assert header[7..] == token;
    TrimKeepsTrimmed(token, Whitespace);
  }

  /**
   * `_get_obo_token`: a non-blank X-Forwarded-Access-Token, stripped; else, on
   * an Apps host only, the bearer token of the Authorization header; else None.
   */
  function OboToken(h: Headers): (r: Option<string>)
    ensures var fwd := Lookup(h, "x-forwarded-access-token");
      fwd.Some? && !IsBlank(fwd.value) ==> r == Some(Strip(fwd.value))
    ensures var fwd := Lookup(h, "x-forwarded-access-token");
      !(fwd.Some? && !IsBlank(fwd.value)) && !IsAppsHost(RequestHost(h)) ==> r.None?
    ensures var fwd := Lookup(h, "x-forwarded-access-token");
      !(fwd.Some? && !IsBlank(fwd.value)) && IsAppsHost(RequestHost(h)) ==> r == BearerToken(Lookup(h, "authorization"))
    ensures r.Some? ==> r.value != []
  {
    var fwd := Lookup(h, "x-forwarded-access-token");
    if fwd.Some? && !IsBlank(fwd.value) then Some(Strip(fwd.value))
    else if IsAppsHost(RequestHost(h)) then BearerToken(Lookup(h, "authorization"))
    else None
  }

  /** Off an Apps host the Authorization header is never read: changing it changes nothing. */
  lemma AuthorizationIgnoredOffApps(h: Headers, auth: string)
    requires !IsAppsHost(RequestHost(h))
    ensures OboToken(h["authorization" := auth]) == OboToken(h)
  {
    var h2 := h["authorization" := auth];
    assert Lookup(h2, "x-forwarded-access-token") == Lookup(h, "x-forwarded-access-token");
    assert Lookup(h2, "x-forwarded-host") == Lookup(h, "x-forwarded-host");
    assert Lookup(h2, "host") == Lookup(h, "host");
  }

  // ---------------------------------------------------------------------------
  // The workspace client
  // ---------------------------------------------------------------------------

  datatype Credentials = Token(token: string) | ServicePrincipal(clientId: string, clientSecret: string)

  /** The host and credentials a workspace client is built from. */
  datatype Client = Client(host: string, credentials: Credentials)

  const HostNotSet := HttpError(503, "DATABRICKS_HOST is not set. Set it in the app environment or open the app from Compute \U{2192} Apps so the workspace URL can be derived.")
  const AuthRequired := HttpError(401, "Open this app from Workspace \U{2192} Compute \U{2192} Apps \U{2192} payment-analysis so the platform forwards your token (recommended), "
    + "or set DATABRICKS_TOKEN, or ensure the app's service principal credentials (DATABRICKS_CLIENT_ID and DATABRICKS_CLIENT_SECRET) are set in the app environment.")

  /** The workspace host: the configured one, else the one derived from the request host. */
  function WorkspaceHost(h: Headers, workspaceUrl: Option<string>, placeholder: string, derive: string -> string): (r: string)
    ensures ConfigRawHost(workspaceUrl, placeholder) != [] ==> r == ConfigRawHost(workspaceUrl, placeholder)
    ensures ConfigRawHost(workspaceUrl, placeholder) == [] ==> r == HostText(Some(derive(RequestHost(h))))
  {
    var raw := ConfigRawHost(workspaceUrl, placeholder);
    if raw != [] then raw else HostText(Some(derive(RequestHost(h))))
  }

  /** The credentials in order of precedence: the user's token, DATABRICKS_TOKEN, then the service principal. */
  function PickCredentials(h: Headers, env: Env): (r: Option<Credentials>)
    ensures OboToken(h).Some? ==> r == Some(Token(OboToken(h).value))
    ensures OboToken(h).None? && Truthy(Lookup(env, "DATABRICKS_TOKEN")) ==> r == Some(Token(env["DATABRICKS_TOKEN"]))
    ensures r.None? <==> (OboToken(h).None? && !Truthy(Lookup(env, "DATABRICKS_TOKEN"))
      && !(Truthy(Lookup(env, "DATABRICKS_CLIENT_ID")) && Truthy(Lookup(env, "DATABRICKS_CLIENT_SECRET"))))
    ensures r.Some? && r.value.Token? ==> r.value.token != []
    ensures r.Some? && r.value.ServicePrincipal? ==> (OboToken(h).None? && !Truthy(Lookup(env, "DATABRICKS_TOKEN"))
      && r.value == ServicePrincipal(env["DATABRICKS_CLIENT_ID"], env["DATABRICKS_CLIENT_SECRET"]))
  {
    var obo := OboToken(h);
    var token := if obo.Some? then obo else Lookup(env, "DATABRICKS_TOKEN");
    if Truthy(token) then Some(Token(token.value))
    else
      var id := Lookup(env, "DATABRICKS_CLIENT_ID");
      var secret := Lookup(env, "DATABRICKS_CLIENT_SECRET");
      if Truthy(id) && Truthy(secret) then Some(ServicePrincipal(id.value, secret.value)) else None
  }

  /**
   * `get_workspace_client`: 503 when no workspace host is configured or
   * derivable; otherwise the absolute host with the first available
   * credentials, or 401 when there are none.
   */
  function GetWorkspaceClient(h: Headers, workspaceUrl: Option<string>, placeholder: string, env: Env,
                              derive: string -> string, absolute: string -> string): (r: Result<Client, HttpError>)
    ensures WorkspaceHost(h, workspaceUrl, placeholder, derive) == [] <==> r == Err(HostNotSet)
    ensures WorkspaceHost(h, workspaceUrl, placeholder, derive) != [] ==>
      (r == Err(AuthRequired) <==> PickCredentials(h, env).None?)
    ensures r.Ok? ==> (r.value.host == absolute(WorkspaceHost(h, workspaceUrl, placeholder, derive))
      && Some(r.value.credentials) == PickCredentials(h, env))
  {
    var raw := WorkspaceHost(h, workspaceUrl, placeholder, derive);
    if raw == [] then Err(HostNotSet)
    else match PickCredentials(h, env)
      case Some(c) => Ok(Client(absolute(raw), c))
      case None => Err(AuthRequired)
  }

  /** A request that carries a user token gets a client on that token, whatever the environment holds. */
  lemma UserTokenBeatsEnvironment(h: Headers, workspaceUrl: Option<string>, placeholder: string, env1: Env, env2: Env,
                                  derive: string -> string, absolute: string -> string)
    requires OboToken(h).Some?
    ensures GetWorkspaceClient(h, workspaceUrl, placeholder, env1, derive, absolute)
         == GetWorkspaceClient(h, workspaceUrl, placeholder, env2, derive, absolute)
    ensures GetWorkspaceClient(h, workspaceUrl, placeholder, env1, derive, absolute).Ok? ==>
      GetWorkspaceClient(h, workspaceUrl, placeholder, env1, derive, absolute).value.credentials == Token(OboToken(h).value)
  {
  }

  /** The sample host that marks an unconfigured bootstrap host. */
  const ExampleHost := "example.databricks.com"

  /**
   * `_effective_databricks_host`: the bootstrap host unless it is blank or the
   * example host; else the host derived from the request, or None.
   */
  function EffectiveDatabricksHost(h: Headers, bootstrapHost: Option<string>, derive: string -> string): (r: Option<string>)
    ensures r.Some? ==> r.value != [] && r.value[|r.value| - 1] != '/'
    ensures HostText(bootstrapHost) != [] && !Contains(HostText(bootstrapHost), ExampleHost) ==> r == Some(HostText(bootstrapHost))
    ensures (HostText(bootstrapHost) == [] || Contains(HostText(bootstrapHost), ExampleHost)) ==>
      (r.None? <==> HostText(Some(derive(RequestHost(h)))) == [])
  {
    var raw := HostText(bootstrapHost);
    if raw != [] && !Contains(raw, ExampleHost) then Some(raw)
    else DerivedHost(h, derive)
  }

  /** The host derived from the request, when one can be derived. */
  function DerivedHost(h: Headers, derive: string -> string): (r: Option<string>)
    ensures r.None? <==> HostText(Some(derive(RequestHost(h)))) == []
    ensures r.Some? ==> r.value == HostText(Some(derive(RequestHost(h)))) && r.value[|r.value| - 1] != '/'
  {
    var derived := HostText(Some(derive(RequestHost(h))));
    if derived != [] then Some(derived) else None
  }

  /** A bootstrap host naming the example workspace is treated exactly like no bootstrap host. */
  lemma ExampleHostIsUnset(h: Headers, bootstrapHost: string, derive: string -> string)
    requires Contains(HostText(Some(bootstrapHost)), ExampleHost)
    ensures EffectiveDatabricksHost(h, Some(bootstrapHost), derive) == EffectiveDatabricksHost(h, None, derive)
  {
    assert HostText(None) == [] by {
      assert Strip("") == [];
    }
  }
}

=== FILE: enrichment.dfy ===
/**
 * Context enrichment in the engine's `decide_*` methods (engine.py): the ML
 * feature vector, the ML score merge, and the prefixed merges of similarity,
 * recommendation and streaming results into the context's metadata.
 *
 * The remote calls (model serving, vector search, the streaming read) are not
 * made here: their results are parameters, `None` standing for a call that
 * failed, timed out or returned an empty answer. The decision context's
 * definition (schemas.py) is not part of this model; `Context` holds the fields
 * the engine reads.
 */
module Enrichment {
  import opened Wrappers
  import opened Strings
  import opened Entities
  import opened Params

  /** The fields of a `DecisionContext` the engine reads or writes. */
  datatype Context = Context(
    merchantId: string,
    amountMinor: int,
    riskScore: Option<real>,
    deviceTrustScore: Option<real>,
    issuerCountry: Option<string>,
    attemptNumber: int,
    supportsPasskey: bool,
    network: Option<string>,
    metadata: Metadata)

  // ---------------------------------------------------------------------------
  // Prefixed merges
  // ---------------------------------------------------------------------------

  /** `{f"{prefix}{k}": v for k, v in m.items()}` */
  function Prefixed(prefix: string, m: Metadata): (r: Metadata)
    ensures forall x :: x in m ==> prefix + x in r && r[prefix + x] == m[x]
    ensures forall k :: k in r ==> exists x :: x in m && k == prefix + x
  {
    var r := map k | k in (set x | x in m :: prefix + x) :: m[DropPrefix(k, prefix, m)];
    forall x | x in m ensures prefix + x in r && r[prefix + x] == m[x] {
      assert (prefix + x)[|prefix|..] == x;
    }
    r
  }

  /** Every prefixed key starts with the prefix, and stripping it gives back the original key and value. */
  lemma PrefixedOrigin(prefix: string, m: Metadata, k: string)
    requires k in Prefixed(prefix, m)
    ensures StartsWith(k, prefix) && k[|prefix|..] in m && Prefixed(prefix, m)[k] == m[k[|prefix|..]]
  {
    var x :| x in m && k == prefix + x;
    assert k[|prefix|..] == x && k[..|prefix|] == prefix;
  }

  /** The key of `m` that `prefix + x` was built from. */
  function DropPrefix(k: string, prefix: string, m: Metadata): (x: string)
    requires exists x :: x in m && k == prefix + x
    ensures x in m && k == prefix + x
  {
    var x :| x in m && k == prefix + x;
    assert k[|prefix|..] == x;
    k[|prefix|..]
  }

  /** `{**meta, **{f"{prefix}{k}": v ...}}`: the prefixed entries, overriding any equal keys. */
  function MergePrefixed(meta: Metadata, prefix: string, extra: Metadata): (r: Metadata)
    ensures r.Keys == meta.Keys + Prefixed(prefix, extra).Keys
    ensures forall x :: x in extra ==> r[prefix + x] == extra[x]
    ensures forall k :: k in meta && !StartsWith(k, prefix) ==> r[k] == meta[k]
  {
    var p := Prefixed(prefix, extra);
    forall k | k in meta && !StartsWith(k, prefix) ensures k !in p {
      if k in p {
        PrefixedOrigin(prefix, extra, k);
      }
    }
    meta + p
  }

  /** A key of the merged metadata either was there before or is the prefixed key of a merged entry. */
  lemma MergePrefixedOrigin(meta: Metadata, prefix: string, extra: Metadata, k: string)
    requires k in MergePrefixed(meta, prefix, extra)
    ensures k in meta || (StartsWith(k, prefix) && k[|prefix|..] in extra)
  {
    if k !in meta {
      PrefixedOrigin(prefix, extra, k);
    }
  }

  /** A key whose first character differs from the prefix's does not start with it. */
  lemma DifferentHead(k: string, prefix: string)
    requires |k| > 0 && |prefix| > 0 && k[0] != prefix[0]
    ensures !StartsWith(k, prefix)
  {
  }

  // ---------------------------------------------------------------------------
  // ML features
  // ---------------------------------------------------------------------------

  /** `network_map.get(network, 5)` */
  function NetworkCode(network: string): (n: int)
    ensures 0 <= n <= 5
    ensures n == 5 <==> network !in {"visa", "mastercard", "amex", "elo", "hipercard"}
  {
    if network == "visa" then 0
    else if network == "mastercard" then 1
    else if network == "amex" then 2
    else if network == "elo" then 3
    else if network == "hipercard" then 4
    else 5
  }

  /** The encoding is one-to-one on the five known networks. */
  lemma NetworkCodeInjective(a: string, b: string)
    requires NetworkCode(a) == NetworkCode(b) < 5
    ensures a == b
  {
  }

  /** `(ctx.network or "visa").lower()`: a missing or empty network counts as visa. */
  function CardNetwork(network: Option<string>): (s: string)
    ensures network.None? || network.value == [] ==> s == "visa"
    ensures network.Some? && network.value != [] ==> s == Lower(network.value)
  {
    if network.Some? && network.value != [] then Lower(network.value) else "visa"
  }

  /** Python's `x or d` for an optional float: `d` when `x` is missing or zero. */
  function OrDefault(x: Option<real>, d: real): (r: real)
    ensures x.Some? && x.value != 0.0 ==> r == x.value
    ensures x.None? || x.value == 0.0 ==> r == d
  {
    if x.Some? && x.value != 0.0 then x.value else d
  }

  /** The feature dict of `_build_ml_features`, without the logarithmic terms. */
  datatype Features = Features(
    amount: real,
    fraudScore: real,
    deviceTrustScore: real,
    isCrossBorder: bool,
    retryCount: int,
    uses3ds: bool,
    merchantSegment: Value,
    cardNetwork: string,
    hourOfDay: int,
    dayOfWeek: int,
    isWeekend: int,
    networkEncoded: int)

  /**
   * Cross-border: the issuer country is present, and upper-cased it differs from
   * the configured domestic country (which is compared as stored).
   */
  predicate IsCrossBorder(issuerCountry: Option<string>, domestic: string) {
    issuerCountry.Some? && issuerCountry.value != [] && Upper(issuerCountry.value) != domestic
  }

  /**
   * `_build_ml_features(ctx, params)`, with the clock's hour and weekday
   * (0 is Monday) passed in.
   */
  function BuildMlFeatures(ctx: Context, params: DecisionParams, hour: int, weekday: int): (f: Features)
    requires 0 <= hour < 24 && 0 <= weekday < 7
    ensures f.amount == ctx.amountMinor as real / 100.0
    ensures f.fraudScore == OrDefault(ctx.riskScore, 0.1) && f.deviceTrustScore == OrDefault(ctx.deviceTrustScore, 0.8)
    ensures f.isCrossBorder <==> IsCrossBorder(ctx.issuerCountry, params.routingDomesticCountry)
    ensures f.isWeekend == (if weekday >= 5 then 1 else 0)
    ensures f.cardNetwork == CardNetwork(ctx.network) && f.networkEncoded == NetworkCode(f.cardNetwork)
    ensures ctx.network.None? ==> f.networkEncoded == 0
    ensures f.merchantSegment == (if "merchant_segment" in ctx.metadata then ctx.metadata["merchant_segment"] else Str("retail"))
    ensures f.retryCount == ctx.attemptNumber && f.uses3ds == ctx.supportsPasskey
  {
    var network := CardNetwork(ctx.network);
    Features(
      ctx.amountMinor as real / 100.0,
      OrDefault(ctx.riskScore, 0.1),
      OrDefault(ctx.deviceTrustScore, 0.8),
      IsCrossBorder(ctx.issuerCountry, params.routingDomesticCountry),
      ctx.attemptNumber,
      ctx.supportsPasskey,
      if "merchant_segment" in ctx.metadata then ctx.metadata["merchant_segment"] else Str("retail"),
      network,
      hour,
      weekday,
      if weekday >= 5 then 1 else 0,
      NetworkCode(network))
  }

  /** A domestic card is never cross-border; a card from any other country always is. */
  lemma CrossBorderCases(country: string, domestic: string)
    ensures !IsCrossBorder(Some(country), Upper(country))
    ensures country != [] && Upper(country) != domestic ==> IsCrossBorder(Some(country), domestic)
    ensures !IsCrossBorder(None, domestic) && !IsCrossBorder(Some(""), domestic)
  {
  }

  // ---------------------------------------------------------------------------
  // ML score merges
  // ---------------------------------------------------------------------------

  /** The risk model's answer: its `risk_score` (when not null) and `risk_tier` ("" when absent). */
  datatype RiskAnswer = RiskAnswer(riskScore: Option<real>, riskTier: Value)

  /** The approval model's answer: `approval_probability` and `model_version` ("" when absent). */
  datatype ApprovalAnswer = ApprovalAnswer(approvalProbability: Option<real>, modelVersion: Value)

  /** Key `k` is absent from both maps or present in both with the same value. */
  predicate SameAt(m: Metadata, n: Metadata, k: string) {
    (k in m <==> k in n) && (k in m ==> m[k] == n[k])
  }

  /** The ML calls are made only when enrichment is enabled and the serving client is available. */
  predicate MlCallsMade(params: DecisionParams, serviceAvailable: bool) {
    params.mlEnrichmentEnabled && serviceAvailable
  }

  /** `float(x) if x else None` for the stored risk score: a zero score is stored as null. */
  function TruthyNum(x: Option<real>): (v: Value)
    ensures x.Some? && x.value != 0.0 ==> v == Num(x.value)
    ensures x.None? || x.value == 0.0 ==> v == Null
  {
    if x.Some? && x.value != 0.0 then Num(x.value) else Null
  }

  /**
   * `_enrich_with_ml`: with the calls skipped the context is returned as is;
   * otherwise a risk answer fills `risk_score` only when the context had none
   * and records `ml_risk_score`/`ml_risk_tier`, and an approval answer with a
   * probability records `ml_approval_probability`/`ml_model_version`.
   */
  function EnrichWithMl(ctx: Context, params: DecisionParams, serviceAvailable: bool,
                        risk: Option<RiskAnswer>, approval: Option<ApprovalAnswer>): (r: Context)
    ensures !MlCallsMade(params, serviceAvailable) ==> r == ctx
    ensures r.(riskScore := ctx.riskScore, metadata := ctx.metadata) == ctx
    ensures ctx.riskScore.Some? ==> r.riskScore == ctx.riskScore
    ensures r.riskScore != ctx.riskScore ==> ctx.riskScore.None? && risk.Some? && r.riskScore == risk.value.riskScore
    ensures MlCallsMade(params, serviceAvailable) && ctx.riskScore.None? && risk.Some? && risk.value.riskScore.Some? ==>
      r.riskScore == risk.value.riskScore
    ensures MlCallsMade(params, serviceAvailable) && risk.Some? ==>
      && "ml_risk_score" in r.metadata && r.metadata["ml_risk_score"] == TruthyNum(risk.value.riskScore)
      && "ml_risk_tier" in r.metadata && r.metadata["ml_risk_tier"] == risk.value.riskTier
    ensures MlCallsMade(params, serviceAvailable) && approval.Some? && approval.value.approvalProbability.Some? ==>
      && "ml_approval_probability" in r.metadata
      && r.metadata["ml_approval_probability"] == Num(approval.value.approvalProbability.value)
      && "ml_model_version" in r.metadata && r.metadata["ml_model_version"] == approval.value.modelVersion
    ensures risk.None? ==> SameAt(r.metadata, ctx.metadata, "ml_risk_score") && SameAt(r.metadata, ctx.metadata, "ml_risk_tier")
    ensures approval.None? || approval.value.approvalProbability.None? ==>
      SameAt(r.metadata, ctx.metadata, "ml_approval_probability") && SameAt(r.metadata, ctx.metadata, "ml_model_version")
    ensures ctx.metadata.Keys <= r.metadata.Keys
    ensures forall k :: k in r.metadata && (k !in ctx.metadata || r.metadata[k] != ctx.metadata[k]) ==>
      k in {"ml_risk_score", "ml_risk_tier", "ml_approval_probability", "ml_model_version"}
  {
    if !MlCallsMade(params, serviceAvailable) then ctx
    else
      var afterRisk :=
        if risk.None? then ctx
        else
          var score := risk.value.riskScore;
          var filled := if score.Some? && ctx.riskScore.None? then ctx.(riskScore := score) else ctx;
          filled.(metadata := filled.metadata["ml_risk_score" := TruthyNum(score)]["ml_risk_tier" := risk.value.riskTier]);
      if approval.Some? && approval.value.approvalProbability.Some? then
        afterRisk.(metadata := afterRisk.metadata
          ["ml_approval_probability" := Num(approval.value.approvalProbability.value)]
          ["ml_model_version" := approval.value.modelVersion])
      else afterRisk
  }

  /** The retry model's answer. */
  datatype RetryAnswer = RetryAnswer(
    retrySuccessProbability: Option<real>,
    shouldRetry: Value,
    modelVersion: Value,
    retryDelaySeconds: Option<real>,
    suggestedDelaySeconds: Option<real>)

  /** `retry_delay_seconds or suggested_delay_s`: the first when present and non-zero, else the second. */
  function RetryDelay(a: RetryAnswer): (d: Option<real>)
    ensures a.retryDelaySeconds.Some? && a.retryDelaySeconds.value != 0.0 ==> d == a.retryDelaySeconds
    ensures a.retryDelaySeconds.None? || a.retryDelaySeconds.value == 0.0 ==> d == a.suggestedDelaySeconds
  {
    if a.retryDelaySeconds.Some? && a.retryDelaySeconds.value != 0.0 then a.retryDelaySeconds else a.suggestedDelaySeconds
  }

  /** The retry path's ML merge: only an answer with a success probability is recorded. */
  function MergeRetryAnswer(meta: Metadata, answer: Option<RetryAnswer>): (r: Metadata)
    ensures answer.None? || answer.value.retrySuccessProbability.None? ==> r == meta
    ensures answer.Some? && answer.value.retrySuccessProbability.Some? ==>
      && "ml_retry_probability" in r && r["ml_retry_probability"] == Num(answer.value.retrySuccessProbability.value)
      && "ml_should_retry" in r && r["ml_should_retry"] == answer.value.shouldRetry
      && "ml_model_version" in r && r["ml_model_version"] == answer.value.modelVersion
    ensures answer.Some? && answer.value.retrySuccessProbability.Some? && RetryDelay(answer.value).Some? ==>
      "ml_retry_delay_seconds" in r && r["ml_retry_delay_seconds"] == Num(RetryDelay(answer.value).value)
    ensures answer.Some? && RetryDelay(answer.value).None? ==> SameAt(r, meta, "ml_retry_delay_seconds")
    ensures forall k :: k in r && (k !in meta || r[k] != meta[k]) ==>
      k in {"ml_retry_probability", "ml_should_retry", "ml_model_version", "ml_retry_delay_seconds"}
    ensures meta.Keys <= r.Keys
  {
    if answer.None? || answer.value.retrySuccessProbability.None? then meta
    else
      var a := answer.value;
      var m := meta["ml_retry_probability" := Num(a.retrySuccessProbability.value)]
        ["ml_should_retry" := a.shouldRetry]["ml_model_version" := a.modelVersion];
      assert "ml_retry_probability"[9] != "ml_retry_delay_seconds"[9];
      match RetryDelay(a)
      case Some(delay) => m["ml_retry_delay_seconds" := Num(delay)]
      case None => m
  }

  /** The routing model's answer. */
  datatype RoutingAnswer = RoutingAnswer(recommendedSolution: Option<string>, confidence: Value, alternatives: Value)

  /** The keys the routing path's ML merge writes. */
  const RoutingKeys: set<string> := {"ml_recommended_route", "ml_route_confidence", "ml_route_alternatives"}

  /** The routing path's ML merge: only a non-empty recommended route is recorded. */
  function MergeRoutingAnswer(meta: Metadata, answer: Option<RoutingAnswer>): (r: Metadata)
    ensures answer.None? || !Truthy(answer.value.recommendedSolution) ==> r == meta
    ensures answer.Some? && Truthy(answer.value.recommendedSolution) ==>
      && "ml_recommended_route" in r && r["ml_recommended_route"] == Str(answer.value.recommendedSolution.value)
      && "ml_route_confidence" in r && r["ml_route_confidence"] == answer.value.confidence
      && "ml_route_alternatives" in r && r["ml_route_alternatives"] == answer.value.alternatives
    ensures r.Keys == meta.Keys + (if answer.Some? && Truthy(answer.value.recommendedSolution) then RoutingKeys else {})
    ensures forall k :: k in meta && k !in RoutingKeys ==> r[k] == meta[k]
  {
    if answer.Some? && answer.value.recommendedSolution.Some? && answer.value.recommendedSolution.value != [] then
      meta["ml_recommended_route" := Str(answer.value.recommendedSolution.value)]
        ["ml_route_confidence" := answer.value.confidence]["ml_route_alternatives" := answer.value.alternatives]
    else meta
  }

  /** Merging the same routing answer twice is merging it once. */
  lemma MergeRoutingIdempotent(meta: Metadata, answer: Option<RoutingAnswer>)
    ensures MergeRoutingAnswer(MergeRoutingAnswer(meta, answer), answer) == MergeRoutingAnswer(meta, answer)
  {
    var once := MergeRoutingAnswer(meta, answer);
    var twice := MergeRoutingAnswer(once, answer);
    assert twice.Keys == once.Keys;
    forall k | k in once ensures twice[k] == once[k] {
      if k !in RoutingKeys {
        assert k in meta;
      }
    }
  }

  /** Merging the same retry answer twice is merging it once. */
  lemma MergeRetryIdempotent(meta: Metadata, answer: Option<RetryAnswer>)
    ensures MergeRetryAnswer(MergeRetryAnswer(meta, answer), answer) == MergeRetryAnswer(meta, answer)
  {
    var once := MergeRetryAnswer(meta, answer);
    var twice := MergeRetryAnswer(once, answer);
    if answer.Some? && answer.value.retrySuccessProbability.Some? {
      assert twice.Keys == once.Keys;
      forall k | k in once ensures twice[k] == once[k] {
      }
    }
  }

  // ---------------------------------------------------------------------------
  // The authentication enrichment pipeline and the online features
  // ---------------------------------------------------------------------------

  /** The top agent recommendation's fields the engine copies. */
  datatype TopRecommendation = TopRecommendation(actionSummary: Value, confidence: Value, expectedImpactPct: Value)

  const RecommendationKeys: set<string> := {"agent_recommendation", "agent_confidence", "agent_expected_impact"}

  /**
   * The context `decide_authentication` hands to the policy: the ML merge, then
   * the similar-transaction summary under "vs_", the top recommendation under
   * "agent_*", and the streaming features under "stream_".
   */
  function EnrichAuthentication(ctx: Context, params: DecisionParams, serviceAvailable: bool,
                                risk: Option<RiskAnswer>, approval: Option<ApprovalAnswer>,
                                similar: Metadata, rec: Option<TopRecommendation>, streaming: Metadata): (r: Context)
    ensures r.riskScore == EnrichWithMl(ctx, params, serviceAvailable, risk, approval).riskScore
    ensures r == EnrichWithMl(ctx, params, serviceAvailable, risk, approval).(metadata := r.metadata)
    ensures r.metadata.Keys == EnrichWithMl(ctx, params, serviceAvailable, risk, approval).metadata.Keys
      + Prefixed("vs_", similar).Keys + (if rec.Some? then RecommendationKeys else {}) + Prefixed("stream_", streaming).Keys
    ensures forall x :: x in similar ==> "vs_" + x in r.metadata && r.metadata["vs_" + x] == similar[x]
    ensures rec.Some? ==>
      r.metadata["agent_recommendation"] == rec.value.actionSummary && r.metadata["agent_confidence"] == rec.value.confidence
      && r.metadata["agent_expected_impact"] == rec.value.expectedImpactPct
    ensures forall x :: x in streaming ==> "stream_" + x in r.metadata && r.metadata["stream_" + x] == streaming[x]
    ensures var ml := EnrichWithMl(ctx, params, serviceAvailable, risk, approval).metadata;
      forall k :: k in ml && !StartsWith(k, "vs_") && k !in RecommendationKeys && !StartsWith(k, "stream_") ==> r.metadata[k] == ml[k]
  {
    var ml := EnrichWithMl(ctx, params, serviceAvailable, risk, approval);
    var withVs := MergePrefixed(ml.metadata, "vs_", similar);
    var withRec := WithRecommendation(withVs, rec);
    var withStream := MergePrefixed(withRec, "stream_", streaming);
    VsKeysSurvive(ml.metadata, similar, rec, streaming);
    RecommendationKeysApart();
    ml.(metadata := withStream)
  }

  /** No recommendation key starts with "stream_", so the streaming merge keeps them. */
  lemma RecommendationKeysApart()
    ensures forall k :: k in RecommendationKeys ==> !StartsWith(k, "stream_")
  {
    DifferentHead("agent_recommendation", "stream_");
    DifferentHead("agent_confidence", "stream_");
    DifferentHead("agent_expected_impact", "stream_");
  }

  /** The "vs_" entries outlive the recommendation and streaming merges that follow them. */
  lemma VsKeysSurvive(meta: Metadata, similar: Metadata, rec: Option<TopRecommendation>, streaming: Metadata)
    ensures var r := MergePrefixed(WithRecommendation(MergePrefixed(meta, "vs_", similar), rec), "stream_", streaming);
      forall x :: x in similar ==> "vs_" + x in r && r["vs_" + x] == similar[x]
  {
    var withVs := MergePrefixed(meta, "vs_", similar);
    var withRec := WithRecommendation(withVs, rec);
    var r := MergePrefixed(withRec, "stream_", streaming);
    forall x | x in similar ensures "vs_" + x in r && r["vs_" + x] == similar[x] {
      VsKeyApart(x);
      assert "vs_" + x in withVs;
    }
  }

  /** A "vs_" key is no recommendation key and does not start with "stream_". */
  lemma VsKeyApart(x: string)
    ensures "vs_" + x !in RecommendationKeys && !StartsWith("vs_" + x, "stream_")
  {
    var k := "vs_" + x;
    assert k[0] == 'v';
    assert "agent_recommendation"[0] == 'a' && "agent_confidence"[0] == 'a' && "agent_expected_impact"[0] == 'a';
    DifferentHead(k, "stream_");
  }

  /** The top recommendation's fields under the "agent_" keys, when there is one. */
  function WithRecommendation(meta: Metadata, rec: Option<TopRecommendation>): (r: Metadata)
    ensures rec.None? ==> r == meta
    ensures r.Keys == meta.Keys + (if rec.Some? then RecommendationKeys else {})
    ensures forall k :: k in meta && k !in RecommendationKeys ==> r[k] == meta[k]
    ensures rec.Some? ==>
      r["agent_recommendation"] == rec.value.actionSummary && r["agent_confidence"] == rec.value.confidence
      && r["agent_expected_impact"] == rec.value.expectedImpactPct
  {
    if rec.None? then meta
    else meta["agent_recommendation" := rec.value.actionSummary]
      ["agent_confidence" := rec.value.confidence]["agent_expected_impact" := rec.value.expectedImpactPct]
  }

  /** The "ml_" entries of a metadata map: what `decide_*` writes to the online features table. */
  function MlFeatures(meta: Metadata): (f: Metadata)
    ensures forall k :: k in f <==> k in meta && StartsWith(k, "ml_")
    ensures forall k :: k in f ==> f[k] == meta[k]
  {
    map k | k in meta && StartsWith(k, "ml_") :: meta[k]
  }

  /**
   * Every feature written after authentication enrichment is an "ml_" entry
   * that the caller's metadata already carried or that the ML merge wrote;
   * similarity, recommendation and streaming entries are never written.
   */
  lemma AuthenticationFeaturesComeFromMl(ctx: Context, params: DecisionParams, serviceAvailable: bool,
                                          risk: Option<RiskAnswer>, approval: Option<ApprovalAnswer>,
                                          similar: Metadata, rec: Option<TopRecommendation>, streaming: Metadata)
    ensures var r := EnrichAuthentication(ctx, params, serviceAvailable, risk, approval, similar, rec, streaming);
      var ml := EnrichWithMl(ctx, params, serviceAvailable, risk, approval);
      MlFeatures(r.metadata) == MlFeatures(ml.metadata)
  {
    var ml := EnrichWithMl(ctx, params, serviceAvailable, risk, approval);
    var withVs := MergePrefixed(ml.metadata, "vs_", similar);
    var withRec := WithRecommendation(withVs, rec);
    MlFeaturesIgnorePrefixed(ml.metadata, "vs_", similar);
    MlFeaturesIgnoreRecommendation(withVs, rec);
    MlFeaturesIgnorePrefixed(withRec, "stream_", streaming);
  }

  /** A merge under a prefix that does not begin with 'm' leaves the "ml_" entries alone. */
  lemma MlFeaturesIgnorePrefixed(meta: Metadata, prefix: string, extra: Metadata)
    requires |prefix| > 0 && prefix[0] != 'm'
    ensures MlFeatures(MergePrefixed(meta, prefix, extra)) == MlFeatures(meta)
  {
    var r := MergePrefixed(meta, prefix, extra);
    forall k | StartsWith(k, "ml_") ensures k !in Prefixed(prefix, extra) {
      assert k[..3] == "ml_" && k[0] == 'm';
      DifferentHead(k, prefix);
      if k in Prefixed(prefix, extra) {
        PrefixedOrigin(prefix, extra, k);
      }
    }
    assert MlFeatures(r).Keys == MlFeatures(meta).Keys;
  }

  /** The "agent_" entries are not "ml_" entries. */
  lemma MlFeaturesIgnoreRecommendation(meta: Metadata, rec: Option<TopRecommendation>)
    ensures MlFeatures(WithRecommendation(meta, rec)) == MlFeatures(meta)
  {
    var r := WithRecommendation(meta, rec);
    forall k | k in RecommendationKeys ensures !StartsWith(k, "ml_") {
      assert k[0] == 'a';
      DifferentHead(k, "ml_");
    }
  }
}

=== FILE: entities.dfy ===
/**
 * The persisted entities of the decisioning backend and their field defaults
 * (db_models.py), plus the loosely-typed values that travel in metadata maps.
 */
module Entities {
  import opened Wrappers

  /** A Python float: a finite value, an infinity, or NaN. */
  datatype PyFloat = Finite(r: real) | PosInf | NegInf | NaN

  /** `float(s)`: the float `s` spells, or `None` where Python raises ValueError. */
  type FloatParser = string -> Option<PyFloat>

  /** `int(str)`: the integer `s` spells, or `None` where Python raises ValueError. */
  type IntParser = string -> Option<int>

  /** A point in time: the model's integer clock, in seconds. */
  type Time = int

  /** A JSON-like value held in metadata, request and response maps. */
  datatype Value =
    | Str(s: string)
    | Num(r: real)
    | Int(i: int)
    | Bool(b: bool)
    | Null
    | StrList(items: seq<string>)

  /** Metadata maps of the API: string keys, loosely-typed values. */
  type Metadata = map<string, Value>

  // ---------------------------------------------------------------------------
  // Audit ids: `uuid4().hex`, 32 lower-case hexadecimal digits of a 128-bit number
  // ---------------------------------------------------------------------------

  /** 2^128: a uuid is a 128-bit number. */
  const UuidBound: nat := Pow16(32)

  function HexDigit(d: nat): (c: char)
    requires d < 16
  {
    if d < 10 then ('0' as int + d) as char else ('a' as int + d - 10) as char
  }

  predicate IsHexDigit(c: char) {
    '0' <= c <= '9' || 'a' <= c <= 'f'
  }

  function HexDigitValue(c: char): (d: nat)
    requires IsHexDigit(c)
    ensures d < 16 && HexDigit(d) == c
  {
    if '0' <= c <= '9' then c as int - '0' as int else c as int - 'a' as int + 10
  }

  function Pow16(n: nat): (p: nat)
    ensures p > 0
  {
    if n == 0 then 1 else 16 * Pow16(n - 1)
  }

  /** The `width` lowest hexadecimal digits of `u`, most significant first. */
  function Hex(u: nat, width: nat): (s: string)
    ensures |s| == width
    ensures forall i :: 0 <= i < |s| ==> IsHexDigit(s[i])
  {
    if width == 0 then [] else Hex(u / 16, width - 1) + [HexDigit(u % 16)]
  }

  /** The number a string of hexadecimal digits spells. */
  function HexValue(s: string): (n: nat)
    requires forall i :: 0 <= i < |s| ==> IsHexDigit(s[i])
    ensures n < Pow16(|s|)
  {
    if |s| == 0 then 0 else 16 * HexValue(s[..|s| - 1]) + HexDigitValue(s[|s| - 1])
  }

  /** Reading the digits back gives `u` whenever it fits in `width` digits. */
  lemma {:induction false} HexRoundTrip(u: nat, width: nat)
    requires u < Pow16(width)
    ensures HexValue(Hex(u, width)) == u
  {
    if width > 0 {
      var s := Hex(u, width);
      assert s[..|s| - 1] == Hex(u / 16, width - 1);
      assert u / 16 < Pow16(width - 1);
      HexRoundTrip(u / 16, width - 1);
      assert HexDigitValue(HexDigit(u % 16)) == u % 16;
    }
  }

  /** `uuid4().hex` of the 128-bit number `u`. */
  function AuditId(u: nat): (s: string)
    requires u < UuidBound
    ensures |s| == 32 && forall i :: 0 <= i < |s| ==> IsHexDigit(s[i])
  {
    Hex(u, 32)
  }

  /** Distinct 128-bit draws give distinct audit ids, so the unique index only rejects a repeat. */
  lemma AuditIdInjective(u: nat, v: nat)
    requires u < UuidBound && v < UuidBound && u != v
    ensures AuditId(u) != AuditId(v)
  {
    HexRoundTrip(u, 32);
    HexRoundTrip(v, 32);
  }

  // ---------------------------------------------------------------------------
  // Tables
  // ---------------------------------------------------------------------------

  /** Audit log of one decision; `audit_id` carries a unique index. */
  datatype DecisionLog = DecisionLog(
    auditId: string,
    decisionType: string,
    request: Metadata,
    response: Metadata,
    createdAt: Time)

  /** A log row appended to the table, or `None` when its audit id is already taken. */
  function AppendDecisionLog(logs: seq<DecisionLog>, log: DecisionLog): (r: Option<seq<DecisionLog>>)
    ensures r.Some? <==> forall i :: 0 <= i < |logs| ==> logs[i].auditId != log.auditId
    ensures r.Some? ==> r.value == logs + [log]
  {
    if exists i :: 0 <= i < |logs| && logs[i].auditId == log.auditId then None else Some(logs + [log])
  }

  /** Audit ids stay unique in a table built only by `AppendDecisionLog`. */
  ghost predicate UniqueAuditIds(logs: seq<DecisionLog>) {
    forall i, j :: 0 <= i < j < |logs| ==> logs[i].auditId != logs[j].auditId
  }

  lemma AppendKeepsUnique(logs: seq<DecisionLog>, log: DecisionLog)
    requires UniqueAuditIds(logs) && AppendDecisionLog(logs, log).Some?
    ensures UniqueAuditIds(AppendDecisionLog(logs, log).value)
  {
  }

  const ExperimentDraft := "draft"
  const ExperimentRunning := "running"
  const ExperimentStopped := "stopped"

  /** An A/B experiment; status is one of draft, running, paused, stopped. */
  datatype Experiment = Experiment(
    id: string,
    createdAt: Time,
    name: string,
    description: Option<string>,
    status: string,
    startedAt: Option<Time>,
    endedAt: Option<Time>)

  /** A freshly created experiment: in draft, never started or ended. */
  function NewExperiment(id: string, name: string, description: Option<string>, now: Time): (e: Experiment)
    ensures e.id == id && e.name == name && e.description == description && e.createdAt == now
    ensures e.status == ExperimentDraft && e.startedAt == None && e.endedAt == None
  {
    Experiment(id, now, name, description, ExperimentDraft, None, None)
  }

  datatype ExperimentAssignment = ExperimentAssignment(
    experimentId: string,
    subjectKey: string,
    variant: string,
    createdAt: Time)

  /** One tunable parameter row of the decision_config table. */
  datatype DecisionConfig = DecisionConfig(key: string, value: string, description: Option<string>, updatedAt: Time)

  /** A decline code eligible for Smart Retry; category is soft, transient or issuer. */
  datatype RetryableDeclineCode = RetryableDeclineCode(
    code: string,
    codeLabel: string,
    category: string,
    defaultBackoffSeconds: int,
    maxAttempts: int,
    isActive: bool,
    updatedAt: Time)

  const DefaultDeclineCategory := "soft"
  const DefaultBackoffSeconds := 900
  const DefaultMaxAttempts := 3

  /** A new decline-code row: soft, active, three attempts, 900 s backoff unless given. */
  function NewRetryableDeclineCode(code: string, codeLabel: string, backoff: Option<int>, now: Time): (c: RetryableDeclineCode)
    ensures c.code == code && c.codeLabel == codeLabel && c.updatedAt == now
    ensures c.category == DefaultDeclineCategory && c.maxAttempts == DefaultMaxAttempts && c.isActive
    ensures c.defaultBackoffSeconds == (if backoff.Some? then backoff.value else DefaultBackoffSeconds)
  {
    RetryableDeclineCode(code, codeLabel, DefaultDeclineCategory, backoff.GetOr(DefaultBackoffSeconds), DefaultMaxAttempts, true, now)
  }

  /** Performance snapshot of one PSP route; cost 0 is cheapest and 1 most expensive. */
  datatype RoutePerformance = RoutePerformance(
    routeName: string,
    approvalRatePct: PyFloat,
    avgLatencyMs: real,
    costScore: real,
    isActive: bool,
    updatedAt: Time)

  const DefaultApprovalRatePct: real := 50.0
  const DefaultAvgLatencyMs: real := 500.0
  const DefaultCostScore: real := 0.5

  function NewRoutePerformance(name: string, now: Time): (p: RoutePerformance)
    ensures p.routeName == name && p.isActive && p.updatedAt == now
    ensures p.approvalRatePct == Finite(50.0) && p.avgLatencyMs == 500.0 && p.costScore == 0.5
  {
    RoutePerformance(name, Finite(DefaultApprovalRatePct), DefaultAvgLatencyMs, DefaultCostScore, true, now)
  }

  /** The recorded outcome of an earlier decision, linked by audit id. */
  datatype DecisionOutcome = DecisionOutcome(
    auditId: string,
    decisionType: string,
    outcome: string,
    outcomeCode: Option<string>,
    outcomeReason: Option<string>,
    latencyMs: Option<int>,
    extra: Metadata,
    createdAt: Time)

  /** A new outcome row; `extra` is the empty map when no metadata is given. */
  function NewDecisionOutcome(
    auditId: string, decisionType: string, outcome: string,
    code: Option<string>, reason: Option<string>, latencyMs: Option<int>,
    extra: Option<Metadata>, now: Time): (o: DecisionOutcome)
    ensures o.auditId == auditId && o.decisionType == decisionType && o.outcome == outcome
    ensures o.outcomeCode == code && o.outcomeReason == reason && o.latencyMs == latencyMs
    ensures extra.None? ==> o.extra == map[]
    ensures extra.Some? ==> o.extra == extra.value
  {
    DecisionOutcome(auditId, decisionType, outcome, code, reason, latencyMs, extra.GetOr(map[]), now)
  }

  const ProposalPending := "pending"
  const ProposalApproved := "approved"
  const ProposalRejected := "rejected"
  const ProposalApplied := "applied"

  /** An agent-proposed configuration change awaiting operator review. */
  datatype ProposedConfigChange = ProposedConfigChange(
    id: string,
    createdAt: Time,
    sourceAgent: string,
    changeType: string,
    targetKey: string,
    currentValue: Option<string>,
    proposedValue: string,
    rationale: string,
    expectedImpactPct: Option<real>,
    confidence: real,
    status: string,
    reviewedBy: Option<string>,
    reviewedAt: Option<Time>,
    appliedAt: Option<Time>)

  const DefaultConfidence: real := 0.5

  /** A new proposal: pending, unreviewed, confidence 0.5 unless given. */
  function NewProposal(
    id: string, now: Time, sourceAgent: string, changeType: string, targetKey: string,
    currentValue: Option<string>, proposedValue: string, rationale: string,
    expectedImpactPct: Option<real>, confidence: Option<real>): (p: ProposedConfigChange)
    ensures p.id == id && p.changeType == changeType && p.targetKey == targetKey
    ensures p.proposedValue == proposedValue && p.rationale == rationale
    ensures p.status == ProposalPending && p.reviewedBy == None && p.reviewedAt == None && p.appliedAt == None
    ensures p.confidence == (if confidence.Some? then confidence.value else 0.5)
  {
    ProposedConfigChange(id, now, sourceAgent, changeType, targetKey, currentValue, proposedValue,
      rationale, expectedImpactPct, confidence.GetOr(DefaultConfidence), ProposalPending, None, None, None)
  }

  /** An `HTTPException` (or a request-validation failure) as the API reports it. */
  datatype HttpError = HttpError(status: int, detail: string)

  /** What a request body or query parameter that fails validation yields. */
  const ValidationFailed := HttpError(422, "Unprocessable Entity")

  /** What an exception escaping a handler yields. */
  const InternalError := HttpError(500, "Internal Server Error")
}

=== FILE: experiments.dfy ===
/**
 * The experiments API (routes/experiments.py): experiment creation, start and
 * stop, manual assignment, the two listings, and the results analysis that
 * joins assignments, decision logs and outcomes into per-variant statistics,
 * a lift, a two-proportion z-test and a recommendation.
 *
 * The store is the `AbStore` of the decision path; the decision logs and
 * outcomes are passed in as the rows of their tables. The normal CDF behind
 * the p-value is a parameter.
 */
module Experiments {
  import opened Wrappers
  import opened Sorting
  import opened Entities
  import opened Lakebase
  import opened DecisionRoute

  const ExperimentNotFound := HttpError(404, "Experiment not found")
  const ExperimentNotAssignable := HttpError(400, "Experiment is not assignable")

  const ExperimentListMax := 200
  const AssignmentListMax := 500

  // ---------------------------------------------------------------------------
  // Listings, newest first
  // ---------------------------------------------------------------------------

  /**
   * `list_experiments`: the limit must lie in [1, 200] (the query validation;
   * the clamp after it changes nothing), then the newest experiments up to it.
   */
  function ListExperiments(rows: seq<Experiment>, limit: int): (r: Result<seq<Experiment>, HttpError>)
    ensures r.Err? <==> !(1 <= limit <= ExperimentListMax)
    ensures r.Err? ==> r.error == ValidationFailed
    ensures r.Ok? ==> NewestListing(r.value, rows, ExperimentTime, limit)
    ensures r.Ok? ==> r.value == NewestFirst(rows, ExperimentTime, limit)
  {
    if !(1 <= limit <= ExperimentListMax) then Err(ValidationFailed)
    else Ok(NewestFirst(rows, ExperimentTime, ClampLimit(limit, ExperimentListMax)))
  }

  /** The ordering column of `list_experiments`. */
  function ExperimentTime(e: Experiment): int {
    e.createdAt
  }

  /** The ordering column of `list_assignments`. */
  function AssignmentTime(a: ExperimentAssignment): int {
    a.createdAt
  }

  /** The assignment rows of one experiment, in table order. */
  function AssignmentsOf(rows: seq<ExperimentAssignment>, experimentId: string): (r: seq<ExperimentAssignment>)
    ensures forall x :: x in r <==> x in rows && x.experimentId == experimentId
    ensures forall x :: multiset(r)[x] == if x.experimentId == experimentId then multiset(rows)[x] else 0
  {
    FilterCounts(rows, (a: ExperimentAssignment) => a.experimentId == experimentId);
    Filter(rows, (a: ExperimentAssignment) => a.experimentId == experimentId)
  }

  /**
   * `list_assignments`: the experiment's assignments, newest first; the limit
   * is clamped to [1, 500], so a limit below 1 still returns the newest row.
   */
  function ListAssignments(rows: seq<ExperimentAssignment>, experimentId: string, limit: int): (r: seq<ExperimentAssignment>)
    ensures NewestListing(r, AssignmentsOf(rows, experimentId), AssignmentTime, ClampLimit(limit, AssignmentListMax))
    ensures limit <= 1 && (exists x :: x in rows && x.experimentId == experimentId) ==> |r| == 1
    ensures |rows| <= limit <= AssignmentListMax ==> forall x :: x in rows && x.experimentId == experimentId ==> x in r
  {
    var mine := AssignmentsOf(rows, experimentId);
    assert |mine| <= |rows|;
    NewestFirst(mine, AssignmentTime, ClampLimit(limit, AssignmentListMax))
  }

  /** Raising the limit keeps the rows a lower limit returns, at the front and in order. */
  lemma ListAssignmentsLimitPrefix(rows: seq<ExperimentAssignment>, experimentId: string, lo: int, hi: int)
    requires lo <= hi
    ensures ListAssignments(rows, experimentId, lo) <= ListAssignments(rows, experimentId, hi)
  {
    NewestFirstPrefix(AssignmentsOf(rows, experimentId), AssignmentTime,
      ClampLimit(lo, AssignmentListMax), ClampLimit(hi, AssignmentListMax));
  }

  // ---------------------------------------------------------------------------
  // Lifecycle and assignment
  // ---------------------------------------------------------------------------

  /** `create_experiment`: an empty name fails validation; otherwise a draft experiment is stored under `id`. */
  function CreateExperiment(store: AbStore, id: string, name: string, description: Option<string>, now: Time): (r: Result<(Experiment, AbStore), HttpError>)
    ensures r.Err? <==> name == []
    ensures r.Err? ==> r.error == ValidationFailed
    ensures r.Ok? ==> r.value.0.status == ExperimentDraft && r.value.0.startedAt.None? && r.value.0.endedAt.None?
    ensures r.Ok? ==> r.value.0.name == name && r.value.0.id == id && r.value.0.createdAt == now
    ensures r.Ok? ==> r.value.1 == AbStore(store.experiments[id := r.value.0], store.assignments)
  {
    if name == [] then Err(ValidationFailed)
    else
      var e := NewExperiment(id, name, description, now);
      Ok((e, AbStore(store.experiments[id := e], store.assignments)))
  }

  /**
   * A created experiment is ready for use: starting it finds it and records
   * the start time, and a subject with a variant can be assigned to it.
   */
  lemma CreatedExperimentUsable(store: AbStore, id: string, name: string, description: Option<string>, now: Time,
                                later: Time, subject: string, variant: string)
    requires name != []
    ensures var s := CreateExperiment(store, id, name, description, now).value.1;
      StartExperiment(s, id, later).Ok? && StartExperiment(s, id, later).value.0.startedAt == Some(later)
      && (subject != [] && variant != [] ==> Assign(s, id, subject, variant, later).Ok?)
  {
  }

  /** `start_experiment`: the experiment runs; a start time already recorded is kept. */
  function StartExperiment(store: AbStore, id: string, now: Time): (r: Result<(Experiment, AbStore), HttpError>)
    ensures r.Err? <==> id !in store.experiments
    ensures r.Err? ==> r.error == ExperimentNotFound
    ensures r.Ok? ==> var e := store.experiments[id];
      r.value.0 == e.(status := ExperimentRunning, startedAt := Some(if e.startedAt.Some? then e.startedAt.value else now))
    ensures r.Ok? ==> r.value.1 == AbStore(store.experiments[id := r.value.0], store.assignments)
  {
    if id !in store.experiments then Err(ExperimentNotFound)
    else
      var e := store.experiments[id];
      var started := e.(status := ExperimentRunning, startedAt := if e.startedAt.Some? then e.startedAt else Some(now));
      Ok((started, AbStore(store.experiments[id := started], store.assignments)))
  }

  /** `stop_experiment`: the experiment is stopped, with the end time overwritten by `now`. */
  function StopExperiment(store: AbStore, id: string, now: Time): (r: Result<(Experiment, AbStore), HttpError>)
    ensures r.Err? <==> id !in store.experiments
    ensures r.Err? ==> r.error == ExperimentNotFound
    ensures r.Ok? ==> r.value.0 == store.experiments[id].(status := ExperimentStopped, endedAt := Some(now))
    ensures r.Ok? ==> r.value.1 == AbStore(store.experiments[id := r.value.0], store.assignments)
  {
    if id !in store.experiments then Err(ExperimentNotFound)
    else
      var stopped := store.experiments[id].(status := ExperimentStopped, endedAt := Some(now));
      Ok((stopped, AbStore(store.experiments[id := stopped], store.assignments)))
  }

  /**
   * Starting, stopping and starting again: the experiment runs with its first
   * start time, and the end time of the stop is still recorded.
   */
  lemma RestartKeepsFirstStartAndEnd(store: AbStore, id: string, t1: Time, t2: Time, t3: Time)
    requires id in store.experiments && store.experiments[id].startedAt.None?
    ensures var s1 := StartExperiment(store, id, t1).value.1;
      var s2 := StopExperiment(s1, id, t2).value.1;
      var e := StartExperiment(s2, id, t3).value.0;
      e.status == ExperimentRunning && e.startedAt == Some(t1) && e.endedAt == Some(t2)
  {
  }

  /** Starting an experiment twice is starting it once. */
  lemma StartIdempotent(store: AbStore, id: string, t1: Time, t2: Time)
    requires id in store.experiments
    ensures var s1 := StartExperiment(store, id, t1).value.1;
      StartExperiment(s1, id, t2).value.1 == s1
  {
    var s1 := StartExperiment(store, id, t1).value.1;
    assert s1.experiments[id := s1.experiments[id]] == s1.experiments;
  }

  /**
   * `assign`: empty subject or variant fails validation; an unknown experiment
   * is 404, one neither running nor in draft is 400; otherwise the assignment
   * is appended as given, whatever the subject already has.
   */
  function Assign(store: AbStore, id: string, subject: string, variant: string, now: Time): (r: Result<(ExperimentAssignment, AbStore), HttpError>)
    ensures r.Ok? <==> subject != [] && variant != [] && id in store.experiments && Assignable(store.experiments[id])
    ensures subject == [] || variant == [] ==> r == Err(ValidationFailed)
    ensures subject != [] && variant != [] && id !in store.experiments ==> r == Err(ExperimentNotFound)
    ensures r.Err? && id in store.experiments && subject != [] && variant != [] ==> r.error == ExperimentNotAssignable
    ensures r.Ok? ==> r.value.0 == ExperimentAssignment(id, subject, variant, now)
    ensures r.Ok? ==> r.value.1 == AbStore(store.experiments, store.assignments + [r.value.0])
  {
    if subject == [] || variant == [] then Err(ValidationFailed)
    else if id !in store.experiments then Err(ExperimentNotFound)
    else if !Assignable(store.experiments[id]) then Err(ExperimentNotAssignable)
    else
      var a := ExperimentAssignment(id, subject, variant, now);
      Ok((a, AbStore(store.experiments, store.assignments + [a])))
  }

  /**
   * Unlike enrollment on the decision path, a manual assignment of a subject
   * that is already enrolled adds a second row: the table no longer holds one
   * assignment per subject. The decision path still sees the first one.
   */
  lemma AssignCanDuplicate(store: AbStore, id: string, subject: string, variant: string, now: Time)
    requires Assign(store, id, subject, variant, now).Ok?
    requires FindAssignment(store.assignments, id, subject).Some?
    ensures var after := Assign(store, id, subject, variant, now).value.1.assignments;
      !OneAssignmentEach(after)
      && FindAssignment(after, id, subject) == FindAssignment(store.assignments, id, subject)
  {
    var after := Assign(store, id, subject, variant, now).value.1.assignments;
    var k := FindAssignment(store.assignments, id, subject).value;
    assert after[k] == store.assignments[k] && after[|after| - 1].subjectKey == subject;
    FindAssignmentInPrefix(store.assignments, after, id, subject);
  }

  /** Appending rows never moves the first assignment of a subject that has one. */
  lemma FindAssignmentInPrefix(rows: seq<ExperimentAssignment>, longer: seq<ExperimentAssignment>, id: string, subject: string)
    requires rows <= longer && FindAssignment(rows, id, subject).Some?
    ensures FindAssignment(longer, id, subject) == FindAssignment(rows, id, subject)
  {
    var k := FindAssignment(rows, id, subject).value;
    assert longer[k] == rows[k];
    assert forall j :: 0 <= j < k ==> longer[j] == rows[j];
  }

  // ---------------------------------------------------------------------------
  // Per-variant statistics
  // ---------------------------------------------------------------------------

  const Control := "control"
  const Treatment := "treatment"
  const Approved := "approved"

  /** The distinct subjects assigned to `variant` of the experiment. */
  function Subjects(rows: seq<ExperimentAssignment>, id: string, variant: string): (s: set<string>)
    ensures forall i :: 0 <= i < |rows| && rows[i].experimentId == id && rows[i].variant == variant ==> rows[i].subjectKey in s
    ensures forall k :: k in s ==> exists i :: 0 <= i < |rows| && rows[i].experimentId == id && rows[i].variant == variant && rows[i].subjectKey == k
  {
    set i | 0 <= i < |rows| && rows[i].experimentId == id && rows[i].variant == variant :: rows[i].subjectKey
  }

  /** A decision log whose response names the experiment and the variant. */
  predicate LoggedFor(d: DecisionLog, id: string, variant: string) {
    "experiment_id" in d.response && d.response["experiment_id"] == Str(id)
    && "variant" in d.response && d.response["variant"] == Str(variant)
  }

  function IsLoggedFor(id: string, variant: string): DecisionLog -> bool {
    (d: DecisionLog) => LoggedFor(d, id, variant)
  }

  /** The audit ids of a list of decision logs. */
  function AuditIds(ds: seq<DecisionLog>): set<string> {
    set i | 0 <= i < |ds| :: ds[i].auditId
  }

  /** A latency that counts towards the average: present and non-zero. */
  predicate HasLatency(o: DecisionOutcome) {
    o.latencyMs.Some? && o.latencyMs.value != 0
  }

  /** The sum of the latencies that count. */
  function LatencySum(os: seq<DecisionOutcome>): real {
    if os == [] then 0.0
    else (if HasLatency(os[0]) then os[0].latencyMs.value as real else 0.0) + LatencySum(os[1..])
  }

  /** The number of latencies that count. */
  function LatencyCount(os: seq<DecisionOutcome>): nat {
    if os == [] then 0 else (if HasLatency(os[0]) then 1 else 0) + LatencyCount(os[1..])
  }

  /** The latencies that count, when all are at least `lo`, sum to at least `lo` times their number. */
  lemma {:induction false} LatencySumAtLeast(os: seq<DecisionOutcome>, lo: real)
    requires forall i :: 0 <= i < |os| && HasLatency(os[i]) ==> lo <= os[i].latencyMs.value as real
    ensures lo * LatencyCount(os) as real <= LatencySum(os)
  {
    if os != [] {
      assert forall i :: 0 <= i < |os[1..]| ==> os[1..][i] == os[i + 1];
      LatencySumAtLeast(os[1..], lo);
      var n := LatencyCount(os[1..]) as real;
      if HasLatency(os[0]) {
        assert lo * (n + 1.0) == lo * n + lo;
      }
    }
  }

  /** The latencies that count, when all are at most `hi`, sum to at most `hi` times their number. */
  lemma {:induction false} LatencySumAtMost(os: seq<DecisionOutcome>, hi: real)
    requires forall i :: 0 <= i < |os| && HasLatency(os[i]) ==> os[i].latencyMs.value as real <= hi
    ensures LatencySum(os) <= hi * LatencyCount(os) as real
  {
    if os != [] {
      assert forall i :: 0 <= i < |os[1..]| ==> os[1..][i] == os[i + 1];
      LatencySumAtMost(os[1..], hi);
      var n := LatencyCount(os[1..]) as real;
      if HasLatency(os[0]) {
        assert hi * (n + 1.0) == hi * n + hi;
      }
    }
  }

  /** The mean of the latencies that count; `None` when none does. */
  function AverageLatency(os: seq<DecisionOutcome>): (r: Option<real>)
    ensures r.None? <==> forall i :: 0 <= i < |os| ==> !HasLatency(os[i])
  {
    NoLatencyIffZeroCount(os);
    if LatencyCount(os) == 0 then None else Some(LatencySum(os) / LatencyCount(os) as real)
  }

  lemma {:induction false} NoLatencyIffZeroCount(os: seq<DecisionOutcome>)
    ensures LatencyCount(os) == 0 <==> forall i :: 0 <= i < |os| ==> !HasLatency(os[i])
  {
    if os != [] {
      NoLatencyIffZeroCount(os[1..]);
      assert forall i :: 1 <= i < |os| ==> os[i] == os[1..][i - 1];
    }
  }

  /** The average latency lies between the least and the greatest latency that counts. */
  lemma AverageLatencyWithinBounds(os: seq<DecisionOutcome>, lo: int, hi: int)
    requires forall i :: 0 <= i < |os| && HasLatency(os[i]) ==> lo <= os[i].latencyMs.value <= hi
    ensures AverageLatency(os).Some? ==> lo as real <= AverageLatency(os).value <= hi as real
  {
    LatencySumAtLeast(os, lo as real);
    LatencySumAtMost(os, hi as real);
    var n := LatencyCount(os);
    if n > 0 {
      QuotientBounds(LatencySum(os), n as real, lo as real, hi as real);
    }
  }

  /** Dividing by a positive count keeps bounds that hold per unit. */
  lemma QuotientBounds(a: real, n: real, lo: real, hi: real)
    requires n > 0.0 && lo * n <= a <= hi * n
    ensures lo <= a / n <= hi
  {
    var q := a / n;
    assert q * n == a;
  }

  /** The outcomes recorded for some decision of the list; none when the list is empty. */
  function OutcomesOf(outcomes: seq<DecisionOutcome>, decisions: seq<DecisionLog>): (r: seq<DecisionOutcome>)
    ensures decisions == [] ==> r == []
    ensures forall i :: 0 <= i < |r| ==> r[i] in outcomes && r[i].auditId in AuditIds(decisions)
    ensures forall i :: 0 <= i < |outcomes| && outcomes[i].auditId in AuditIds(decisions) ==> outcomes[i] in r
    ensures forall x :: multiset(r)[x] == if x.auditId in AuditIds(decisions) then multiset(outcomes)[x] else 0
  {
    FilterCounts(outcomes, ForDecisionIn(AuditIds(decisions)));
    if decisions == [] then [] else Filter(outcomes, ForDecisionIn(AuditIds(decisions)))
  }

  /** Whether an outcome answers one of the decisions with these audit ids. */
  function ForDecisionIn(ids: set<string>): DecisionOutcome -> bool {
    (o: DecisionOutcome) => o.auditId in ids
  }

  /** The number of approved outcomes. */
  function ApprovedCount(os: seq<DecisionOutcome>): (n: nat)
    ensures n <= |os|
    ensures n == |os| <==> forall i :: 0 <= i < |os| ==> os[i].outcome == Approved
  {
    if os == [] then 0 else (if os[0].outcome == Approved then 1 else 0) + ApprovedCount(os[1..])
  }

  /** `approved / total`, or `None` when there is no outcome. */
  function ApprovalRate(approved: nat, total: nat): (r: Option<real>)
    requires approved <= total
    ensures r.Some? <==> total > 0
    ensures r.Some? ==> 0.0 <= r.value <= 1.0 && r.value * total as real == approved as real
  {
    if total == 0 then None
    else
      QuotientBounds(approved as real, total as real, 0.0, 1.0);
      Some(approved as real / total as real)
  }

  /** The statistics of one variant, with the number of approved outcomes kept for the test. */
  datatype VariantStats = VariantStats(
    variant: string,
    subjects: nat,
    decisions: nat,
    outcomes: nat,
    approved: nat,
    approvalRate: Option<real>,
    avgLatencyMs: Option<real>)

  /**
   * The statistics of a variant with at least one subject: the decisions logged
   * for the experiment and variant (whoever the subject), the outcomes recorded
   * for those decisions, the share of them approved, and their mean latency.
   */
  function Stats(variant: string, subjects: set<string>, id: string, logs: seq<DecisionLog>, outcomes: seq<DecisionOutcome>): (r: VariantStats)
    ensures r.variant == variant && r.subjects == |subjects|
    ensures r.decisions == |Filter(logs, IsLoggedFor(id, variant))|
    ensures r.approved <= r.outcomes
    ensures r.approvalRate == ApprovalRate(r.approved, r.outcomes)
    ensures r.approvalRate.Some? ==> 0.0 <= r.approvalRate.value <= 1.0
    ensures var mine := OutcomesOf(outcomes, Filter(logs, IsLoggedFor(id, variant)));
      r.outcomes == |mine| && r.approved == ApprovedCount(mine) && r.avgLatencyMs == AverageLatency(mine)
  {
    var decisions := Filter(logs, IsLoggedFor(id, variant));
    var mine := OutcomesOf(outcomes, decisions);
    var approved := ApprovedCount(mine);
    var total := |mine|;
    VariantStats(variant, |subjects|, |decisions|, total, approved,
      ApprovalRate(approved, total),
      AverageLatency(mine))
  }

  /** One more outcome adds one to the approved count exactly when it is an approval. */
  lemma {:induction false} ApprovedCountAppend(os: seq<DecisionOutcome>, o: DecisionOutcome)
    ensures ApprovedCount(os + [o]) == ApprovedCount(os) + (if o.outcome == Approved then 1 else 0)
  {
    if os == [] {
      assert [o][1..] == [];
    } else {
      assert (os + [o])[1..] == os[1..] + [o];
      ApprovedCountAppend(os[1..], o);
    }
  }

  /** An outcome recorded later is counted for the decisions exactly when its audit id is one of theirs. */
  lemma OutcomesOfAppend(outcomes: seq<DecisionOutcome>, o: DecisionOutcome, decisions: seq<DecisionLog>)
    ensures OutcomesOf(outcomes + [o], decisions)
      == OutcomesOf(outcomes, decisions) + (if o.auditId in AuditIds(decisions) then [o] else [])
  {
    var p := ForDecisionIn(AuditIds(decisions));
    if decisions == [] {
      assert AuditIds(decisions) == {};
    } else {
      assert OutcomesOf(outcomes, decisions) == Filter(outcomes, p);
      assert OutcomesOf(outcomes + [o], decisions) == Filter(outcomes + [o], p);
      FilterAppend(outcomes, [o], p);
      assert Filter([o], p) == (if p(o) then [o] else []) by {
        assert [o][1..] == [];
        assert Filter([o], p) == (if p(o) then [o] else []) + Filter([], p);
      }
    }
  }

  /**
   * The learning loop feeds the results: an outcome the engine records for a
   * decision logged under the variant adds one to the variant's outcomes, and
   * one to its approvals when it is an approval; any other call leaves both.
   */
  lemma RecordedOutcomeCounted(hasSession: bool, commitFails: bool, outcomes: seq<DecisionOutcome>, body: OutcomeIn, now: Time,
                               variant: string, subjects: set<string>, id: string, logs: seq<DecisionLog>)
    ensures var before := Stats(variant, subjects, id, logs, outcomes);
      var after := Stats(variant, subjects, id, logs, EngineRecordOutcome(hasSession, commitFails, outcomes, body, now).1);
      var counted := hasSession && !commitFails && body.auditId in AuditIds(Filter(logs, IsLoggedFor(id, variant)));
      after.outcomes == before.outcomes + (if counted then 1 else 0)
      && after.approved == before.approved + (if counted && body.outcome == Approved then 1 else 0)
  {
    var decisions := Filter(logs, IsLoggedFor(id, variant));
    var recorded := EngineRecordOutcome(hasSession, commitFails, outcomes, body, now).1;
    var mine := OutcomesOf(outcomes, decisions);
    var mineAfter := OutcomesOf(recorded, decisions);
    if hasSession && !commitFails {
      var o := NewDecisionOutcome(body.auditId, body.decisionType, body.outcome,
        body.outcomeCode, body.outcomeReason, body.latencyMs, body.metadata, now);
      assert recorded == outcomes + [o];
      OutcomesOfAppend(outcomes, o, decisions);
      if o.auditId in AuditIds(decisions) {
        assert mineAfter == mine + [o];
        ApprovedCountAppend(mine, o);
      } else {
        assert mineAfter == mine;
      }
    } else {
      assert recorded == outcomes;
    }
  }

  /** The statistics of a variant, or `None` when no subject is assigned to it. */
  function VariantStatsOf(rows: seq<ExperimentAssignment>, id: string, variant: string, logs: seq<DecisionLog>, outcomes: seq<DecisionOutcome>): (r: Option<VariantStats>)
    ensures r.None? <==> Subjects(rows, id, variant) == {}
    ensures r.Some? ==> r.value == Stats(variant, Subjects(rows, id, variant), id, logs, outcomes)
  {
    var subjects := Subjects(rows, id, variant);
    if subjects == {} then None else Some(Stats(variant, subjects, id, logs, outcomes))
  }

  // ---------------------------------------------------------------------------
  // Lift, z-test and recommendation
  // ---------------------------------------------------------------------------

  /**
   * The p-value of the two-proportion z-test, `2 * (1 - Φ(|z|))`, for the control
   * and treatment rates and outcome counts; the normal CDF is not modelled.
   */
  type PValue = (real, real, nat, nat) -> real

  /** The significance level. */
  const Alpha: real := 0.05

  /** The recommendation; its text is built from these numbers. */
  datatype Recommendation =
    | NotEnoughData
    | GraduateTreatment(liftPct: real, pValue: real)
    | KeepControl(liftPct: real, pValue: real)
    | NoMeaningfulDifference(pValue: real)
    | NotYetSignificant(pValueIfAny: Option<real>, neededOutcomes: nat)

  datatype Analysis = Analysis(liftPct: Option<real>, pValue: Option<real>, isSignificant: bool, recommendation: Recommendation)

  /** Nothing to compare: no lift, no p-value, not significant, not enough data. */
  const NoAnalysis := Analysis(None, None, false, NotEnoughData)

  /** Both variants have outcomes, so both have an approval rate. */
  predicate Comparable(c: Option<VariantStats>, t: Option<VariantStats>) {
    c.Some? && t.Some? && c.value.outcomes > 0 && t.value.outcomes > 0
    && c.value.approvalRate.Some? && t.value.approvalRate.Some?
  }

  /** The relative lift of the treatment over the control, in percent; undefined for a zero control rate. */
  function Lift(cRate: real, tRate: real): (r: Option<real>)
    ensures r.Some? <==> cRate > 0.0
    ensures r.Some? ==> (r.value > 0.0 <==> tRate > cRate) && (r.value < 0.0 <==> tRate < cRate)
    ensures r.Some? ==> r.value * cRate == (tRate - cRate) * 100.0
  {
    if cRate > 0.0 then Some(((tRate - cRate) / cRate) * 100.0) else None
  }

  /** The pooled approval rate of both variants. */
  function Pooled(c: VariantStats, t: VariantStats): real
    requires c.outcomes + t.outcomes > 0
  {
    (c.approved + t.approved) as real / (c.outcomes + t.outcomes) as real
  }

  /**
   * The pooled rate is a proportion, lies between the two variants' rates, and
   * is strictly inside (0, 1) exactly when some but not all outcomes were approved.
   */
  lemma PooledBetweenRates(c: VariantStats, t: VariantStats)
    requires Comparable(Some(c), Some(t))
    requires c.approved <= c.outcomes && t.approved <= t.outcomes
    requires c.approvalRate.value * c.outcomes as real == c.approved as real
    requires t.approvalRate.value * t.outcomes as real == t.approved as real
    ensures 0.0 <= Pooled(c, t) <= 1.0
    ensures (0.0 < Pooled(c, t) < 1.0) <==> 0 < c.approved + t.approved < c.outcomes + t.outcomes
    ensures c.approvalRate.value <= t.approvalRate.value ==> c.approvalRate.value <= Pooled(c, t) <= t.approvalRate.value
    ensures t.approvalRate.value <= c.approvalRate.value ==> t.approvalRate.value <= Pooled(c, t) <= c.approvalRate.value
  {
    var cn, tn := c.outcomes as real, t.outcomes as real;
    var cr, tr := c.approvalRate.value, t.approvalRate.value;
    var p := Pooled(c, t);
    assert p * (cn + tn) == (c.approved + t.approved) as real;
    assert (c.approved + t.approved) as real == cr * cn + tr * tn;
    QuotientBounds((c.approved + t.approved) as real, cn + tn, 0.0, 1.0);
    QuotientStrict((c.approved + t.approved) as real, cn + tn);
    if cr <= tr {
      WeightedMeanBetween(cr, tr, cn, tn, p);
    } else {
      WeightedMeanBetween(tr, cr, tn, cn, p);
    }
  }

  /** A quotient by a positive number is positive, below one, or exactly one as the dividend is. */
  lemma QuotientStrict(a: real, n: real)
    requires n > 0.0
    ensures a / n > 0.0 <==> a > 0.0
    ensures a / n < 1.0 <==> a < n
    ensures a / n == 1.0 <==> a == n
  {
    var q := a / n;
    assert q * n == a;
    MulPosMonotone(q, 1.0, n);
    MulPosMonotone(0.0, q, n);
  }

  /** Multiplying by a positive number keeps strict order. */
  lemma MulPosMonotone(x: real, y: real, n: real)
    requires n > 0.0
    ensures x < y <==> x * n < y * n
  {
    assert (y - x) * n == y * n - x * n;
  }

  /** A weighted mean of two values lies between them. */
  lemma WeightedMeanBetween(a: real, b: real, wa: real, wb: real, m: real)
    requires wa > 0.0 && wb > 0.0 && a <= b
    requires m * (wa + wb) == a * wa + b * wb
    ensures a <= m <= b
  {
    assert a * wb <= b * wb;
    assert a * wa <= b * wa;
    assert a * (wa + wb) <= m * (wa + wb) <= b * (wa + wb);
  }

  /** The lift, the p-value (only when the pooled rate is strictly inside (0, 1)) and significance. */
  function Test(c: VariantStats, t: VariantStats, pValue: PValue): (r: (Option<real>, Option<real>, bool))
    requires Comparable(Some(c), Some(t))
    ensures r.0 == Lift(c.approvalRate.value, t.approvalRate.value)
    ensures r.1.Some? <==> 0.0 < Pooled(c, t) < 1.0
    ensures r.1.Some? ==> r.1.value == pValue(c.approvalRate.value, t.approvalRate.value, c.outcomes, t.outcomes)
    ensures r.2 <==> r.1.Some? && r.1.value < Alpha
  {
    var cRate, tRate := c.approvalRate.value, t.approvalRate.value;
    var pooled := Pooled(c, t);
    var p := if 0.0 < pooled < 1.0 then Some(pValue(cRate, tRate, c.outcomes, t.outcomes)) else None;
    (Lift(cRate, tRate), p, p.Some? && p.value < Alpha)
  }

  /** The recommendation for a significant result: graduate on a rise, keep control on a fall, else no difference. */
  function SignificantRecommendation(lift: Option<real>, p: real): (rec: Recommendation)
    ensures lift.Some? && lift.value > 0.0 ==> rec == GraduateTreatment(lift.value, p)
    ensures lift.Some? && lift.value < 0.0 ==> rec == KeepControl(lift.value, p)
    ensures lift.None? || lift.value == 0.0 ==> rec == NoMeaningfulDifference(p)
  {
    if lift.Some? && lift.value > 0.0 then GraduateTreatment(lift.value, p)
    else if lift.Some? && lift.value < 0.0 then KeepControl(lift.value, p)
    else NoMeaningfulDifference(p)
  }

  function Max(a: int, b: int): int {
    if a >= b then a else b
  }

  /**
   * The comparison of the two variants, as evidently intended: a result that is
   * not yet significant recommends collecting twice `max(100, outcomes so far)`.
   */
  function Analyse(c: Option<VariantStats>, t: Option<VariantStats>, pValue: PValue): (r: Analysis)
    ensures !Comparable(c, t) ==> r == NoAnalysis
    ensures Comparable(c, t) ==> (r.isSignificant <==> r.pValue.Some? && r.pValue.value < Alpha)
    ensures Comparable(c, t) && r.isSignificant ==>
      r.recommendation == SignificantRecommendation(Lift(c.value.approvalRate.value, t.value.approvalRate.value), r.pValue.value)
    ensures Comparable(c, t) && !r.isSignificant ==>
      r.recommendation == NotYetSignificant(r.pValue, 2 * Max(100, c.value.outcomes + t.value.outcomes))
  {
    if !Comparable(c, t) then NoAnalysis
    else
      var (lift, p, significant) := Test(c.value, t.value, pValue);
      var rec := if significant then SignificantRecommendation(lift, p.value)
        else NotYetSignificant(p, 2 * Max(100, c.value.outcomes + t.value.outcomes));
      Analysis(lift, p, significant, rec)
  }

  /**
   * The comparison as written: the not-yet-significant message puts a
   * conditional expression inside the format specification of `p_value`,
   * which Python rejects whatever `p_value` holds, so that branch raises.
   */
  function AnalyseAsWritten(c: Option<VariantStats>, t: Option<VariantStats>, pValue: PValue): (r: Result<Analysis, HttpError>)
    ensures !Comparable(c, t) ==> r == Ok(NoAnalysis)
    ensures r.Err? ==> r.error == InternalError
  {
    if !Comparable(c, t) then Ok(NoAnalysis)
    else
      var (lift, p, significant) := Test(c.value, t.value, pValue);
      if significant then Ok(Analysis(lift, p, true, SignificantRecommendation(lift, p.value)))
      else Err(InternalError)
  }

  /**
   * The as-written comparison fails exactly when the intended one would say
   * "not yet significant", and otherwise agrees with it.
   */
  lemma AsWrittenFailsIffNotYetSignificant(c: Option<VariantStats>, t: Option<VariantStats>, pValue: PValue)
    ensures AnalyseAsWritten(c, t, pValue).Err? <==> Analyse(c, t, pValue).recommendation.NotYetSignificant?
    ensures AnalyseAsWritten(c, t, pValue).Ok? ==> AnalyseAsWritten(c, t, pValue).value == Analyse(c, t, pValue)
  {
  }

  /**
   * The input that shows it: both variants have outcomes and every outcome was
   * approved. The pooled rate is 1, so no p-value is computed, and the
   * as-written analysis fails whatever the p-value function.
   */
  lemma AllApprovedFailsAsWritten(c: VariantStats, t: VariantStats, pValue: PValue)
    requires Comparable(Some(c), Some(t))
    requires c.approved == c.outcomes && t.approved == t.outcomes
    ensures AnalyseAsWritten(Some(c), Some(t), pValue) == Err(InternalError)
    ensures Analyse(Some(c), Some(t), pValue).recommendation == NotYetSignificant(None, 2 * Max(100, c.outcomes + t.outcomes))
  {
    QuotientStrict((c.approved + t.approved) as real, (c.outcomes + t.outcomes) as real);
  }

  /**
   * A control that never approved has no lift, so even a significant result
   * recommends nothing more than "no meaningful difference".
   */
  lemma ZeroControlRateNeverGraduates(c: Option<VariantStats>, t: Option<VariantStats>, pValue: PValue)
    requires Comparable(c, t) && c.value.approvalRate.value == 0.0
    ensures var r := Analyse(c, t, pValue);
      r.liftPct.None? && !r.recommendation.GraduateTreatment?
  {
  }

  // ---------------------------------------------------------------------------
  // The results endpoint
  // ---------------------------------------------------------------------------

  datatype ExperimentResults = ExperimentResults(
    experimentId: string,
    name: string,
    status: string,
    control: Option<VariantStats>,
    treatment: Option<VariantStats>,
    analysis: Analysis)

  /** The result for an experiment before any subject is assigned to control or treatment. */
  function BareResults(id: string, e: Experiment): (r: ExperimentResults)
    ensures r.control.None? && r.treatment.None? && r.analysis == NoAnalysis
  {
    ExperimentResults(id, e.name, e.status, None, None, NoAnalysis)
  }

  /** Neither control nor treatment has a subject; other variants do not count. */
  predicate NoSubjects(store: AbStore, id: string) {
    Subjects(store.assignments, id, Control) == {} && Subjects(store.assignments, id, Treatment) == {}
  }

  /** `get_experiment_results`, with the not-yet-significant branch as intended. */
  function Results(store: AbStore, id: string, logs: seq<DecisionLog>, outcomes: seq<DecisionOutcome>, pValue: PValue): (r: Result<ExperimentResults, HttpError>)
    ensures r.Err? <==> id !in store.experiments
    ensures r.Err? ==> r.error == ExperimentNotFound
    ensures r.Ok? && NoSubjects(store, id) ==> r.value == BareResults(id, store.experiments[id])
    ensures r.Ok? ==> r.value.control == VariantStatsOf(store.assignments, id, Control, logs, outcomes)
    ensures r.Ok? ==> r.value.treatment == VariantStatsOf(store.assignments, id, Treatment, logs, outcomes)
    ensures r.Ok? ==> r.value.analysis == Analyse(r.value.control, r.value.treatment, pValue)
  {
    if id !in store.experiments then Err(ExperimentNotFound)
    else
      var e := store.experiments[id];
      if NoSubjects(store, id) then Ok(BareResults(id, e))
      else
        var c := VariantStatsOf(store.assignments, id, Control, logs, outcomes);
        var t := VariantStatsOf(store.assignments, id, Treatment, logs, outcomes);
        Ok(ExperimentResults(id, e.name, e.status, c, t, Analyse(c, t, pValue)))
  }

  /** `get_experiment_results` as written: the not-yet-significant branch fails with a server error. */
  function ResultsAsWritten(store: AbStore, id: string, logs: seq<DecisionLog>, outcomes: seq<DecisionOutcome>, pValue: PValue): (r: Result<ExperimentResults, HttpError>)
    ensures id !in store.experiments ==> r == Err(ExperimentNotFound)
    ensures r.Ok? ==> r == Results(store, id, logs, outcomes, pValue)
  {
    if id !in store.experiments then Err(ExperimentNotFound)
    else
      var e := store.experiments[id];
      if NoSubjects(store, id) then Ok(BareResults(id, e))
      else
        var c := VariantStatsOf(store.assignments, id, Control, logs, outcomes);
        var t := VariantStatsOf(store.assignments, id, Treatment, logs, outcomes);
        var a :- AnalyseAsWritten(c, t, pValue);
        AsWrittenFailsIffNotYetSignificant(c, t, pValue);
        Ok(ExperimentResults(id, e.name, e.status, c, t, a))
  }

  /**
   * The results endpoint as written answers 500 exactly when the intended one
   * would recommend waiting for more outcomes.
   */
  lemma ResultsAsWrittenFailsIff(store: AbStore, id: string, logs: seq<DecisionLog>, outcomes: seq<DecisionOutcome>, pValue: PValue)
    requires id in store.experiments
    ensures ResultsAsWritten(store, id, logs, outcomes, pValue) == Err(InternalError)
      <==> Results(store, id, logs, outcomes, pValue).value.analysis.recommendation.NotYetSignificant?
  {
    if !NoSubjects(store, id) {
      var c := VariantStatsOf(store.assignments, id, Control, logs, outcomes);
      var t := VariantStatsOf(store.assignments, id, Treatment, logs, outcomes);
      AsWrittenFailsIffNotYetSignificant(c, t, pValue);
    }
  }

  /** An assignment the analysis does not see: another variant, or a subject already in its variant. */
  predicate Ignored(rows: seq<ExperimentAssignment>, a: ExperimentAssignment) {
    (a.variant != Control && a.variant != Treatment)
    || (exists i :: 0 <= i < |rows| && rows[i].experimentId == a.experimentId
          && rows[i].variant == a.variant && rows[i].subjectKey == a.subjectKey)
  }

  /**
   * Assignments to a variant other than control and treatment, and repeated
   * assignments of a subject already counted, leave the results unchanged.
   */
  lemma IgnoredAssignmentsLeaveResults(store: AbStore, a: ExperimentAssignment, logs: seq<DecisionLog>, outcomes: seq<DecisionOutcome>, pValue: PValue)
    requires Ignored(store.assignments, a)
    ensures var after := AbStore(store.experiments, store.assignments + [a]);
      forall id :: Results(after, id, logs, outcomes, pValue) == Results(store, id, logs, outcomes, pValue)
  {
    var rows := store.assignments;
    var after := rows + [a];
    forall id: string, v: string | v == Control || v == Treatment
      ensures Subjects(after, id, v) == Subjects(rows, id, v)
    {
      SubjectsAfterIgnored(rows, a, id, v);
    }
  }

  lemma SubjectsAfterIgnored(rows: seq<ExperimentAssignment>, a: ExperimentAssignment, id: string, v: string)
    requires v == Control || v == Treatment
    requires Ignored(rows, a)
    ensures Subjects(rows + [a], id, v) == Subjects(rows, id, v)
  {
    var after := rows + [a];
    forall k | k in Subjects(after, id, v) ensures k in Subjects(rows, id, v) {
      var i :| 0 <= i < |after| && after[i].experimentId == id && after[i].variant == v && after[i].subjectKey == k;
      if i < |rows| {
        assert rows[i] == after[i];
      } else {
        var j :| 0 <= j < |rows| && rows[j].experimentId == a.experimentId && rows[j].variant == a.variant && rows[j].subjectKey == a.subjectKey;
        assert rows[j].subjectKey == k;
      }
    }
    forall k | k in Subjects(rows, id, v) ensures k in Subjects(after, id, v) {
      var i :| 0 <= i < |rows| && rows[i].experimentId == id && rows[i].variant == v && rows[i].subjectKey == k;
      assert after[i] == rows[i];
    }
  }
}

=== FILE: folds.dfy ===
/**
 * Building a dict by assigning `d[k] = v` row after row: the later row wins.
 * Rows for which `entry` yields `None` are skipped (the loops' `continue`).
 */
module Folds {
  import opened Wrappers

  /** The dict a Python loop `for x in s: if entry(x): d[k] = v` leaves behind. */
  function LastWins<T, K, V>(s: seq<T>, entry: T -> Option<(K, V)>): (m: map<K, V>)
  {
    if |s| == 0 then map[]
    else
      var m := LastWins(s[..|s| - 1], entry);
      match entry(s[|s| - 1])
      case Some(kv) => m[kv.0 := kv.1]
      case None => m
  }

  /** Some row of `s` yields the key `k`. */
  ghost predicate Yields<T, K, V>(s: seq<T>, entry: T -> Option<(K, V)>, k: K) {
    exists i :: 0 <= i < |s| && entry(s[i]).Some? && entry(s[i]).value.0 == k
  }

  /** A key is in the dict exactly when some row yields it. */
  lemma {:induction false} LastWinsKeys<T, K, V>(s: seq<T>, entry: T -> Option<(K, V)>, k: K)
    ensures k in LastWins(s, entry) <==> Yields(s, entry, k)
  {
    if |s| > 0 {
      var init := s[..|s| - 1];
      LastWinsKeys(init, entry, k);
      if Yields(init, entry, k) {
        var i :| 0 <= i < |init| && entry(init[i]).Some? && entry(init[i]).value.0 == k;
        assert s[i] == init[i];
      }
      if Yields(s, entry, k) && !(entry(s[|s| - 1]).Some? && entry(s[|s| - 1]).value.0 == k) {
        var i :| 0 <= i < |s| && entry(s[i]).Some? && entry(s[i]).value.0 == k;
        assert i < |init| && init[i] == s[i];
      }
    }
  }

  /** Every stored value comes from a row that yields its key. */
  lemma {:induction false} LastWinsFrom<T, K, V>(s: seq<T>, entry: T -> Option<(K, V)>, k: K)
    requires k in LastWins(s, entry)
    ensures exists i :: 0 <= i < |s| && entry(s[i]) == Some((k, LastWins(s, entry)[k]))
  {
    var init := s[..|s| - 1];
    var last := entry(s[|s| - 1]);
    if last.Some? && last.value.0 == k {
      assert entry(s[|s| - 1]) == Some((k, LastWins(s, entry)[k]));
    } else {
      LastWinsFrom(init, entry, k);
      var i :| 0 <= i < |init| && entry(init[i]) == Some((k, LastWins(init, entry)[k]));
      assert s[i] == init[i];
    }
  }

  /** The value stored for a key is the one of the last row yielding it. */
  lemma {:induction false} LastWinsValue<T, K, V>(s: seq<T>, entry: T -> Option<(K, V)>, i: int)
    requires 0 <= i < |s| && entry(s[i]).Some?
    requires forall j :: i < j < |s| && entry(s[j]).Some? ==> entry(s[j]).value.0 != entry(s[i]).value.0
    ensures entry(s[i]).value.0 in LastWins(s, entry)
    ensures LastWins(s, entry)[entry(s[i]).value.0] == entry(s[i]).value.1
  {
    var init := s[..|s| - 1];
    if i < |s| - 1 {
      forall j | i < j < |init| && entry(init[j]).Some? ensures entry(init[j]).value.0 != entry(init[i]).value.0 {
        assert init[j] == s[j];
      }
      LastWinsValue(init, entry, i);
    }
  }

  /** A skipped row leaves the dict as it was. */
  lemma LastWinsSkips<T, K, V>(s: seq<T>, entry: T -> Option<(K, V)>, x: T)
    requires entry(x).None?
    ensures LastWins(s + [x], entry) == LastWins(s, entry)
  {
    assert (s + [x])[..|s|] == s;
  }

  /** A later row overrides whatever came before for its key. */
  lemma LastWinsOverrides<T, K, V>(s: seq<T>, entry: T -> Option<(K, V)>, x: T)
    requires entry(x).Some?
    ensures LastWins(s + [x], entry) == LastWins(s, entry)[entry(x).value.0 := entry(x).value.1]
  {
    assert (s + [x])[..|s|] == s;
  }
}

=== FILE: lakebase.dfy ===
/**
 * The Lakebase (Postgres) access helpers of lakebase_config.py: schema-name
 * validation, limit clamping, the approval-rule queries and writes, and the
 * app_config / app_settings reads and writes.
 *
 * The database is an in-memory value: a sequence of approval-rule rows in table
 * order and a map for app_settings. Every call first validates the configured
 * schema name, which raises ValueError before anything else happens; then an
 * unconfigured database or a failing statement (`fails`) takes the helper's
 * fallback return. A failing statement changes nothing (the session is not committed).
 */
module Lakebase {
  import opened Wrappers
  import opened Strings
  import opened Sorting
  import opened Entities

  // ---------------------------------------------------------------------------
  // Schema names and limits
  // ---------------------------------------------------------------------------

  const DefaultSchema := "payment_analysis"

  /** The ValueError `_safe_schema_name` raises for a name that is not alphanumeric-with-underscores. */
  datatype InvalidSchema = InvalidSchema(name: string)

  /**
   * The name `_safe_schema_name` settles on: the stripped input, or
   * "payment_analysis" when that is blank or absent (the default has no
   * surrounding whitespace, so stripping it is skipped).
   */
  function SchemaCandidate(raw: Option<string>): (name: string)
    ensures name != []
    ensures raw.Some? && !IsBlank(raw.value) ==> name == Strip(raw.value)
    ensures raw.None? || IsBlank(raw.value) ==> name == DefaultSchema
  {
    if raw.Some? && Strip(raw.value) != [] then Strip(raw.value) else DefaultSchema
  }

  /**
   * What `name.replace("_", "").isalnum()` accepts: letters, digits and
   * underscores only, with at least one character that is not an underscore.
   */
  predicate ValidSchemaName(name: string) {
    (exists i :: 0 <= i < |name| && name[i] != '_')
    && forall i :: 0 <= i < |name| ==> IsAlnumChar(name[i]) || name[i] == '_'
  }

  /** Removing the underscores leaves a non-empty alphanumeric string exactly for a valid name. */
  lemma RemoveUnderscoresAlnum(name: string)
    ensures IsAlnum(RemoveChar(name, '_')) <==> ValidSchemaName(name)
  {
    var r := RemoveChar(name, '_');
    if IsAlnum(r) {
      assert r[0] != '_' && multiset(r)[r[0]] > 0;
      assert r[0] in multiset(name);
      var k :| 0 <= k < |name| && name[k] == r[0];
      forall i | 0 <= i < |name| && name[i] != '_' ensures IsAlnumChar(name[i]) {
        RemoveCharKeeps(name, '_', i);
        var j :| 0 <= j < |r| && r[j] == name[i];
      }
    }
    if ValidSchemaName(name) {
      var k :| 0 <= k < |name| && name[k] != '_';
      RemoveCharKeeps(name, '_', k);
      forall j | 0 <= j < |r| ensures IsAlnumChar(r[j]) {
        assert r[j] != '_' && multiset(r)[r[j]] > 0;
        assert r[j] in multiset(name);
        var i :| 0 <= i < |name| && name[i] == r[j];
      }
    }
  }

  /** A character other than `c` survives `RemoveChar`. */
  lemma RemoveCharKeeps(s: string, c: char, i: int)
    requires 0 <= i < |s| && s[i] != c
    ensures s[i] in RemoveChar(s, c)
  {
    assert multiset(s)[s[i]] > 0;
  }

  /** The default name passes the check. */
  lemma DefaultSchemaValid()
    ensures ValidSchemaName(DefaultSchema)
  {
    assert DefaultSchema[0] != '_';
  }

  /** The check on a non-default candidate. */
  function CheckSchemaName(name: string): (r: Result<string, InvalidSchema>)
    ensures r.Ok? <==> ValidSchemaName(name)
    ensures r.Ok? ==> r.value == name
    ensures r.Err? ==> r.error.name == name
  {
    RemoveUnderscoresAlnum(name);
    if IsAlnum(RemoveChar(name, '_')) then Ok(name) else Err(InvalidSchema(name))
  }

  /**
   * `_safe_schema_name(raw)`: the candidate name when it is alphanumeric once
   * underscores are removed, else the ValueError. The default passes the
   * check, so it is returned without repeating it.
   */
  function SafeSchemaName(raw: Option<string>): (r: Result<string, InvalidSchema>)
    ensures r.Ok? <==> ValidSchemaName(SchemaCandidate(raw))
    ensures r.Ok? ==> r.value == SchemaCandidate(raw)
    ensures r.Err? ==> r.error.name == SchemaCandidate(raw)
  {
    if raw.Some? && Strip(raw.value) != [] then CheckSchemaName(Strip(raw.value))
    else
      DefaultSchemaValid();
      Ok(DefaultSchema)
  }

  /** A validated name validates to itself. */
  lemma SafeSchemaNameIdempotent(raw: Option<string>)
    requires SafeSchemaName(raw).Ok?
    ensures SafeSchemaName(Some(SafeSchemaName(raw).value)) == SafeSchemaName(raw)
  {
    StripValidName(SafeSchemaName(raw).value);
  }

  /** A valid name has no surrounding whitespace, so stripping keeps it. */
  lemma StripValidName(name: string)
    requires ValidSchemaName(name)
    ensures Strip(name) == name && name != []
  {
    assert IsAlnumChar(name[0]) || name[0] == '_';
    assert IsAlnumChar(name[|name| - 1]) || name[|name| - 1] == '_';
    TrimKeepsTrimmed(name, Whitespace);
  }

  /** `max(1, min(limit, hi))` */
  function ClampLimit(limit: int, hi: int): (n: int)
    requires hi >= 1
    ensures 1 <= n <= hi
    ensures 1 <= limit <= hi ==> n == limit
    ensures limit < 1 ==> n == 1
    ensures limit > hi ==> n == hi
  {
    if limit < 1 then 1 else if limit > hi then hi else limit
  }

  /** The largest number of rows any Lakebase read returns. */
  const MaxReadLimit := 500

  // ---------------------------------------------------------------------------
  // Approval rules
  // ---------------------------------------------------------------------------

  /** An approval_rules row as stored; nullable columns are `Option`s. */
  datatype StoredRule = StoredRule(
    id: string,
    name: string,
    ruleType: string,
    condition: Option<string>,
    actionSummary: string,
    priority: Option<int>,
    isActive: Option<bool>,
    createdAt: Option<Time>,
    updatedAt: Option<Time>)

  /** A rule as the Lakebase helpers return it, with nulls defaulted. */
  datatype RuleRecord = RuleRecord(
    id: string,
    name: string,
    ruleType: string,
    condition: Option<string>,
    actionSummary: string,
    priority: int,
    isActive: bool,
    createdAt: Option<Time>,
    updatedAt: Option<Time>)

  /** A row turned into a record: an empty condition becomes None, priority defaults to 100 and is_active to true. */
  function ToRecord(row: StoredRule): (r: RuleRecord)
    ensures r.id == row.id && r.name == row.name && r.ruleType == row.ruleType && r.actionSummary == row.actionSummary
    ensures r.condition == (if Truthy(row.condition) then row.condition else None)
    ensures r.priority == (if row.priority.Some? then row.priority.value else 100)
    ensures r.isActive == (row.isActive != Some(false))
    ensures r.createdAt == row.createdAt && r.updatedAt == row.updatedAt
  {
    RuleRecord(row.id, row.name, row.ruleType,
      if Truthy(row.condition) then row.condition else None,
      row.actionSummary, row.priority.GetOr(100), row.isActive.GetOr(true), row.createdAt, row.updatedAt)
  }

  /** The WHERE clause: active rows only (a null is_active does not match) and, for a non-empty type, that type. */
  predicate RuleMatches(row: StoredRule, ruleType: Option<string>, activeOnly: bool) {
    (!activeOnly || row.isActive == Some(true)) && (!Truthy(ruleType) || row.ruleType == ruleType.value)
  }

  /**
   * ORDER BY priority ASC, updated_at DESC with Postgres' null placement: nulls
   * sort last in ascending and first in descending order.
   */
  function RuleOrderKey(row: StoredRule): seq<real> {
    var p: seq<real> := if row.priority.Some? then [0.0, row.priority.value as real] else [1.0, 0.0];
    var u: seq<real> := if row.updatedAt.Some? then [1.0, -(row.updatedAt.value as real)] else [0.0, 0.0];
    p + u
  }

  /** `a` may come before `b` in the query's order. */
  predicate RuleNotAfter(a: StoredRule, b: StoredRule) {
    match (a.priority, b.priority)
    case (Some(pa), Some(pb)) => pa < pb || (pa == pb && UpdatedNotAfter(a, b))
    case (Some(_), None) => true
    case (None, Some(_)) => false
    case (None, None) => UpdatedNotAfter(a, b)
  }

  /** The updated_at tie-break: newest first, nulls before everything. */
  predicate UpdatedNotAfter(a: StoredRule, b: StoredRule) {
    match (a.updatedAt, b.updatedAt)
    case (Some(ua), Some(ub)) => ua >= ub
    case (Some(_), None) => false
    case (None, _) => true
  }

  /** The key order is exactly the query's order. */
  lemma RuleOrderKeyMeaning(a: StoredRule, b: StoredRule)
    ensures !LexLess(RuleOrderKey(b), RuleOrderKey(a)) <==> RuleNotAfter(a, b)
  {
    var ka, kb := RuleOrderKey(a), RuleOrderKey(b);
    assert |ka| == 4 && |kb| == 4;
    var ka1, kb1 := ka[1..], kb[1..];
    var ka2, kb2 := ka1[1..], kb1[1..];
    var ka3, kb3 := ka2[1..], kb2[1..];
    assert ka3[1..] == [] && kb3[1..] == [];
    assert LexLess(kb3, ka3) <==> kb3[0] < ka3[0];
    assert LexLess(kb2, ka2) <==> kb2[0] < ka2[0] || (kb2[0] == ka2[0] && LexLess(kb3, ka3));
    assert LexLess(kb1, ka1) <==> kb1[0] < ka1[0] || (kb1[0] == ka1[0] && LexLess(kb2, ka2));
    assert LexLess(kb, ka) <==> kb[0] < ka[0] || (kb[0] == ka[0] && LexLess(kb1, ka1));
  }

  /** A sequence sorted by `RuleOrderKey` is in the query's order. */
  lemma SortedRulesInOrder(r: seq<StoredRule>)
    requires SortedBy(r, RuleOrderKey)
    ensures forall i, j :: 0 <= i < j < |r| ==> RuleNotAfter(r[i], r[j])
  {
    forall i, j | 0 <= i < j < |r| ensures RuleNotAfter(r[i], r[j]) {
      RuleOrderKeyMeaning(r[i], r[j]);
    }
  }

  /** The rows a rule query selects, in the query's order and before the LIMIT. */
  function SelectRules(table: seq<StoredRule>, ruleType: Option<string>, activeOnly: bool): (r: seq<StoredRule>)
    ensures forall i :: 0 <= i < |r| ==> r[i] in table && RuleMatches(r[i], ruleType, activeOnly)
    ensures forall i :: 0 <= i < |table| && RuleMatches(table[i], ruleType, activeOnly) ==> table[i] in r
    ensures forall i, j :: 0 <= i < j < |r| ==> RuleNotAfter(r[i], r[j])
    ensures forall x :: multiset(r)[x] == if RuleMatches(x, ruleType, activeOnly) then multiset(table)[x] else 0
  {
    var kept := Filter(table, (row: StoredRule) => RuleMatches(row, ruleType, activeOnly));
    FilterCounts(table, (row: StoredRule) => RuleMatches(row, ruleType, activeOnly));
    var r := SortBy(kept, RuleOrderKey);
    PermutationMembers(r, kept);
    SortedRulesInOrder(r);
    r
  }

  /** How one call reaches the database. */
  datatype Db = Db(schemaSetting: Option<string>, configured: bool, fails: bool)

  /**
   * `get_approval_rules_from_lakebase`: `None` when the database is unconfigured
   * or the query fails, else the selected rules as records, cut at the clamped limit.
   */
  function GetApprovalRules(db: Db, table: seq<StoredRule>, ruleType: Option<string>, activeOnly: bool, limit: int): (r: Result<Option<seq<RuleRecord>>, InvalidSchema>)
    ensures r.Err? <==> SafeSchemaName(db.schemaSetting).Err?
    ensures r.Ok? ==> (r.value.Some? <==> db.configured && !db.fails)
    ensures r.Ok? && r.value.Some? ==>
      var sel := SelectRules(table, ruleType, activeOnly);
      |r.value.value| == (if |sel| < ClampLimit(limit, MaxReadLimit) then |sel| else ClampLimit(limit, MaxReadLimit))
      && forall i :: 0 <= i < |r.value.value| ==> r.value.value[i] == ToRecord(sel[i])
  {
    var _ :- SafeSchemaName(db.schemaSetting);
    if !db.configured || db.fails then Ok(None)
    else Ok(Some(FirstRecords(SelectRules(table, ruleType, activeOnly), ClampLimit(limit, MaxReadLimit))))
  }

  /** The first `n` selected rows (all of them when fewer), as records. */
  function FirstRecords(sel: seq<StoredRule>, n: nat): (out: seq<RuleRecord>)
    ensures |out| == if |sel| < n then |sel| else n
    ensures forall i :: 0 <= i < |out| ==> out[i] == ToRecord(sel[i])
  {
    var kept := if |sel| < n then sel else sel[..n];
    seq(|kept|, i requires 0 <= i < |kept| => ToRecord(kept[i]))
  }

  /** Every returned rule is a matching row of the table, and they come back in the query's order. */
  lemma GetApprovalRulesSound(db: Db, table: seq<StoredRule>, ruleType: Option<string>, activeOnly: bool, limit: int)
    requires GetApprovalRules(db, table, ruleType, activeOnly, limit).Ok?
    requires GetApprovalRules(db, table, ruleType, activeOnly, limit).value.Some?
    ensures var rs := GetApprovalRules(db, table, ruleType, activeOnly, limit).value.value;
      forall i :: 0 <= i < |rs| ==> exists j :: 0 <= j < |table| && RuleMatches(table[j], ruleType, activeOnly) && rs[i] == ToRecord(table[j])
  {
    var rs := GetApprovalRules(db, table, ruleType, activeOnly, limit).value.value;
    var sel := SelectRules(table, ruleType, activeOnly);
    forall i | 0 <= i < |rs| ensures exists j :: 0 <= j < |table| && RuleMatches(table[j], ruleType, activeOnly) && rs[i] == ToRecord(table[j]) {
      assert sel[i] in table;
      var j :| 0 <= j < |table| && table[j] == sel[i];
    }
  }

  /** `get_approval_rule_by_id`: the first row with that id, as a record. */
  function GetApprovalRuleById(db: Db, table: seq<StoredRule>, ruleId: string): (r: Result<Option<RuleRecord>, InvalidSchema>)
    ensures r.Err? <==> SafeSchemaName(db.schemaSetting).Err?
    ensures r.Ok? && r.value.Some? ==> db.configured && !db.fails && exists j :: 0 <= j < |table| && table[j].id == ruleId && r.value.value == ToRecord(table[j])
    ensures r.Ok? && db.configured && !db.fails && (exists j :: 0 <= j < |table| && table[j].id == ruleId) ==> r.value.Some?
  {
    var _ :- SafeSchemaName(db.schemaSetting);
    if !db.configured || db.fails then Ok(None)
    else
      match FindRow(table, ruleId)
      case Some(j) => Ok(Some(ToRecord(table[j])))
      case None => Ok(None)
  }

  /** The position of the first row with id `ruleId`. */
  function FindRow(table: seq<StoredRule>, ruleId: string): (r: Option<nat>)
    ensures r.Some? ==> r.value < |table| && table[r.value].id == ruleId && forall j :: 0 <= j < r.value ==> table[j].id != ruleId
    ensures r.None? <==> forall j :: 0 <= j < |table| ==> table[j].id != ruleId
  {
    if |table| == 0 then None
    else if table[0].id == ruleId then Some(0)
    else match FindRow(table[1..], ruleId)
      case Some(j) => Some(j + 1)
      case None => None
  }

  predicate HasId(table: seq<StoredRule>, ruleId: string) {
    exists j :: 0 <= j < |table| && table[j].id == ruleId
  }

  /** The new row `create_approval_rule_in_lakebase` inserts; an empty condition is stored as null. */
  function NewRule(id: string, name: string, ruleType: string, actionSummary: string,
                   condition: Option<string>, priority: int, isActive: bool, now: Time): (row: StoredRule)
    ensures row.condition.Some? ==> row.condition.value != []
    ensures Truthy(condition) ==> row.condition == condition
  {
    StoredRule(id, name, ruleType, if Truthy(condition) then condition else None, actionSummary, Some(priority), Some(isActive), Some(now), Some(now))
  }

  /**
   * `create_approval_rule_in_lakebase`: true and the row appended, or false and
   * nothing changed; an id already in the table violates the primary key.
   */
  function CreateApprovalRule(db: Db, table: seq<StoredRule>, row: StoredRule): (r: Result<(bool, seq<StoredRule>), InvalidSchema>)
    ensures r.Err? <==> SafeSchemaName(db.schemaSetting).Err?
    ensures r.Ok? ==> (r.value.0 <==> db.configured && !db.fails && !HasId(table, row.id))
    ensures r.Ok? && r.value.0 ==> r.value.1 == table + [row]
    ensures r.Ok? && !r.value.0 ==> r.value.1 == table
  {
    var _ :- SafeSchemaName(db.schemaSetting);
    if !db.configured || db.fails || HasId(table, row.id) then Ok((false, table)) else Ok((true, table + [row]))
  }

  /** A rule the database accepted reads back by its id as that very row. */
  lemma CreatedRuleReadsBack(db: Db, table: seq<StoredRule>, row: StoredRule)
    requires CreateApprovalRule(db, table, row).Ok? && CreateApprovalRule(db, table, row).value.0
    ensures GetApprovalRuleById(db, CreateApprovalRule(db, table, row).value.1, row.id) == Ok(Some(ToRecord(row)))
  {
    var after := table + [row];
    assert after[|table|] == row;
    var f := FindRow(after, row.id);
    assert f.Some?;
    assert f.value == |table|;
  }

  /** The optional fields of a partial update; `None` leaves a column unchanged. */
  datatype RulePatch = RulePatch(
    name: Option<string>,
    ruleType: Option<string>,
    condition: Option<string>,
    actionSummary: Option<string>,
    priority: Option<int>,
    isActive: Option<bool>)

  /** The columns a SET clause can assign, in the order the clause lists them. */
  datatype Column = UpdatedAtCol | NameCol | RuleTypeCol | ConditionCol | ActionSummaryCol | PriorityCol | IsActiveCol

  /** The SQL name of a column. */
  function ColumnName(c: Column): string {
    match c
    case UpdatedAtCol => "updated_at"
    case NameCol => "name"
    case RuleTypeCol => "rule_type"
    case ConditionCol => "condition_expression"
    case ActionSummaryCol => "action_summary"
    case PriorityCol => "priority"
    case IsActiveCol => "is_active"
  }

  /** A patch assigns the column: updated_at always, every other column when its field is given. */
  predicate Assigns(p: RulePatch, c: Column) {
    match c
    case UpdatedAtCol => true
    case NameCol => p.name.Some?
    case RuleTypeCol => p.ruleType.Some?
    case ConditionCol => p.condition.Some?
    case ActionSummaryCol => p.actionSummary.Some?
    case PriorityCol => p.priority.Some?
    case IsActiveCol => p.isActive.Some?
  }

  const AllColumns: seq<Column> := [UpdatedAtCol, NameCol, RuleTypeCol, ConditionCol, ActionSummaryCol, PriorityCol, IsActiveCol]

  lemma ColumnListed(c: Column)
    ensures exists i :: 0 <= i < |AllColumns| && AllColumns[i] == c
  {
    match c
    case UpdatedAtCol => assert AllColumns[0] == c;
    case NameCol => assert AllColumns[1] == c;
    case RuleTypeCol => assert AllColumns[2] == c;
    case ConditionCol => assert AllColumns[3] == c;
    case ActionSummaryCol => assert AllColumns[4] == c;
    case PriorityCol => assert AllColumns[5] == c;
    case IsActiveCol => assert AllColumns[6] == c;
  }

  /**
   * The columns `update_approval_rule_in_lakebase` puts in its SET clause:
   * updated_at, then each field the patch gives.
   */
  function SetColumns(p: RulePatch): (cols: seq<Column>)
    ensures forall c :: c in cols <==> Assigns(p, c)
  {
    var cols := Filter(AllColumns, (c: Column) => Assigns(p, c));
    forall c | Assigns(p, c) ensures c in cols {
      ColumnListed(c);
    }
    cols
  }

  /** One row after the UPDATE: the patched columns replaced and updated_at set to now. */
  function PatchRow(row: StoredRule, p: RulePatch, now: Time): (r: StoredRule)
    ensures r.id == row.id && r.createdAt == row.createdAt && r.updatedAt == Some(now)
    ensures r.name == p.name.GetOr(row.name) && r.ruleType == p.ruleType.GetOr(row.ruleType)
    ensures r.actionSummary == p.actionSummary.GetOr(row.actionSummary)
    ensures p.condition.Some? ==> r.condition == p.condition
    ensures p.condition.None? ==> r.condition == row.condition
    ensures p.priority.Some? ==> r.priority == p.priority
    ensures p.priority.None? ==> r.priority == row.priority
    ensures p.isActive.Some? ==> r.isActive == p.isActive
    ensures p.isActive.None? ==> r.isActive == row.isActive
  {
    StoredRule(row.id, p.name.GetOr(row.name), p.ruleType.GetOr(row.ruleType),
      if p.condition.Some? then p.condition else row.condition,
      p.actionSummary.GetOr(row.actionSummary),
      if p.priority.Some? then p.priority else row.priority,
      if p.isActive.Some? then p.isActive else row.isActive,
      row.createdAt, Some(now))
  }

  /**
   * `update_approval_rule_in_lakebase`: `None` when unconfigured or failing,
   * else whether any row had the id; the matching rows are patched in place.
   */
  function UpdateApprovalRule(db: Db, table: seq<StoredRule>, ruleId: string, p: RulePatch, now: Time): (r: Result<(Option<bool>, seq<StoredRule>), InvalidSchema>)
    ensures r.Err? <==> SafeSchemaName(db.schemaSetting).Err?
    ensures r.Ok? ==> (r.value.0.None? <==> !db.configured || db.fails)
    ensures r.Ok? && r.value.0.Some? ==> (r.value.0.value <==> HasId(table, ruleId))
    ensures r.Ok? ==> |r.value.1| == |table|
    ensures r.Ok? && r.value.0.Some? ==> forall i :: 0 <= i < |table| ==>
      r.value.1[i] == if table[i].id == ruleId then PatchRow(table[i], p, now) else table[i]
    ensures r.Ok? && r.value.0.None? ==> r.value.1 == table
  {
    var _ :- SafeSchemaName(db.schemaSetting);
    if !db.configured || db.fails then Ok((None, table))
    else
      var updated := seq(|table|, i requires 0 <= i < |table| => if table[i].id == ruleId then PatchRow(table[i], p, now) else table[i]);
      Ok((Some(HasId(table, ruleId)), updated))
  }

  /** Patching the rows of one id leaves the first of them where it was, now patched. */
  lemma UpdateKeepsFirstRow(table: seq<StoredRule>, updated: seq<StoredRule>, ruleId: string, p: RulePatch, now: Time)
    requires |updated| == |table|
    requires forall i :: 0 <= i < |table| ==> updated[i] == if table[i].id == ruleId then PatchRow(table[i], p, now) else table[i]
    ensures FindRow(updated, ruleId) == FindRow(table, ruleId)
    ensures FindRow(table, ruleId).Some? ==> updated[FindRow(table, ruleId).value] == PatchRow(table[FindRow(table, ruleId).value], p, now)
  {
    forall i | 0 <= i < |table| ensures updated[i].id == table[i].id {
      assert updated[i] == if table[i].id == ruleId then PatchRow(table[i], p, now) else table[i];
    }
    FindRowSeesOnlyIds(table, updated, ruleId);
  }

  /** Where the first row of an id sits depends only on the ids, position by position. */
  lemma {:induction false} FindRowSeesOnlyIds(a: seq<StoredRule>, b: seq<StoredRule>, ruleId: string)
    requires |a| == |b|
    requires forall i :: 0 <= i < |a| ==> a[i].id == b[i].id
    ensures FindRow(a, ruleId) == FindRow(b, ruleId)
    decreases |a|
  {
    if |a| > 0 && a[0].id != ruleId {
      assert forall i :: 0 <= i < |a[1..]| ==> a[1..][i].id == a[i + 1].id == b[i + 1].id == b[1..][i].id;
      FindRowSeesOnlyIds(a[1..], b[1..], ruleId);
    }
  }

  /** Updating an id that no row has reports false and leaves the table as it was. */
  lemma UpdateMissingChangesNothing(db: Db, table: seq<StoredRule>, ruleId: string, p: RulePatch, now: Time)
    requires db.configured && !db.fails && SafeSchemaName(db.schemaSetting).Ok? && !HasId(table, ruleId)
    ensures UpdateApprovalRule(db, table, ruleId, p, now) == Ok((Some(false), table))
  {
    var after := UpdateApprovalRule(db, table, ruleId, p, now).value.1;
    assert after == table;
  }

  /**
   * `delete_approval_rule_in_lakebase`: true whenever the DELETE runs, whether
   * or not a row matched; false when unconfigured or failing.
   */
  function DeleteApprovalRule(db: Db, table: seq<StoredRule>, ruleId: string): (r: Result<(bool, seq<StoredRule>), InvalidSchema>)
    ensures r.Err? <==> SafeSchemaName(db.schemaSetting).Err?
    ensures r.Ok? ==> (r.value.0 <==> db.configured && !db.fails)
    ensures r.Ok? && r.value.0 ==> !HasId(r.value.1, ruleId)
    ensures r.Ok? && r.value.0 ==> forall row :: row in table && row.id != ruleId ==> row in r.value.1
    ensures r.Ok? && r.value.0 ==>
      forall x :: multiset(r.value.1)[x] == if x.id != ruleId then multiset(table)[x] else 0
    ensures r.Ok? && !r.value.0 ==> r.value.1 == table
  {
    var _ :- SafeSchemaName(db.schemaSetting);
    if !db.configured || db.fails then Ok((false, table))
    else
      FilterCounts(table, OtherThan(ruleId));
      Ok((true, Filter(table, OtherThan(ruleId))))
  }

  /** The rows a DELETE of `ruleId` keeps. */
  function OtherThan(ruleId: string): StoredRule -> bool {
    (row: StoredRule) => row.id != ruleId
  }

  /** Deleting twice is deleting once, and the second delete still reports true. */
  lemma DeleteIdempotent(db: Db, table: seq<StoredRule>, ruleId: string)
    requires DeleteApprovalRule(db, table, ruleId).Ok? && DeleteApprovalRule(db, table, ruleId).value.0
    ensures var once := DeleteApprovalRule(db, table, ruleId).value.1;
      DeleteApprovalRule(db, once, ruleId) == Ok((true, once))
  {
    var once := DeleteApprovalRule(db, table, ruleId).value.1;
    FilterAllKept(once, OtherThan(ruleId));
  }

  /** Filtering with a predicate every element satisfies changes nothing. */
  lemma {:induction false} FilterAllKept<T>(s: seq<T>, p: T -> bool)
    requires forall i :: 0 <= i < |s| ==> p(s[i])
    ensures Filter(s, p) == s
  {
    if |s| > 0 {
      FilterAllKept(s[1..], p);
      assert s == [s[0]] + s[1..];
    }
  }

  // ---------------------------------------------------------------------------
  // app_config and app_settings
  // ---------------------------------------------------------------------------

  /** A value handed to `write_app_settings_keys`; only strings are written. */
  datatype SettingValue = Text(s: string) | NonText

  /** The entries `write_app_settings_keys` upserts: non-empty keys with string values. */
  function WritableSettings(settings: map<string, SettingValue>): (w: map<string, string>)
    ensures forall k :: k in w <==> k in settings && k != [] && settings[k].Text?
    ensures forall k :: k in w ==> w[k] == settings[k].s
  {
    map k | k in settings && k != [] && settings[k].Text? :: settings[k].s
  }

  /**
   * `write_app_settings_keys`: with the database unconfigured or nothing to
   * write, reports whether `settings` was non-empty and writes nothing;
   * otherwise upserts the writable entries, reporting false (and writing
   * nothing) when a statement fails.
   */
  function WriteAppSettingsKeys(db: Db, stored: map<string, string>, settings: map<string, SettingValue>): (r: Result<(bool, map<string, string>), InvalidSchema>)
    ensures r.Err? <==> SafeSchemaName(db.schemaSetting).Err?
    ensures r.Ok? && (!db.configured || settings == map[]) ==> r.value == (settings != map[], stored)
    ensures r.Ok? && db.configured && settings != map[] ==> (r.value.0 <==> !db.fails)
    ensures r.Ok? && r.value.1 != stored ==> r.value.0
    ensures r.Ok? && db.configured && settings != map[] && !db.fails ==>
      r.value.1 == stored + WritableSettings(settings)
  {
    var _ :- SafeSchemaName(db.schemaSetting);
    if !db.configured || settings == map[] then Ok((settings != map[], stored))
    else if db.fails then Ok((false, stored))
    else Ok((true, stored + WritableSettings(settings)))
  }

  /** Only non-empty keys with string values ever reach the table. */
  lemma WriteAppSettingsSkips(db: Db, stored: map<string, string>, settings: map<string, SettingValue>, k: string)
    requires WriteAppSettingsKeys(db, stored, settings).Ok? && k in settings && (k == [] || settings[k].NonText?)
    ensures var after := WriteAppSettingsKeys(db, stored, settings).value.1;
      (k in after <==> k in stored) && (k in stored ==> after[k] == stored[k])
  {
  }

  /** The singleton app_config row and the app_settings table. */
  datatype AppConfig = AppConfig(catalog: Option<string>, schema: Option<string>)

  /**
   * `write_app_config`: upserts the singleton app_config row and the "catalog"
   * and "schema" settings; false, with nothing written, when unconfigured or failing.
   */
  function WriteAppConfig(db: Db, config: Option<AppConfig>, settings: map<string, string>, catalog: string, schema: string): (r: Result<(bool, Option<AppConfig>, map<string, string>), InvalidSchema>)
    ensures r.Err? <==> SafeSchemaName(db.schemaSetting).Err?
    ensures r.Ok? ==> (r.value.0 <==> db.configured && !db.fails)
    ensures r.Ok? && r.value.0 ==>
      r.value.1 == Some(AppConfig(Some(catalog), Some(schema))) && r.value.2 == settings["catalog" := catalog]["schema" := schema]
    ensures r.Ok? && !r.value.0 ==> r.value.1 == config && r.value.2 == settings
  {
    var _ :- SafeSchemaName(db.schemaSetting);
    if !db.configured || db.fails then Ok((false, config, settings))
    else Ok((true, Some(AppConfig(Some(catalog), Some(schema))), settings["catalog" := catalog]["schema" := schema]))
  }

  /** Where the app_config / app_settings read raises, if it does. */
  datatype ReadFailure = NoFailure | FailsOnConfig | FailsOnSettings

  /** `str(x or "").strip()` of a nullable text column. */
  function CleanColumn(x: Option<string>): string {
    Strip(x.GetOr(""))
  }

  /** The (catalog, schema) pair: set only when both columns are non-blank after stripping. */
  function UcConfigOf(row: Option<AppConfig>): (uc: Option<(string, string)>)
    ensures uc.Some? <==> row.Some? && CleanColumn(row.value.catalog) != [] && CleanColumn(row.value.schema) != []
    ensures uc.Some? ==> uc.value == (CleanColumn(row.value.catalog), CleanColumn(row.value.schema))
  {
    if row.Some? && CleanColumn(row.value.catalog) != [] && CleanColumn(row.value.schema) != [] then
      Some((CleanColumn(row.value.catalog), CleanColumn(row.value.schema)))
    else None
  }

  /**
   * `load_app_config_and_settings`: nothing when unconfigured; otherwise the
   * catalog/schema pair and the settings (null values read as ""). A failure
   * keeps what was read before it.
   */
  function LoadAppConfigAndSettings(db: Db, config: Option<AppConfig>, settings: map<string, Option<string>>, failure: ReadFailure): (r: Result<(Option<(string, string)>, map<string, string>), InvalidSchema>)
    ensures r.Err? <==> SafeSchemaName(db.schemaSetting).Err?
    ensures r.Ok? && (!db.configured || failure == FailsOnConfig) ==> r.value == (None, map[])
    ensures r.Ok? && db.configured && failure != FailsOnConfig ==> r.value.0 == UcConfigOf(config)
    ensures r.Ok? && db.configured && failure == NoFailure ==>
      r.value.1.Keys == settings.Keys && forall k :: k in settings ==> r.value.1[k] == settings[k].GetOr("")
    ensures r.Ok? && failure != NoFailure ==> r.value.1 == map[]
  {
    var _ :- SafeSchemaName(db.schemaSetting);
    if !db.configured then Ok((None, map[]))
    else match failure
      case FailsOnConfig => Ok((None, map[]))
      case FailsOnSettings => Ok((UcConfigOf(config), map[]))
      case NoFailure => Ok((UcConfigOf(config), map k | k in settings :: settings[k].GetOr("")))
  }

  /** The settings table as a read sees it: every stored value is a non-null text. */
  function AsRead(stored: map<string, string>): (m: map<string, Option<string>>)
    ensures m.Keys == stored.Keys && forall k :: k in m ==> m[k] == Some(stored[k])
  {
    map k | k in stored :: Some(stored[k])
  }

  /**
   * What `write_app_config` stores, `load_app_config_and_settings` reads back:
   * a non-empty catalog and schema without surrounding whitespace come back as the pair,
   * and the settings come back as written.
   */
  lemma AppConfigRoundTrip(db: Db, config: Option<AppConfig>, settings: map<string, string>, catalog: string, schema: string)
    requires catalog != [] && catalog[0] !in Whitespace && catalog[|catalog| - 1] !in Whitespace
    requires schema != [] && schema[0] !in Whitespace && schema[|schema| - 1] !in Whitespace
    requires WriteAppConfig(db, config, settings, catalog, schema).Ok? && WriteAppConfig(db, config, settings, catalog, schema).value.0
    ensures var w := WriteAppConfig(db, config, settings, catalog, schema).value;
      LoadAppConfigAndSettings(db, w.1, AsRead(w.2), NoFailure) == Ok((Some((catalog, schema)), w.2))
  {
    var w := WriteAppConfig(db, config, settings, catalog, schema).value;
    CleanColumnKeeps(catalog);
    CleanColumnKeeps(schema);
    assert UcConfigOf(w.1) == Some((catalog, schema));
    LoadReadsSettings(db, w.1, w.2);
  }

  /** A configured load without failure returns every stored setting as stored. */
  lemma LoadReadsSettings(db: Db, config: Option<AppConfig>, stored: map<string, string>)
    requires SafeSchemaName(db.schemaSetting).Ok? && db.configured
    ensures LoadAppConfigAndSettings(db, config, AsRead(stored), NoFailure) == Ok((UcConfigOf(config), stored))
  {
    var r := LoadAppConfigAndSettings(db, config, AsRead(stored), NoFailure);
    assert r.value.1.Keys == stored.Keys;
    assert r.value.1 == stored;
  }

  /** A text column without surrounding whitespace reads back unchanged. */
  lemma CleanColumnKeeps(x: string)
    requires x != [] && x[0] !in Whitespace && x[|x| - 1] !in Whitespace
    ensures CleanColumn(Some(x)) == x
  {
    TrimKeepsTrimmed(x, Whitespace);
  }
}

=== FILE: notebooks.dfy ===
/**
 * The static notebook registry and its read-only endpoints (routes/notebooks.py):
 * listing with an optional category filter and per-category counts, lookup by
 * id, the workspace URL of a notebook, and the per-category summary.
 *
 * Each registry entry keeps the fields the endpoints read (id, name, category,
 * workspace path, job name); descriptions and tags are display text and are
 * not modelled.
 */
module Notebooks {
  import opened Wrappers
  import opened Strings
  import opened Entities

  /** `NotebookCategory`, in declaration order. */
  datatype Category = Intelligence | MlTraining | Streaming | Transformation | Analytics

  const AllCategories: seq<Category> := [Intelligence, MlTraining, Streaming, Transformation, Analytics]

  function CategoryValue(c: Category): (s: string)
    ensures s != []
  {
    match c
    case Intelligence => "intelligence"
    case MlTraining => "ml_training"
    case Streaming => "streaming"
    case Transformation => "transformation"
    case Analytics => "analytics"
  }

  /** Every category is listed once, and distinct categories have distinct values. */
  lemma CategoriesListed(c: Category, d: Category)
    ensures c in AllCategories
    ensures c != d ==> CategoryValue(c) != CategoryValue(d)
  {
  }

  datatype NotebookInfo = NotebookInfo(id: string, name: string, category: Category, workspacePath: string, jobName: Option<string>)

  const RepoFiles := "/Workspace/Users/ariel.hdez@databricks.com/getnet_approval_rates_v2/files/src/payment_analysis/"

  /** `NOTEBOOKS` */
  const Registry: seq<NotebookInfo> := [
    NotebookInfo("agent_framework", "Intelligence Results Framework", Intelligence, RepoFiles + "agents/agent_framework.py",
      Some("Smart Routing, Smart Retry, Decline Analysis, Risk Assessment, Performance Recommendations")),
    NotebookInfo("train_models", "ML Model Training", MlTraining, RepoFiles + "ml/train_models.py",
      Some("Train Payment Approval ML Models")),
    NotebookInfo("transaction_simulator", "Transaction Stream Simulator", Streaming, RepoFiles + "streaming/transaction_simulator.py",
      Some("Payment Transaction Stream Simulator")),
    NotebookInfo("bronze_ingest", "Bronze Layer Ingestion", Streaming, RepoFiles + "streaming/bronze_ingest.py",
      Some("Payment Analysis DLT Pipeline")),
    NotebookInfo("realtime_pipeline", "Real-Time Streaming Pipeline", Streaming, RepoFiles + "streaming/realtime_pipeline.py",
      Some("Payment Analysis DLT Pipeline")),
    NotebookInfo("continuous_processor", "Continuous Stream Processor", Streaming, RepoFiles + "streaming/continuous_processor.py",
      None),
    NotebookInfo("silver_transform", "Silver Layer Transformations", Transformation, RepoFiles + "transform/silver_transform.py",
      Some("Payment Analysis DLT Pipeline")),
    NotebookInfo("gold_views", "Gold Analytics Views", Transformation, RepoFiles + "transform/gold_views.py",
      Some("Create Payment Analysis Gold Views")),
    NotebookInfo("gold_views_sql", "Gold Views SQL Definitions", Transformation, RepoFiles + "transform/gold_views.sql",
      Some("Create Payment Analysis Gold Views"))
  ]

  /** No two registry entries share an id. */
  predicate DistinctIds(ns: seq<NotebookInfo>) {
    forall i, j :: 0 <= i < j < |ns| ==> ns[i].id != ns[j].id
  }

  lemma RegistryIdsDistinct()
    ensures DistinctIds(Registry)
  {
  }

  // ---------------------------------------------------------------------------
  // Listing
  // ---------------------------------------------------------------------------

  /** How many entries have the category. */
  function CountOf(ns: seq<NotebookInfo>, c: Category): nat {
    if ns == [] then 0
    else (if ns[0].category == c then 1 else 0) + CountOf(ns[1..], c)
  }

  /** The entries of one category, in registry order, each as often as it occurs. */
  function InCategory(ns: seq<NotebookInfo>, c: Category): (r: seq<NotebookInfo>)
    ensures |r| == CountOf(ns, c) <= |ns|
    ensures forall n :: n in r <==> n in ns && n.category == c
  {
    if ns == [] then []
    else (if ns[0].category == c then [ns[0]] else []) + InCategory(ns[1..], c)
  }

  /** Filtering a concatenation filters each part and keeps them in order. */
  lemma {:induction false} InCategoryAppend(a: seq<NotebookInfo>, b: seq<NotebookInfo>, c: Category)
    ensures InCategory(a + b, c) == InCategory(a, c) + InCategory(b, c)
  {
    if a == [] {
      assert a + b == b;
    } else {
      assert (a + b)[0] == a[0] && (a + b)[1..] == a[1..] + b;
      InCategoryAppend(a[1..], b, c);
      var h := if a[0].category == c then [a[0]] else [];
      assert h + (InCategory(a[1..], c) + InCategory(b, c)) == (h + InCategory(a[1..], c)) + InCategory(b, c);
    }
  }

  /** Every entry is in exactly one category: the counts add up to the number of entries. */
  lemma {:induction false} CountsAddUp(ns: seq<NotebookInfo>)
    ensures CountOf(ns, Intelligence) + CountOf(ns, MlTraining) + CountOf(ns, Streaming)
      + CountOf(ns, Transformation) + CountOf(ns, Analytics) == |ns|
  {
    if ns != [] {
      CountsAddUp(ns[1..]);
    }
  }

  /**
   * The per-category counts of `list_notebooks`, built by one pass over the
   * entries: a category is a key exactly when some entry has it.
   */
  method CountByCategory(ns: seq<NotebookInfo>) returns (m: map<string, int>)
    ensures forall c :: CategoryValue(c) in m <==> CountOf(ns, c) > 0
    ensures forall c :: CategoryValue(c) in m ==> m[CategoryValue(c)] == CountOf(ns, c)
    ensures forall k :: k in m ==> exists c :: CategoryValue(c) == k
  {
    m := map[];
    var i := 0;
    while i < |ns|
      invariant 0 <= i <= |ns|
      invariant CountsMap(m, ns[..i])
    {
      var cat := CategoryValue(ns[i].category);
      var before := if cat in m then m[cat] else 0;
      CountsMapStep(m, ns, i);
      m := m[cat := before + 1];
      i := i + 1;
    }
    CountsMapAll(m, ns);
  }

  /** `m` holds the per-category counts of `ns`, keyed by category value. */
  ghost predicate CountsMap(m: map<string, int>, ns: seq<NotebookInfo>) {
    && (forall c :: CategoryValue(c) in m <==> CountOf(ns, c) > 0)
    && (forall c :: CategoryValue(c) in m ==> m[CategoryValue(c)] == CountOf(ns, c))
    && (forall k :: k in m ==> exists c :: CategoryValue(c) == k)
  }

  /** Counting the entry at `i` extends the counts of the first `i` entries to the first `i + 1`. */
  lemma CountsMapStep(m: map<string, int>, ns: seq<NotebookInfo>, i: nat)
    requires i < |ns| && CountsMap(m, ns[..i])
    ensures var cat := CategoryValue(ns[i].category);
      CountsMap(m[cat := (if cat in m then m[cat] else 0) + 1], ns[..i + 1])
  {
    CountsMapSnoc(m, ns[..i], ns[i]);
    assert ns[..i + 1] == ns[..i] + [ns[i]];
  }

  /** Counts of every entry are the counts of the list. */
  lemma CountsMapAll(m: map<string, int>, ns: seq<NotebookInfo>)
    requires CountsMap(m, ns[..|ns|])
    ensures forall c :: CategoryValue(c) in m <==> CountOf(ns, c) > 0
    ensures forall c :: CategoryValue(c) in m ==> m[CategoryValue(c)] == CountOf(ns, c)
    ensures forall k :: k in m ==> exists c :: CategoryValue(c) == k
  {
    assert ns[..|ns|] == ns;
  }

  /** One step of the counting pass: bumping the entry's category counts one more entry. */
  lemma CountsMapSnoc(m: map<string, int>, ns: seq<NotebookInfo>, n: NotebookInfo)
    requires CountsMap(m, ns)
    ensures var cat := CategoryValue(n.category);
      CountsMap(m[cat := (if cat in m then m[cat] else 0) + 1], ns + [n])
  {
    var cat := CategoryValue(n.category);
    forall c ensures CountOf(ns + [n], c) == CountOf(ns, c) + (if n.category == c then 1 else 0) {
      CountOfSnoc(ns, n, c);
    }
    forall c | c != n.category ensures CategoryValue(c) != cat {
      CategoriesListed(c, n.category);
    }
  }

  lemma {:induction false} CountOfSnoc(ns: seq<NotebookInfo>, n: NotebookInfo, c: Category)
    ensures CountOf(ns + [n], c) == CountOf(ns, c) + (if n.category == c then 1 else 0)
  {
    if ns != [] {
      assert (ns + [n])[1..] == ns[1..] + [n];
      CountOfSnoc(ns[1..], n, c);
    }
  }

  datatype NotebookList = NotebookList(notebooks: seq<NotebookInfo>, total: int, byCategory: map<string, int>)

  /**
   * `list_notebooks`: the entries of the category (all of them when none is
   * given) with their number, and the counts over the whole registry.
   */
  method ListNotebooks(category: Option<Category>) returns (r: NotebookList)
    ensures category.None? ==> r.notebooks == Registry
    ensures category.Some? ==> r.notebooks == InCategory(Registry, category.value)
    ensures category.Some? ==> r.total == CountOf(Registry, category.value)
    ensures r.total == |r.notebooks|
    ensures forall c :: CategoryValue(c) in r.byCategory ==> r.byCategory[CategoryValue(c)] == CountOf(Registry, c)
    ensures forall c :: CategoryValue(c) in r.byCategory <==> CountOf(Registry, c) > 0
  {
    var filtered := if category.Some? then InCategory(Registry, category.value) else Registry;
    var counts := CountByCategory(Registry);
    r := NotebookList(filtered, |filtered|, counts);
  }

  // ---------------------------------------------------------------------------
  // Lookup and URL
  // ---------------------------------------------------------------------------

  function NotebookNotFound(id: string): HttpError {
    HttpError(404, "Notebook '" + id + "' not found")
  }

  /** The first entry with the id. */
  function Find(ns: seq<NotebookInfo>, id: string): (r: Option<NotebookInfo>)
    ensures r.Some? ==> r.value in ns && r.value.id == id
    ensures r.None? <==> forall i :: 0 <= i < |ns| ==> ns[i].id != id
  {
    if ns == [] then None
    else if ns[0].id == id then Some(ns[0])
    else Find(ns[1..], id)
  }

  /** With distinct ids the entry found is the only one with that id. */
  lemma {:induction false} FindUnique(ns: seq<NotebookInfo>, k: nat)
    requires DistinctIds(ns) && k < |ns|
    ensures Find(ns, ns[k].id) == Some(ns[k])
  {
    if k > 0 {
      assert ns[0].id != ns[k].id;
      assert ns[1..][k - 1] == ns[k];
      FindUnique(ns[1..], k - 1);
    }
  }

  /** `get_notebook`: the registry entry with the id, else 404. */
  function GetNotebook(id: string): (r: Result<NotebookInfo, HttpError>)
    ensures r.Ok? ==> r.value in Registry && r.value.id == id
    ensures r.Err? <==> forall i :: 0 <= i < |Registry| ==> Registry[i].id != id
    ensures r.Err? ==> r.error == NotebookNotFound(id)
  {
    match Find(Registry, id)
    case Some(n) => Ok(n)
    case None => Err(NotebookNotFound(id))
  }

  /** Every registry entry can be looked up by its id. */
  lemma GetNotebookFindsEach(k: nat)
    requires k < |Registry|
    ensures GetNotebook(Registry[k].id) == Ok(Registry[k])
  {
    RegistryIdsDistinct();
    FindUnique(Registry, k);
  }

  const WorkspaceBaseUrl := "https://adb-984752964297111.11.azuredatabricks.net"

  datatype NotebookUrl = NotebookUrl(notebookId: string, name: string, url: string, workspacePath: string, category: string)

  /** `get_notebook_url`: the base URL, "/workspace", then the notebook's workspace path. */
  function GetNotebookUrl(id: string): (r: Result<NotebookUrl, HttpError>)
    ensures r.Err? <==> GetNotebook(id).Err?
    ensures r.Err? ==> r.error == NotebookNotFound(id)
    ensures r.Ok? ==> var n := GetNotebook(id).value;
      r.value.url == WorkspaceBaseUrl + "/workspace" + n.workspacePath
      && r.value.workspacePath == n.workspacePath && r.value.notebookId == id && r.value.name == n.name
      && r.value.category == CategoryValue(n.category)
  {
    var n :- GetNotebook(id);
    Ok(NotebookUrl(id, n.name, WorkspaceBaseUrl + "/workspace" + n.workspacePath, n.workspacePath, CategoryValue(n.category)))
  }

  /** The URL ends with the notebook's workspace path. */
  lemma UrlEndsWithPath(id: string)
    requires GetNotebookUrl(id).Ok?
    ensures var u := GetNotebookUrl(id).value;
      |u.workspacePath| <= |u.url| && u.url[|u.url| - |u.workspacePath|..] == u.workspacePath
  {
  }

  // ---------------------------------------------------------------------------
  // Category summary
  // ---------------------------------------------------------------------------

  predicate IsLetter(c: char) {
    'a' <= c <= 'z' || 'A' <= c <= 'Z'
  }

  /**
   * `str.title()` over ASCII: a letter right after a letter is lower-cased,
   * any other letter upper-cased; other characters are kept.
   */
  function Title(s: string, afterLetter: bool): (r: string)
    ensures |r| == |s|
    ensures forall i :: 0 <= i < |s| && !IsLetter(s[i]) ==> r[i] == s[i]
    ensures forall i :: 0 <= i < |s| && IsLetter(s[i]) ==>
      r[i] == if (if i == 0 then afterLetter else IsLetter(s[i - 1])) then LowerChar(s[i]) else UpperChar(s[i])
  {
    if s == [] then []
    else
      var c := s[0];
      var head := if !IsLetter(c) then c else if afterLetter then LowerChar(c) else UpperChar(c);
      var rest := Title(s[1..], IsLetter(c));
      assert forall i :: 1 <= i < |s| ==> s[1..][i - 1] == s[i];
      [head] + rest
  }

  /** The display name of a category: its value with "_" as " ", title-cased. */
  function DisplayName(c: Category): (r: string)
    ensures |r| == |CategoryValue(c)|
  {
    Title(ReplaceChar(CategoryValue(c), '_', ' '), false)
  }

  /** Category values are lower-case words joined by "_", starting with a letter. */
  lemma CategoryValueChars(c: Category)
    ensures var v := CategoryValue(c);
      v[0] != '_' && forall i :: 0 <= i < |v| ==> 'a' <= v[i] <= 'z' || v[i] == '_'
  {
  }

  /**
   * The display name of every category: its value with each "_" turned into a
   * space and the first letter of each word upper-cased, the rest kept.
   */
  lemma DisplayNameWords(c: Category)
    ensures var v, r := CategoryValue(c), DisplayName(c);
      && |r| == |v|
      && r[0] == UpperChar(v[0])
      && (forall i :: 0 <= i < |v| ==> (r[i] == ' ' <==> v[i] == '_'))
      && (forall i :: 0 < i < |v| && v[i] != '_' ==> r[i] == if v[i - 1] == '_' then UpperChar(v[i]) else v[i])
  {
    var v := CategoryValue(c);
    var s := ReplaceChar(v, '_', ' ');
    CategoryValueChars(c);
    assert forall i :: 0 <= i < |v| ==> s[i] == if v[i] == '_' then ' ' else v[i];
    var r := Title(s, false);
    forall i | 0 <= i < |v|
      ensures (r[i] == ' ' <==> v[i] == '_')
      ensures 0 < i && v[i] != '_' ==> r[i] == if v[i - 1] == '_' then UpperChar(v[i]) else v[i]
    {
      if v[i] != '_' {
        assert IsLetter(s[i]) && 'A' <= UpperChar(v[i]) <= 'Z';
        if 0 < i {
          assert IsLetter(s[i - 1]) <==> v[i - 1] != '_';
        }
      }
    }
  }

  datatype NotebookRef = NotebookRef(id: string, name: string, jobName: Option<string>)

  datatype CategorySummary = CategorySummary(name: string, count: int, notebooks: seq<NotebookRef>)

  /** The summary: one (value, summary) pair per category, in declaration order, and the registry size. */
  datatype Summary = Summary(categories: seq<(string, CategorySummary)>, totalNotebooks: int)

  function Refs(ns: seq<NotebookInfo>): (r: seq<NotebookRef>)
    ensures |r| == |ns|
    ensures forall i :: 0 <= i < |ns| ==> r[i] == NotebookRef(ns[i].id, ns[i].name, ns[i].jobName)
  {
    seq(|ns|, i requires 0 <= i < |ns| => NotebookRef(ns[i].id, ns[i].name, ns[i].jobName))
  }

  function SummaryOf(ns: seq<NotebookInfo>, c: Category): CategorySummary {
    var inCat := InCategory(ns, c);
    CategorySummary(DisplayName(c), |inCat|, Refs(inCat))
  }

  /**
   * The summary over a list of entries: every category, even an empty one,
   * with its display name, count and entries; the total is the list's length.
   */
  function Summarize(ns: seq<NotebookInfo>): (r: Summary)
    ensures |r.categories| == |AllCategories|
    ensures forall i :: 0 <= i < |AllCategories| ==> (r.categories[i].0 == CategoryValue(AllCategories[i])
      && r.categories[i].1.count == CountOf(ns, AllCategories[i])
      && r.categories[i].1.name == DisplayName(AllCategories[i])
      && |r.categories[i].1.notebooks| == CountOf(ns, AllCategories[i])
      && r.categories[i].1.notebooks == Refs(InCategory(ns, AllCategories[i])))
    ensures r.totalNotebooks == |ns|
  {
    var cats := seq(|AllCategories|, i requires 0 <= i < |AllCategories| => (CategoryValue(AllCategories[i]), SummaryOf(ns, AllCategories[i])));
    Summary(cats, |ns|)
  }

  /** The summary's counts add up to its total. */
  lemma SummaryCountsAddUp(ns: seq<NotebookInfo>)
    ensures var r := Summarize(ns);
      r.categories[0].1.count + r.categories[1].1.count + r.categories[2].1.count
      + r.categories[3].1.count + r.categories[4].1.count == r.totalNotebooks
  {
    CountsAddUp(ns);
  }

  /** `get_category_summary`: the summary of the registry. */
  function GetCategorySummary(): (r: Summary)
    ensures r.totalNotebooks == |Registry| && |r.categories| == |AllCategories|
    ensures forall i :: 0 <= i < |AllCategories| ==> (r.categories[i].0 == CategoryValue(AllCategories[i])
      && r.categories[i].1.count == CountOf(Registry, AllCategories[i])
      && r.categories[i].1.name == DisplayName(AllCategories[i])
      && r.categories[i].1.notebooks == Refs(InCategory(Registry, AllCategories[i])))
  {
    Summarize(Registry)
  }
}

=== FILE: params.dfy ===
/**
 * The decision-parameter snapshot (`DecisionParams`) and how it is folded out of
 * the key/value rows of the decision_config table (engine.py).
 *
 * Python's `float(str)` is an input of the model (`FloatParser`): it yields the
 * parsed float, possibly infinite or NaN, or `None` where Python raises ValueError.
 */
module Params {
  import opened Wrappers
  import opened Strings
  import opened Folds
  import opened Entities

  /** One decision_config row, each field already passed through `str()` ("" when missing). */
  datatype ConfigRow = ConfigRow(key: string, value: string)

  /** All tunable decision parameters of one snapshot. */
  datatype DecisionParams = DecisionParams(
    riskThresholdHigh: PyFloat,
    riskThresholdMedium: PyFloat,
    deviceTrustLowRisk: PyFloat,
    retryMaxAttemptsControl: int,
    retryMaxAttemptsTreatment: int,
    retryBackoffRecurringControl: int,
    retryBackoffRecurringTreatment: int,
    retryBackoffTransient: int,
    retryBackoffSoftTreatment: int,
    routingDomesticCountry: string,
    mlEnrichmentEnabled: bool,
    mlEnrichmentTimeoutMs: int,
    ruleEngineEnabled: bool)

  /** `DecisionParams()`: the values used when the table is empty or unreadable. */
  function Defaults(): (p: DecisionParams)
    ensures p.routingDomesticCountry == "BR" && p.mlEnrichmentEnabled && p.ruleEngineEnabled
    ensures p.retryMaxAttemptsControl == 3 && p.retryMaxAttemptsTreatment == 4
  {
    DecisionParams(Finite(0.75), Finite(0.35), Finite(0.90), 3, 4, 900, 300, 60, 1800, "BR", true, 2000, true)
  }

  // ---------------------------------------------------------------------------
  // Key/value fold
  // ---------------------------------------------------------------------------

  /** A row's stripped key and value when neither is blank; such a row is skipped otherwise. */
  function KvEntry(row: ConfigRow): (e: Option<(string, string)>)
    ensures e.Some? <==> !IsBlank(row.key) && !IsBlank(row.value)
    ensures e.Some? ==> e.value.0 != [] && e.value.1 != []
  {
    var k := Strip(row.key);
    var v := Strip(row.value);
    if k != [] && v != [] then Some((k, v)) else None
  }

  /** The `kv` dict: stripped keys to stripped values, a later row overriding an earlier one. */
  function BuildKv(rows: seq<ConfigRow>): map<string, string> {
    LastWins(rows, KvEntry)
  }

  /** Every key and value of the dict is non-blank, and comes from some row. */
  lemma BuildKvNonBlank(rows: seq<ConfigRow>, k: string)
    requires k in BuildKv(rows)
    ensures k != [] && BuildKv(rows)[k] != []
    ensures exists i :: 0 <= i < |rows| && Strip(rows[i].key) == k && Strip(rows[i].value) == BuildKv(rows)[k]
  {
    LastWinsFrom(rows, KvEntry, k);
  }

  /** A key is in the dict exactly when some row has it with a non-blank value. */
  lemma BuildKvKeys(rows: seq<ConfigRow>, k: string)
    ensures k in BuildKv(rows) <==> exists i :: 0 <= i < |rows| && KvEntry(rows[i]).Some? && Strip(rows[i].key) == k
  {
    LastWinsKeys(rows, KvEntry, k);
  }

  /** The value stored for a key is the stripped value of the last non-blank row carrying it. */
  lemma BuildKvLastWins(rows: seq<ConfigRow>, i: int)
    requires 0 <= i < |rows| && KvEntry(rows[i]).Some?
    requires forall j :: i < j < |rows| && KvEntry(rows[j]).Some? ==> Strip(rows[j].key) != Strip(rows[i].key)
    ensures Strip(rows[i].key) in BuildKv(rows) && BuildKv(rows)[Strip(rows[i].key)] == Strip(rows[i].value)
  {
    LastWinsValue(rows, KvEntry, i);
  }

  /** Appending a row whose key or value is blank changes nothing. */
  lemma BuildKvIgnoresBlank(rows: seq<ConfigRow>, row: ConfigRow)
    requires IsBlank(row.key) || IsBlank(row.value)
    ensures BuildKv(rows + [row]) == BuildKv(rows)
  {
    LastWinsSkips(rows, KvEntry, row);
  }

  // ---------------------------------------------------------------------------
  // Per-field parsing
  // ---------------------------------------------------------------------------

  /** `int(x)` of a finite float: truncation toward zero. */
  function Trunc(x: real): (n: int)
    ensures x >= 0.0 ==> 0 <= n && n as real <= x < n as real + 1.0
    ensures x < 0.0 ==> n <= 0 && n as real - 1.0 < x <= n as real
  {
    if x >= 0.0 then x.Floor else -((-x).Floor)
  }

  /** `_float(key, default)`: the parsed value, or the default when absent or unparsable. */
  function FloatField(kv: map<string, string>, key: string, default: real, parse: FloatParser): (f: PyFloat)
    ensures key !in kv ==> f == Finite(default)
    ensures key in kv && parse(kv[key]).Some? ==> f == parse(kv[key]).value
    ensures key in kv && parse(kv[key]).None? ==> f == Finite(default)
  {
    if key !in kv then Finite(default)
    else match parse(kv[key])
      case Some(x) => x
      case None => Finite(default)
  }

  /** The exception `int(float(v))` raises past the `_int` helper's handler. */
  datatype ParamsError = OverflowError(key: string)

  /**
   * `_int(key, default)` as written: NaN raises ValueError and falls back to the
   * default, but an infinity raises OverflowError, which the helper does not catch.
   */
  function IntFieldAsWritten(kv: map<string, string>, key: string, default: int, parse: FloatParser): (r: Result<int, ParamsError>)
    ensures r.Err? <==> key in kv && parse(kv[key]).Some? && (parse(kv[key]).value.PosInf? || parse(kv[key]).value.NegInf?)
    ensures r.Ok? && key in kv && parse(kv[key]).Some? && parse(kv[key]).value.Finite? ==> r.value == Trunc(parse(kv[key]).value.r)
    ensures r.Ok? && (key !in kv || parse(kv[key]).None? || parse(kv[key]).value.NaN?) ==> r.value == default
  {
    if key !in kv then Ok(default)
    else match parse(kv[key])
      case None => Ok(default)
      case Some(Finite(x)) => Ok(Trunc(x))
      case Some(NaN) => Ok(default)
      case Some(_) => Err(OverflowError(key))
  }

  /** `_int(key, default)` with every conversion failure, infinities included, falling back to the default. */
  function IntField(kv: map<string, string>, key: string, default: int, parse: FloatParser): (n: int)
    ensures key in kv && parse(kv[key]).Some? && parse(kv[key]).value.Finite? ==> n == Trunc(parse(kv[key]).value.r)
    ensures !(key in kv && parse(kv[key]).Some? && parse(kv[key]).value.Finite?) ==> n == default
  {
    if key in kv && parse(kv[key]).Some? && parse(kv[key]).value.Finite? then Trunc(parse(kv[key]).value.r) else default
  }

  /** The lower-cased spellings `_bool` accepts as true. */
  const TrueWords: set<string> := {"true", "1", "yes"}

  /** `_bool(key, default)`: absent keys look up `str(default)`, so they give the default. */
  function BoolField(kv: map<string, string>, key: string, default: bool): (b: bool)
    ensures key in kv ==> (b <==> Lower(kv[key]) in TrueWords)
    ensures key !in kv ==> b == default
  {
    var v := if key in kv then kv[key] else if default then "True" else "False";
    assert Lower("True") == "true";
    Lower(v) in TrueWords
  }

  /** The string field: the stored value, or "BR". */
  function StrField(kv: map<string, string>, key: string, default: string): (s: string)
    ensures key in kv ==> s == kv[key]
    ensures key !in kv ==> s == default
  {
    if key in kv then kv[key] else default
  }

  // ---------------------------------------------------------------------------
  // The snapshot
  // ---------------------------------------------------------------------------

  /** The snapshot built from `kv` with the integer fields read by `int_of`. */
  function Assemble(kv: map<string, string>, parse: FloatParser, ints: seq<int>): (p: DecisionParams)
    requires |ints| == 7
    ensures p.riskThresholdHigh == FloatField(kv, "risk_threshold_high", 0.75, parse)
    ensures p.riskThresholdMedium == FloatField(kv, "risk_threshold_medium", 0.35, parse)
    ensures p.deviceTrustLowRisk == FloatField(kv, "device_trust_low_risk", 0.90, parse)
    ensures p.retryMaxAttemptsControl == ints[0] && p.retryMaxAttemptsTreatment == ints[1]
    ensures p.retryBackoffRecurringControl == ints[2] && p.retryBackoffRecurringTreatment == ints[3]
    ensures p.retryBackoffTransient == ints[4] && p.retryBackoffSoftTreatment == ints[5]
    ensures p.routingDomesticCountry == StrField(kv, "routing_domestic_country", "BR")
    ensures p.mlEnrichmentEnabled == BoolField(kv, "ml_enrichment_enabled", true)
    ensures p.mlEnrichmentTimeoutMs == ints[6]
    ensures p.ruleEngineEnabled == BoolField(kv, "rule_engine_enabled", true)
  {
    DecisionParams(
      FloatField(kv, "risk_threshold_high", 0.75, parse),
      FloatField(kv, "risk_threshold_medium", 0.35, parse),
      FloatField(kv, "device_trust_low_risk", 0.90, parse),
      ints[0], ints[1], ints[2], ints[3], ints[4], ints[5],
      StrField(kv, "routing_domestic_country", "BR"),
      BoolField(kv, "ml_enrichment_enabled", true),
      ints[6],
      BoolField(kv, "rule_engine_enabled", true))
  }

  /** The integer-valued keys, in field order, with their defaults. */
  const IntKeys: seq<string> := [
    "retry_max_attempts_control", "retry_max_attempts_treatment",
    "retry_backoff_recurring_control", "retry_backoff_recurring_treatment",
    "retry_backoff_transient", "retry_backoff_soft_treatment", "ml_enrichment_timeout_ms"]
  const IntDefaults: seq<int> := [3, 4, 900, 300, 60, 1800, 2000]

  /** The first integer key, from position `from` on, whose value `int(float(v))` cannot convert. */
  function FirstOverflow(kv: map<string, string>, parse: FloatParser, from: nat): (r: Option<nat>)
    requires from <= 7
    ensures r.Some? ==> from <= r.value < 7 && IntFieldAsWritten(kv, IntKeys[r.value], IntDefaults[r.value], parse).Err?
    ensures r.None? ==> forall i :: from <= i < 7 ==> IntFieldAsWritten(kv, IntKeys[i], IntDefaults[i], parse).Ok?
    decreases 7 - from
  {
    if from == 7 then None
    else if IntFieldAsWritten(kv, IntKeys[from], IntDefaults[from], parse).Err? then Some(from)
    else FirstOverflow(kv, parse, from + 1)
  }

  /** The snapshot `_params_from_config` builds from its `kv` dict, as written: an infinite integer field raises. */
  function FromKvAsWritten(kv: map<string, string>, parse: FloatParser): (r: Result<DecisionParams, ParamsError>)
    ensures r.Err? <==> exists i :: 0 <= i < 7 && IntFieldAsWritten(kv, IntKeys[i], IntDefaults[i], parse).Err?
  {
    match FirstOverflow(kv, parse, 0)
    case Some(i) => Err(OverflowError(IntKeys[i]))
    case None =>
      Ok(Assemble(kv, parse, seq(7, i requires 0 <= i < 7 => IntFieldAsWritten(kv, IntKeys[i], IntDefaults[i], parse).value)))
  }

  /** The snapshot built from `kv` with each unconvertible integer field falling back to its own default. */
  function FromKv(kv: map<string, string>, parse: FloatParser): (p: DecisionParams)
    ensures p.riskThresholdHigh == FloatField(kv, "risk_threshold_high", 0.75, parse)
    ensures p.riskThresholdMedium == FloatField(kv, "risk_threshold_medium", 0.35, parse)
    ensures p.deviceTrustLowRisk == FloatField(kv, "device_trust_low_risk", 0.90, parse)
    ensures p.retryMaxAttemptsControl == IntField(kv, "retry_max_attempts_control", 3, parse)
    ensures p.retryMaxAttemptsTreatment == IntField(kv, "retry_max_attempts_treatment", 4, parse)
    ensures p.retryBackoffRecurringControl == IntField(kv, "retry_backoff_recurring_control", 900, parse)
    ensures p.retryBackoffRecurringTreatment == IntField(kv, "retry_backoff_recurring_treatment", 300, parse)
    ensures p.retryBackoffTransient == IntField(kv, "retry_backoff_transient", 60, parse)
    ensures p.retryBackoffSoftTreatment == IntField(kv, "retry_backoff_soft_treatment", 1800, parse)
    ensures p.routingDomesticCountry == StrField(kv, "routing_domestic_country", "BR")
    ensures p.mlEnrichmentEnabled == BoolField(kv, "ml_enrichment_enabled", true)
    ensures p.mlEnrichmentTimeoutMs == IntField(kv, "ml_enrichment_timeout_ms", 2000, parse)
    ensures p.ruleEngineEnabled == BoolField(kv, "rule_engine_enabled", true)
  {
    Assemble(kv, parse, seq(7, i requires 0 <= i < 7 => IntField(kv, IntKeys[i], IntDefaults[i], parse)))
  }

  /** `_params_from_config` as written. */
  function ParamsFromConfigAsWritten(rows: seq<ConfigRow>, parse: FloatParser): Result<DecisionParams, ParamsError> {
    FromKvAsWritten(BuildKv(rows), parse)
  }

  /** `_params_from_config`, with the integer fields read as `IntField` does. */
  function ParamsFromConfig(rows: seq<ConfigRow>, parse: FloatParser): DecisionParams {
    FromKv(BuildKv(rows), parse)
  }

  /** With no rows every field takes its default. */
  lemma NoRowsGiveDefaults(parse: FloatParser)
    ensures ParamsFromConfig([], parse) == Defaults()
  {
    assert BuildKv([]) == map[];
    assert Lower("True") == "true";
  }

  /** Wherever the as-written fold succeeds, it agrees with the corrected one. */
  lemma AsWrittenAgreesWhenOk(kv: map<string, string>, parse: FloatParser)
    requires FromKvAsWritten(kv, parse).Ok?
    ensures FromKvAsWritten(kv, parse).value == FromKv(kv, parse)
  {
    var ints := seq(7, i requires 0 <= i < 7 => IntField(kv, IntKeys[i], IntDefaults[i], parse));
    forall i | 0 <= i < 7 ensures IntFieldAsWritten(kv, IntKeys[i], IntDefaults[i], parse) == Ok(ints[i]) {
      assert IntFieldAsWritten(kv, IntKeys[i], IntDefaults[i], parse).Ok?;
    }
  }

  /**
   * A table holding "inf" for the transient backoff and "0.9" for the high-risk
   * threshold: the as-written fold raises, so no snapshot holding 0.9 is ever
   * built (the error escapes the loader and nothing is stored); the corrected
   * fold keeps 0.9 and defaults only the broken field.
   */
  lemma InfiniteIntLosesOtherFields(parse: FloatParser)
    requires parse("inf") == Some(PosInf) && parse("0.9") == Some(Finite(0.9))
    ensures var kv := map["retry_backoff_transient" := "inf", "risk_threshold_high" := "0.9"];
      FromKvAsWritten(kv, parse).Err?
      && FromKv(kv, parse).riskThresholdHigh == Finite(0.9)
      && FromKv(kv, parse).retryBackoffTransient == 60
  {
    var kv := map["retry_backoff_transient" := "inf", "risk_threshold_high" := "0.9"];
    assert IntKeys[4] == "retry_backoff_transient";
    assert IntFieldAsWritten(kv, IntKeys[4], IntDefaults[4], parse).Err?;
  }
}

=== FILE: routes.dfy ===
/**
 * The ranked list of PSP routes the routing policy consults
 * (`RouteScore` and `_route_scores_list`, engine.py).
 */
module Routes {
  import opened Wrappers
  import opened Sorting

  /** One route_performance row; a field is `None` when the row lacks the column. */
  datatype RouteRow = RouteRow(
    routeName: Option<string>,
    approvalRatePct: Option<real>,
    avgLatencyMs: Option<real>,
    costScore: Option<real>)

  datatype RouteScore = RouteScore(routeName: string, approvalRatePct: real, avgLatencyMs: real, costScore: real)

  /** A row with its missing fields defaulted: "", 50 %, 500 ms and cost 0.5. */
  function ToScore(row: RouteRow): (r: RouteScore)
    ensures row.routeName.None? ==> r.routeName == ""
    ensures row.routeName.Some? ==> r.routeName == row.routeName.value
    ensures row.approvalRatePct.None? ==> r.approvalRatePct == 50.0
    ensures row.avgLatencyMs.None? ==> r.avgLatencyMs == 500.0
    ensures row.costScore.None? ==> r.costScore == 0.5
    ensures row.approvalRatePct.Some? ==> r.approvalRatePct == row.approvalRatePct.value
    ensures row.avgLatencyMs.Some? ==> r.avgLatencyMs == row.avgLatencyMs.value
    ensures row.costScore.Some? ==> r.costScore == row.costScore.value
  {
    RouteScore(row.routeName.GetOr(""), row.approvalRatePct.GetOr(50.0), row.avgLatencyMs.GetOr(500.0), row.costScore.GetOr(0.5))
  }

  function ToScores(rows: seq<RouteRow>): (r: seq<RouteScore>)
    ensures |r| == |rows| && forall i :: 0 <= i < |rows| ==> r[i] == ToScore(rows[i])
  {
    seq(|rows|, i requires 0 <= i < |rows| => ToScore(rows[i]))
  }

  /** The sort key: approval rate descending, then latency and cost ascending. */
  function RankKey(r: RouteScore): seq<real> {
    [-r.approvalRatePct, r.avgLatencyMs, r.costScore]
  }

  /** `a` may be listed before `b`: a higher approval rate, or equal and a lower latency, or both equal and no higher cost. */
  predicate RanksNoWorse(a: RouteScore, b: RouteScore) {
    a.approvalRatePct > b.approvalRatePct
    || (a.approvalRatePct == b.approvalRatePct
        && (a.avgLatencyMs < b.avgLatencyMs || (a.avgLatencyMs == b.avgLatencyMs && a.costScore <= b.costScore)))
  }

  /** The lexicographic key order is exactly the ranking order. */
  lemma RankKeyOrder(a: RouteScore, b: RouteScore)
    ensures !LexLess(RankKey(b), RankKey(a)) <==> RanksNoWorse(a, b)
  {
    var ka, kb := RankKey(a), RankKey(b);
    var ka1, kb1 := [a.avgLatencyMs, a.costScore], [b.avgLatencyMs, b.costScore];
    var ka2, kb2 := [a.costScore], [b.costScore];
    assert ka[1..] == ka1 && kb[1..] == kb1 && ka1[1..] == ka2 && kb1[1..] == kb2;
    assert ka2[1..] == [] && kb2[1..] == [];
    assert LexLess(kb2, ka2) <==> b.costScore < a.costScore;
    assert LexLess(kb1, ka1) <==> b.avgLatencyMs < a.avgLatencyMs || (b.avgLatencyMs == a.avgLatencyMs && LexLess(kb2, ka2));
    assert LexLess(kb, ka) <==> -b.approvalRatePct < -a.approvalRatePct || (b.approvalRatePct == a.approvalRatePct && LexLess(kb1, ka1));
  }

  /** `_route_scores_list(rows)` */
  function RouteScoresList(rows: seq<RouteRow>): (r: seq<RouteScore>)
    ensures multiset(r) == multiset(ToScores(rows))
    ensures forall i, j :: 0 <= i < j < |r| ==> RanksNoWorse(r[i], r[j])
    ensures forall k :: WithKey(r, RankKey, k) == WithKey(ToScores(rows), RankKey, k)
  {
    var r := SortBy(ToScores(rows), RankKey);
    assert forall i, j :: 0 <= i < j < |r| ==> RanksNoWorse(r[i], r[j]) by {
      forall i, j | 0 <= i < j < |r| ensures RanksNoWorse(r[i], r[j]) {
        RankKeyOrder(r[i], r[j]);
      }
    }
    r
  }

  /**
   * Three routes where A and B tie on approval rate and C has a lower one, e.g.
   * A (92 %, 400 ms, 0.3), B (92 %, 350 ms, 0.3), C (80 %, 200 ms, 0.1):
   * the tie is broken by latency and C's lower latency does not help it, so the order is B, A, C.
   */
  lemma {:induction false} RankingExample(ra: RouteRow, rb: RouteRow, rc: RouteRow)
    requires ToScore(ra).approvalRatePct == ToScore(rb).approvalRatePct > ToScore(rc).approvalRatePct
    requires ToScore(rb).avgLatencyMs < ToScore(ra).avgLatencyMs
    ensures RouteScoresList([ra, rb, rc]) == [ToScore(rb), ToScore(ra), ToScore(rc)]
  {
    var a, b, c := ToScore(ra), ToScore(rb), ToScore(rc);
    assert ToScores([ra, rb, rc]) == [a, b, c];
    SortThree(a, b, c);
  }

  lemma SortThree(a: RouteScore, b: RouteScore, c: RouteScore)
    requires a.approvalRatePct == b.approvalRatePct > c.approvalRatePct && b.avgLatencyMs < a.avgLatencyMs
    ensures SortBy([a, b, c], RankKey) == [b, a, c]
  {
    var s := [a, b, c];
    assert s[1..] == [b, c];
    SortTwoInOrder(b, c);
    assert Insert(a, [b, c], RankKey) == [b, a, c] by {
      RankKeyOrder(a, b);
      assert [b, c][1..] == [c];
      assert Insert(a, [c], RankKey) == [a, c] by {
        RankKeyOrder(a, c);
      }
    }
  }

  /** A pair whose first route has the higher approval rate is already sorted. */
  lemma SortTwoInOrder(b: RouteScore, c: RouteScore)
    requires b.approvalRatePct > c.approvalRatePct
    ensures SortBy([b, c], RankKey) == [b, c]
  {
    assert [b, c][1..] == [c] && [c][1..] == [];
    RankKeyOrder(b, c);
    assert SortBy([c], RankKey) == [c];
    assert SortBy([b, c], RankKey) == Insert(b, [c], RankKey);
  }
}

=== FILE: rule_matching.dfy ===
/**
 * Approval-rule selection and the rule override of the engine's `decide_*`
 * methods (engine.py): the cached rule load, the filter by rule type, the
 * evaluation of each rule's condition, and the rewrite of the decision by the
 * first match.
 *
 * `evaluate_condition` is not part of this model: it is a parameter that maps a
 * rule's condition expression to holds, fails or raises, for the serialized
 * context of the decision at hand.
 */
module RuleMatching {
  import opened Wrappers
  import opened Strings
  import opened Sorting
  import opened Entities
  import opened Lakebase
  import opened TtlCache

  /** The three decision types; each reads the rules of its own type. */
  datatype DecisionType = Authentication | Retry | Routing

  function TypeName(t: DecisionType): (s: string)
    ensures s != []
  {
    match t
    case Authentication => "authentication"
    case Retry => "retry"
    case Routing => "routing"
  }

  /** How one call of `evaluate_condition` ends. */
  datatype EvalOutcome = Holds | DoesNotHold | Raises

  /** `evaluate_condition(ctx_dict, expr)` for one decision's context. */
  type Evaluator = Option<string> -> EvalOutcome

  /** The `limit` the rule loader passes to the store. */
  const RuleLoadLimit := 200

  /**
   * The rules `_load_rules` reads on a miss: the active rules, as the store
   * returns them, or nothing when the read raises or returns None.
   */
  function ReadRules(db: Db, table: seq<StoredRule>): (r: Option<seq<RuleRecord>>)
    ensures r.Some? <==> GetApprovalRules(db, table, None, true, RuleLoadLimit).Ok? && GetApprovalRules(db, table, None, true, RuleLoadLimit).value.Some?
    ensures r.Some? ==> r == GetApprovalRules(db, table, None, true, RuleLoadLimit).value
  {
    match GetApprovalRules(db, table, None, true, RuleLoadLimit)
    case Ok(Some(rs)) => Some(rs)
    case _ => None
  }

  /** The rules of one type: the order-preserving sub-list `[r for r in all_rules if r["rule_type"] == t]`. */
  function OfType(rules: seq<RuleRecord>, t: string): (r: seq<RuleRecord>)
    ensures forall i :: 0 <= i < |r| ==> r[i] in rules && r[i].ruleType == t
    ensures forall i :: 0 <= i < |rules| && rules[i].ruleType == t ==> rules[i] in r
    ensures forall x :: multiset(r)[x] == if x.ruleType == t then multiset(rules)[x] else 0
  {
    FilterCounts(rules, (x: RuleRecord) => x.ruleType == t);
    Filter(rules, (x: RuleRecord) => x.ruleType == t)
  }

  /** Narrowing to a type keeps the cached order: whatever held between earlier and later rules still does. */
  lemma OfTypeKeepsOrder(rules: seq<RuleRecord>, t: string, before: (RuleRecord, RuleRecord) -> bool)
    requires forall i, j :: 0 <= i < j < |rules| ==> before(rules[i], rules[j])
    ensures var r := OfType(rules, t); forall i, j :: 0 <= i < j < |r| ==> before(r[i], r[j])
  {
    FilterKeepsPairwise(rules, (x: RuleRecord) => x.ruleType == t, before);
  }

  /**
   * `_load_rules(rule_type)`: the cached rule list (refreshed on a miss, with
   * an empty list stored when the read yields nothing), narrowed to the type
   * when one is given.
   */
  function LoadRules(e: Entry<seq<RuleRecord>>, now: int, hasRuntime: bool, read: Option<seq<RuleRecord>>, ruleType: Option<string>): (r: Load<seq<RuleRecord>>)
    ensures r.entry == LoadOrFallback(e, now, hasRuntime, read, []).entry
    ensures Truthy(ruleType) ==> r.value == OfType(r.entry.data.value, ruleType.value)
    ensures !Truthy(ruleType) ==> r.value == r.entry.data.value
  {
    var all := LoadOrFallback(e, now, hasRuntime, read, []);
    if Truthy(ruleType) then Load(OfType(all.value, ruleType.value), all.entry) else all
  }

  /** `_evaluate_rules`: the rules whose condition holds, in order; one that raises is skipped. */
  function EvaluateRules(rules: seq<RuleRecord>, eval: Evaluator): (matches: seq<RuleRecord>)
    ensures forall i :: 0 <= i < |matches| ==> matches[i] in rules && eval(matches[i].condition) == Holds
    ensures forall i :: 0 <= i < |rules| && eval(rules[i].condition) == Holds ==> rules[i] in matches
    ensures forall x :: multiset(matches)[x] == if eval(x.condition) == Holds then multiset(rules)[x] else 0
  {
    FilterCounts(rules, (x: RuleRecord) => eval(x.condition) == Holds);
    Filter(rules, (x: RuleRecord) => eval(x.condition) == Holds)
  }

  /** Matching keeps the order of the loaded rules: whatever held between earlier and later rules still does. */
  lemma EvaluateRulesKeepsOrder(rules: seq<RuleRecord>, eval: Evaluator, before: (RuleRecord, RuleRecord) -> bool)
    requires forall i, j :: 0 <= i < j < |rules| ==> before(rules[i], rules[j])
    ensures var m := EvaluateRules(rules, eval); forall i, j :: 0 <= i < j < |m| ==> before(m[i], m[j])
  {
    FilterKeepsPairwise(rules, (x: RuleRecord) => eval(x.condition) == Holds, before);
  }

  /** A rule matches for a decision type: it has that type and its condition holds. */
  predicate Matches(r: RuleRecord, t: DecisionType, eval: Evaluator) {
    r.ruleType == TypeName(t) && eval(r.condition) == Holds
  }

  /**
   * The matches of one decision type start with the first loaded rule of that
   * type whose condition holds; every rule before it has another type, or a
   * condition that does not hold or raises.
   */
  lemma FirstMatchIsFirstHolding(rules: seq<RuleRecord>, t: DecisionType, eval: Evaluator)
    requires EvaluateRules(OfType(rules, TypeName(t)), eval) != []
    ensures exists k :: (0 <= k < |rules| && rules[k] == EvaluateRules(OfType(rules, TypeName(t)), eval)[0]
      && Matches(rules[k], t, eval) && forall j :: 0 <= j < k ==> !Matches(rules[j], t, eval))
  {
    var isType := (x: RuleRecord) => x.ruleType == TypeName(t);
    var holds := (x: RuleRecord) => eval(x.condition) == Holds;
    var both := (x: RuleRecord) => Matches(x, t, eval);
    FilterTwice(rules, isType, holds, both);
    FilterHead(rules, both);
  }

  /** No match exists exactly when no loaded rule of the type has a condition that holds. */
  lemma NoMatchIffNoneHolds(rules: seq<RuleRecord>, t: DecisionType, eval: Evaluator)
    ensures EvaluateRules(OfType(rules, TypeName(t)), eval) == [] <==> forall j :: 0 <= j < |rules| ==> !Matches(rules[j], t, eval)
  {
    var ofType := OfType(rules, TypeName(t));
    var m := EvaluateRules(ofType, eval);
    if m != [] {
      assert m[0] in ofType;
      var i :| 0 <= i < |ofType| && ofType[i] == m[0];
      assert ofType[i] in rules;
      var j :| 0 <= j < |rules| && rules[j] == ofType[i];
    }
  }

  // ---------------------------------------------------------------------------
  // The override
  // ---------------------------------------------------------------------------

  /**
   * A decision as the policy returns it: the audit id, the reason, the
   * metadata (only authentication decisions carry one) and every other field.
   */
  datatype Decision = Decision(auditId: string, reason: string, metadata: Option<Metadata>, fields: Metadata)

  /** The reason a matched rule writes: "[Rule: <name>] <action_summary>". */
  function RuleReason(rule: RuleRecord): (s: string)
    ensures |s| == 9 + |rule.name| + |rule.actionSummary|
    ensures s[..7] == "[Rule: " && s[7..7 + |rule.name|] == rule.name && s[|s| - |rule.actionSummary|..] == rule.actionSummary
  {
    "[Rule: " + rule.name + "] " + rule.actionSummary
  }

  /** The rule provenance an authentication override adds to the metadata. */
  function Provenance(rule: RuleRecord): (m: Metadata)
    ensures m.Keys == {"matched_rule_id", "matched_rule_name"}
  {
    map["matched_rule_id" := Str(rule.id), "matched_rule_name" := Str(rule.name)]
  }

  /**
   * The override block of `decide_*`: when the rule engine is enabled and some
   * rule matched, the first match rewrites the reason and, for authentication,
   * adds its id and name to the metadata; otherwise the decision is returned as is.
   */
  function Override(d: Decision, enabled: bool, matches: seq<RuleRecord>, t: DecisionType): (r: Decision)
    ensures r.auditId == d.auditId && r.fields == d.fields
    ensures !enabled || matches == [] ==> r == d
    ensures enabled && matches != [] ==> r.reason == RuleReason(matches[0])
    ensures t != Authentication ==> r.metadata == d.metadata
    ensures enabled && matches != [] && t == Authentication ==>
      r.metadata == Some(d.metadata.GetOr(map[]) + Provenance(matches[0]))
  {
    if !enabled || matches == [] then d
    else
      var top := matches[0];
      var metadata := if t == Authentication then Some(d.metadata.GetOr(map[]) + Provenance(top)) else d.metadata;
      d.(reason := RuleReason(top), metadata := metadata)
  }

  /** An authentication override keeps every earlier metadata entry except the two provenance keys. */
  lemma OverrideKeepsMetadata(d: Decision, matches: seq<RuleRecord>, k: string)
    requires matches != [] && d.metadata.Some? && k in d.metadata.value
    requires k != "matched_rule_id" && k != "matched_rule_name"
    ensures var r := Override(d, true, matches, Authentication);
      k in r.metadata.value && r.metadata.value[k] == d.metadata.value[k]
  {
  }

  /**
   * The rule step of `decide_*`: with the rule engine disabled the rules are not
   * loaded (the cache entry is untouched); otherwise they are loaded for the
   * decision's type, evaluated, and the first match overrides the decision.
   */
  function ApplyRules(d: Decision, t: DecisionType, enabled: bool, eval: Evaluator,
                      e: Entry<seq<RuleRecord>>, now: int, hasRuntime: bool, read: Option<seq<RuleRecord>>): (r: (Decision, Entry<seq<RuleRecord>>))
    ensures !enabled ==> r == (d, e)
    ensures enabled ==> r.1 == LoadOrFallback(e, now, hasRuntime, read, []).entry
    ensures enabled ==> r.0 == Override(d, true, EvaluateRules(OfType(r.1.data.value, TypeName(t)), eval), t)
  {
    if !enabled then (d, e)
    else
      var loaded := LoadRules(e, now, hasRuntime, read, Some(TypeName(t)));
      (Override(d, true, EvaluateRules(loaded.value, eval), t), loaded.entry)
  }

  /**
   * End to end: when the rule step rewrites the reason, it is the reason of
   * the first rule, in the order the rules were loaded, that has the decision's
   * type and a condition that holds; with no such rule the decision is unchanged.
   */
  lemma ApplyRulesPicksFirstHolding(d: Decision, t: DecisionType, eval: Evaluator,
                                    e: Entry<seq<RuleRecord>>, now: int, hasRuntime: bool, read: Option<seq<RuleRecord>>)
    ensures var r := ApplyRules(d, t, true, eval, e, now, hasRuntime, read);
      var rules := r.1.data.value;
      ((forall j :: 0 <= j < |rules| ==> !Matches(rules[j], t, eval)) ==> r.0 == d)
      && ((exists j :: 0 <= j < |rules| && Matches(rules[j], t, eval)) ==>
        exists k :: (0 <= k < |rules| && Matches(rules[k], t, eval) && r.0.reason == RuleReason(rules[k])
          && forall j :: 0 <= j < k ==> !Matches(rules[j], t, eval)))
  {
    var r := ApplyRules(d, t, true, eval, e, now, hasRuntime, read);
    var rules := r.1.data.value;
    NoMatchIffNoneHolds(rules, t, eval);
    if EvaluateRules(OfType(rules, TypeName(t)), eval) != [] {
      FirstMatchIsFirstHolding(rules, t, eval);
    }
  }
}

=== FILE: rules_api.dfy ===
/**
 * The approval-rules API (routes/rules.py): request validation, the
 * conversion of a stored row into the response shape, and the create, update,
 * delete and list endpoints over the primary store (Lakebase when the
 * database is configured, otherwise the Lakehouse).
 *
 * The Lakehouse service is not part of this model: what its calls return is
 * given as parameters.
 */
module RulesApi {
  import opened Wrappers
  import opened Strings
  import opened Entities
  import opened Lakebase

  const RuleNameMax := 500
  const ActionSummaryMax := 2000
  const ConditionMax := 5000
  const PriorityMax := 10000
  const DefaultPriority := 100
  const RuleListMax := 500

  /** The rule types the `^(authentication|retry|routing)$` pattern admits. */
  const RuleTypes: set<string> := {"authentication", "retry", "routing"}

  // ---------------------------------------------------------------------------
  // Request validation
  // ---------------------------------------------------------------------------

  /** A create body as sent; an omitted priority or is_active is `None`. */
  datatype RuleIn = RuleIn(
    name: string,
    ruleType: string,
    actionSummary: string,
    condition: Option<string>,
    priority: Option<int>,
    isActive: Option<bool>)

  /** A validated create body with its defaults filled in. */
  datatype NewRuleFields = NewRuleFields(
    name: string,
    ruleType: string,
    actionSummary: string,
    condition: Option<string>,
    priority: int,
    isActive: bool)

  predicate ValidName(s: string) { 1 <= |s| <= RuleNameMax }
  predicate ValidActionSummary(s: string) { 1 <= |s| <= ActionSummaryMax }
  predicate ValidCondition(s: string) { |s| <= ConditionMax }
  predicate ValidPriority(n: int) { 0 <= n <= PriorityMax }

  /** `ApprovalRuleIn`: the field bounds, with priority 100 and active when omitted. */
  function ValidateRuleIn(p: RuleIn): (r: Result<NewRuleFields, HttpError>)
    ensures r.Ok? <==> (ValidName(p.name) && p.ruleType in RuleTypes && ValidActionSummary(p.actionSummary)
      && (p.condition.Some? ==> ValidCondition(p.condition.value))
      && (p.priority.Some? ==> ValidPriority(p.priority.value)))
    ensures r.Err? ==> r.error == ValidationFailed
    ensures r.Ok? ==> r.value.priority == (if p.priority.Some? then p.priority.value else DefaultPriority)
    ensures r.Ok? ==> r.value.isActive == (p.isActive != Some(false))
    ensures r.Ok? ==> (r.value.name == p.name && r.value.ruleType == p.ruleType
      && r.value.actionSummary == p.actionSummary && r.value.condition == p.condition)
  {
    if ValidName(p.name) && p.ruleType in RuleTypes && ValidActionSummary(p.actionSummary)
      && (p.condition.Some? ==> ValidCondition(p.condition.value))
      && (p.priority.Some? ==> ValidPriority(p.priority.value))
    then Ok(NewRuleFields(p.name, p.ruleType, p.actionSummary, p.condition, p.priority.GetOr(DefaultPriority), p.isActive.GetOr(true)))
    else Err(ValidationFailed)
  }

  /** `ApprovalRuleUpdate`: every field optional, each given field within the create bounds. */
  predicate ValidPatch(p: RulePatch) {
    (p.name.Some? ==> ValidName(p.name.value))
    && (p.ruleType.Some? ==> p.ruleType.value in RuleTypes)
    && (p.actionSummary.Some? ==> ValidActionSummary(p.actionSummary.value))
    && (p.condition.Some? ==> ValidCondition(p.condition.value))
    && (p.priority.Some? ==> ValidPriority(p.priority.value))
  }

  /** The patch that sets every field of a create body. */
  function FullPatch(f: NewRuleFields): (p: RulePatch)
    ensures p.name == Some(f.name) && p.ruleType == Some(f.ruleType) && p.actionSummary == Some(f.actionSummary)
    ensures p.condition == f.condition && p.priority == Some(f.priority) && p.isActive == Some(f.isActive)
  {
    RulePatch(Some(f.name), Some(f.ruleType), f.condition, Some(f.actionSummary), Some(f.priority), Some(f.isActive))
  }

  /** The update bounds are the create bounds: a body is valid exactly when the patch setting all its fields is. */
  lemma PatchBoundsMatchCreate(p: RuleIn)
    requires p.priority.Some? && p.isActive.Some?
    ensures ValidateRuleIn(p).Ok? <==>
      ValidPatch(RulePatch(Some(p.name), Some(p.ruleType), p.condition, Some(p.actionSummary), p.priority, p.isActive))
  {
  }

  // ---------------------------------------------------------------------------
  // Rows and responses
  // ---------------------------------------------------------------------------

  /** One key of a row dict: absent, present with a null value, or present with a value. */
  datatype Field<T> = Missing | Nil | Present(value: T)

  /** A rule row as a dict, from either store; timestamps already rendered by `str()`. */
  datatype RuleRow = RuleRow(
    id: Field<string>,
    name: Field<string>,
    ruleType: Field<string>,
    condition: Field<string>,
    actionSummary: Field<string>,
    priority: Field<int>,
    isActive: Field<bool>,
    createdAt: Field<string>,
    updatedAt: Field<string>)

  /** `ApprovalRuleOut` */
  datatype RuleOut = RuleOut(
    id: string,
    name: string,
    ruleType: string,
    condition: Option<string>,
    actionSummary: string,
    priority: int,
    isActive: bool,
    createdAt: Option<string>,
    updatedAt: Option<string>)

  /** `str(row[k])`: a missing key raises, a null renders as "None". */
  function Required(f: Field<string>): (r: Result<string, HttpError>)
    ensures r.Err? <==> f.Missing?
    ensures r.Err? ==> r.error == InternalError
    ensures f.Nil? ==> r == Ok("None")
    ensures f.Present? ==> r == Ok(f.value)
  {
    match f
    case Missing => Err(InternalError)
    case Nil => Ok("None")
    case Present(s) => Ok(s)
  }

  /** `str(row[k]) if row.get(k) else None`: only a non-empty string survives. */
  function Optional(f: Field<string>): (r: Option<string>)
    ensures r.Some? <==> f.Present? && f.value != []
    ensures r.Some? ==> r.value == f.value
  {
    if f.Present? && f.value != [] then Some(f.value) else None
  }

  /**
   * `_rule_row_to_out`: id, name, rule type and action summary must be keys of
   * the row; a falsy condition or timestamp becomes None; a missing priority is
   * 100 (a null one makes `int()` raise); a missing is_active is true and a null
   * one false.
   */
  function RowToOut(row: RuleRow): (r: Result<RuleOut, HttpError>)
    ensures r.Err? <==> (row.id.Missing? || row.name.Missing? || row.ruleType.Missing?
      || row.actionSummary.Missing? || row.priority.Nil?)
    ensures r.Err? ==> r.error == InternalError
    ensures r.Ok? ==> (r.value.condition == Optional(row.condition)
      && r.value.createdAt == Optional(row.createdAt) && r.value.updatedAt == Optional(row.updatedAt))
    ensures r.Ok? ==> r.value.priority == (if row.priority.Present? then row.priority.value else DefaultPriority)
    ensures r.Ok? ==> (r.value.isActive <==> row.isActive.Missing? || row.isActive == Present(true))
    ensures r.Ok? ==> (Ok(r.value.id) == Required(row.id) && Ok(r.value.name) == Required(row.name)
      && Ok(r.value.ruleType) == Required(row.ruleType) && Ok(r.value.actionSummary) == Required(row.actionSummary))
  {
    var id :- Required(row.id);
    var name :- Required(row.name);
    var ruleType :- Required(row.ruleType);
    var actionSummary :- Required(row.actionSummary);
    var priority :- match row.priority
      case Missing => Ok(DefaultPriority)
      case Nil => Err(InternalError)
      case Present(n) => Ok(n);
    var isActive := match row.isActive
      case Missing => true
      case Nil => false
      case Present(b) => b;
    Ok(RuleOut(id, name, ruleType, Optional(row.condition), actionSummary, priority, isActive,
      Optional(row.createdAt), Optional(row.updatedAt)))
  }

  /** The dict a Lakebase read returns for a record; `show` renders a timestamp. */
  function RecordRow(rec: RuleRecord, show: Time -> string): (row: RuleRow)
    ensures row.id == Present(rec.id) && row.priority == Present(rec.priority) && row.isActive == Present(rec.isActive)
  {
    RuleRow(Present(rec.id), Present(rec.name), Present(rec.ruleType),
      if rec.condition.Some? then Present(rec.condition.value) else Nil,
      Present(rec.actionSummary), Present(rec.priority), Present(rec.isActive),
      if rec.createdAt.Some? then Present(show(rec.createdAt.value)) else Nil,
      if rec.updatedAt.Some? then Present(show(rec.updatedAt.value)) else Nil)
  }

  /**
   * A Lakebase record always converts, keeping its id, name, type, summary,
   * priority and activity, and its condition unless it is empty.
   */
  lemma RecordRowConverts(rec: RuleRecord, show: Time -> string)
    ensures var r := RowToOut(RecordRow(rec, show));
      r.Ok? && r.value.id == rec.id && r.value.name == rec.name && r.value.ruleType == rec.ruleType
      && r.value.actionSummary == rec.actionSummary && r.value.priority == rec.priority
      && r.value.isActive == rec.isActive
      && r.value.condition == (if Truthy(rec.condition) then rec.condition else None)
  {
  }

  /** `_rule_row_from_payload`: the created rule as echoed back, without timestamps. */
  function PayloadRow(ruleId: string, f: NewRuleFields): (row: RuleRow)
    ensures row.createdAt == Nil && row.updatedAt == Nil
  {
    RuleRow(Present(ruleId), Present(f.name), Present(f.ruleType),
      if f.condition.Some? then Present(f.condition.value) else Nil,
      Present(f.actionSummary), Present(f.priority), Present(f.isActive), Nil, Nil)
  }

  /** The echoed payload converts back to the validated fields under the new id. */
  lemma PayloadRowRoundTrip(ruleId: string, f: NewRuleFields)
    ensures RowToOut(PayloadRow(ruleId, f)) == Ok(RuleOut(ruleId, f.name, f.ruleType,
      if Truthy(f.condition) then f.condition else None, f.actionSummary, f.priority, f.isActive, None, None))
  {
  }

  /** `str(r.get("id"))`: a missing or null id renders as "None". */
  function IdText(f: Field<string>): (s: string)
    ensures f.Present? ==> s == f.value
    ensures !f.Present? ==> s == "None"
  {
    if f.Present? then f.value else "None"
  }

  /** The position of the first row whose id text is `ruleId`. */
  function FirstWithId(rows: seq<RuleRow>, ruleId: string): (r: Option<nat>)
    ensures r.Some? ==> (r.value < |rows| && IdText(rows[r.value].id) == ruleId
      && forall j :: 0 <= j < r.value ==> IdText(rows[j].id) != ruleId)
    ensures r.None? <==> forall j :: 0 <= j < |rows| ==> IdText(rows[j].id) != ruleId
  {
    if rows == [] then None
    else if IdText(rows[0].id) == ruleId then Some(0)
    else match FirstWithId(rows[1..], ruleId)
      case Some(j) => Some(j + 1)
      case None => None
  }

  /** `_find_rule_by_id`: the first row with the id, converted; `None` when no row has it. */
  function FindRuleById(rows: seq<RuleRow>, ruleId: string): (r: Result<Option<RuleOut>, HttpError>)
    ensures (r.Ok? && r.value.None?) <==> forall j :: 0 <= j < |rows| ==> IdText(rows[j].id) != ruleId
    ensures r.Ok? && r.value.Some? ==> exists k :: (0 <= k < |rows| && IdText(rows[k].id) == ruleId
      && RowToOut(rows[k]) == Ok(r.value.value) && forall j :: 0 <= j < k ==> IdText(rows[j].id) != ruleId)
  {
    match FirstWithId(rows, ruleId)
    case None => Ok(None)
    case Some(k) =>
      var out :- RowToOut(rows[k]);
      Ok(Some(out))
  }

  // ---------------------------------------------------------------------------
  // Endpoints
  // ---------------------------------------------------------------------------

  const LakebaseWriteFailed := HttpError(502, "Failed to write rule to Lakebase.")
  const LakebaseUpdateFailed := HttpError(502, "Failed to update rule in Lakebase.")
  const LakebaseDeleteFailed := HttpError(502, "Failed to delete rule from Lakebase.")
  const RuleNotFound := HttpError(404, "Rule not found.")
  const RuleNotFoundAfterUpdate := HttpError(404, "Rule not found after update.")

  /** The three writing endpoints; each words its Lakehouse errors after itself. */
  datatype RuleOp = CreateOp | UpdateOp | DeleteOp

  function Verb(op: RuleOp): string {
    match op
    case CreateOp => "write"
    case UpdateOp => "update"
    case DeleteOp => "delete"
  }

  function Target(op: RuleOp): string {
    match op
    case CreateOp => "rule to Lakehouse"
    case UpdateOp => "rule in Lakehouse"
    case DeleteOp => "rule from Lakehouse"
  }

  function LakehouseUnavailable(op: RuleOp): (e: HttpError)
    ensures e.status == 503
  {
    HttpError(503, "Databricks Lakehouse unavailable; cannot " + Verb(op) + " rules.")
  }

  /** The 502 after a Lakehouse write: the RuntimeError's text when it raised. */
  function LakehouseFailed(op: RuleOp, raised: Option<string>): (e: HttpError)
    ensures e.status == 502
  {
    match raised
    case Some(msg) => HttpError(502, "Failed to " + Verb(op) + " " + Target(op) + ": " + msg)
    case None => HttpError(502, "Failed to " + Verb(op) + " " + Target(op) + ".")
  }

  /** What a Lakehouse write call did: raised a RuntimeError, or returned its flag. */
  datatype LakehouseWrite = Raised(message: string) | Returned(ok: bool)

  /** The Lakehouse as one request sees it: availability, the write's outcome, and the rows read back. */
  datatype Lakehouse = Lakehouse(available: bool, write: LakehouseWrite, rows: seq<RuleRow>)

  /** The Lakehouse write step: 503 when unavailable, 502 when the call raises or returns false. */
  function LakehouseWriteStep(lh: Lakehouse, op: RuleOp): (r: Result<(), HttpError>)
    ensures r.Ok? <==> lh.available && lh.write == Returned(true)
    ensures !lh.available ==> r == Err(LakehouseUnavailable(op))
    ensures lh.available && lh.write.Raised? ==> r == Err(LakehouseFailed(op, Some(lh.write.message)))
    ensures lh.available && lh.write == Returned(false) ==> r == Err(LakehouseFailed(op, None))
  {
    if !lh.available then Err(LakehouseUnavailable(op))
    else match lh.write
      case Raised(msg) => Err(LakehouseFailed(op, Some(msg)))
      case Returned(ok) => if ok then Ok(()) else Err(LakehouseFailed(op, None))
  }

  /** An invalid schema name raises inside the Lakebase helper and surfaces as a 500. */
  function Surface<T>(r: Result<T, InvalidSchema>): (s: Result<T, HttpError>)
    ensures s.Ok? <==> r.Ok?
    ensures s.Ok? ==> s.value == r.value
    ensures s.Err? ==> s.error == InternalError
  {
    match r
    case Ok(v) => Ok(v)
    case Err(_) => Err(InternalError)
  }

  /** An endpoint's answer together with the rules table once the request is over. */
  datatype Reply = Reply(response: Result<RuleOut, HttpError>, table: seq<StoredRule>)

  /**
   * `update_approval_rule` on the Lakebase path: a failed update is 502, no
   * matching row is 404; otherwise the update is committed and the rule is
   * read back in a second call, which fails on its own (`readFails`) and then
   * answers 404 although the patched table stays.
   */
  function UpdateRuleLakebase(db: Db, readFails: bool, table: seq<StoredRule>, ruleId: string, p: RulePatch, now: Time, show: Time -> string): (r: Reply)
    requires db.configured
    ensures SafeSchemaName(db.schemaSetting).Err? ==> r == Reply(Err(InternalError), table)
    ensures SafeSchemaName(db.schemaSetting).Ok? && db.fails ==> r == Reply(Err(LakebaseUpdateFailed), table)
    ensures SafeSchemaName(db.schemaSetting).Ok? && !db.fails && !HasId(table, ruleId) ==> r == Reply(Err(RuleNotFound), table)
    ensures SafeSchemaName(db.schemaSetting).Ok? && !db.fails && HasId(table, ruleId) ==>
      |r.table| == |table|
      && (forall i :: 0 <= i < |table| ==> r.table[i] == if table[i].id == ruleId then PatchRow(table[i], p, now) else table[i])
      && (r.response.Ok? <==> !readFails)
      && (readFails ==> r.response == Err(RuleNotFoundAfterUpdate))
    ensures r.response.Ok? ==> r.response.value.id == ruleId
  {
    var attempt := Surface(UpdateApprovalRule(db, table, ruleId, p, now));
    if attempt.Err? then Reply(Err(attempt.error), table)
    else
      var (result, updated) := attempt.value;
      if result.None? then Reply(Err(LakebaseUpdateFailed), table)
      else if !result.value then Reply(Err(RuleNotFound), table)
      else
        assert table[FindRow(table, ruleId).value].id == ruleId;
        assert HasId(updated, ruleId) by {
          var j := FindRow(table, ruleId).value;
          assert updated[j] == PatchRow(table[j], p, now);
        }
        // The schema name was already accepted by the update, so the read cannot raise.
        match GetApprovalRuleById(db.(fails := readFails), updated, ruleId)
        case Ok(Some(rec)) =>
          RecordRowConverts(rec, show);
          Reply(Ok(RecordRowOut(rec, show)), updated)
        case _ => Reply(Err(RuleNotFoundAfterUpdate), updated)
  }

  /**
   * A successful Lakebase update answers with the first row of that id as
   * patched: its id, the patch's fields where given and the row's elsewhere.
   */
  lemma UpdateRuleEchoesPatch(db: Db, readFails: bool, table: seq<StoredRule>, ruleId: string, p: RulePatch, now: Time, show: Time -> string)
    requires db.configured
    requires UpdateRuleLakebase(db, readFails, table, ruleId, p, now, show).response.Ok?
    ensures FindRow(table, ruleId).Some?
    ensures var row := PatchRow(table[FindRow(table, ruleId).value], p, now);
      UpdateRuleLakebase(db, readFails, table, ruleId, p, now, show).response.value == RecordRowOut(ToRecord(row), show)
  {
    var attempt := UpdateApprovalRule(db, table, ruleId, p, now);
    var updated := attempt.value.1;
    assert Surface(attempt) == Ok((Some(true), updated));
    UpdateKeepsFirstRow(table, updated, ruleId, p, now);
    assert GetApprovalRuleById(db.(fails := readFails), updated, ruleId) == Ok(Some(ToRecord(updated[FindRow(table, ruleId).value])));
  }

  /**
   * `update_approval_rule` on the Lakehouse path: the write step, then the
   * rule found among the rows read back, or 404.
   */
  function UpdateRuleLakehouse(lh: Lakehouse, ruleId: string): (r: Result<RuleOut, HttpError>)
    ensures LakehouseWriteStep(lh, UpdateOp).Err? ==> r == Err(LakehouseWriteStep(lh, UpdateOp).error)
    ensures LakehouseWriteStep(lh, UpdateOp).Ok? && FindRuleById(lh.rows, ruleId) == Ok(None) ==> r == Err(RuleNotFoundAfterUpdate)
    ensures r.Ok? ==> FindRuleById(lh.rows, ruleId) == Ok(Some(r.value)) && r.value.id == ruleId
  {
    var _ :- LakehouseWriteStep(lh, UpdateOp);
    var found :- FindRuleById(lh.rows, ruleId);
    if found.None? then Err(RuleNotFoundAfterUpdate)
    else
      FoundHasId(lh.rows, ruleId);
      Ok(found.value)
  }

  /** `delete_approval_rule` on the Lakebase path: 502 only when the delete fails; deleting a missing rule succeeds. */
  function DeleteRuleLakebase(db: Db, table: seq<StoredRule>, ruleId: string): (r: Result<seq<StoredRule>, HttpError>)
    requires db.configured
    ensures SafeSchemaName(db.schemaSetting).Err? ==> r == Err(InternalError)
    ensures SafeSchemaName(db.schemaSetting).Ok? ==> (r.Ok? <==> !db.fails)
    ensures r.Err? && SafeSchemaName(db.schemaSetting).Ok? ==> r.error == LakebaseDeleteFailed
    ensures r.Ok? ==> !HasId(r.value, ruleId)
  {
    var res :- Surface(DeleteApprovalRule(db, table, ruleId));
    var (ok, remaining) := res;
    if ok then Ok(remaining) else Err(LakebaseDeleteFailed)
  }

  /**
   * `create_approval_rule` on the Lakebase path: the payload echoed back under
   * the new id when the insert succeeds, else 502.
   */
  function CreateRuleLakebase(db: Db, table: seq<StoredRule>, ruleId: string, f: NewRuleFields, now: Time): (r: Result<(RuleOut, seq<StoredRule>), HttpError>)
    requires db.configured
    ensures SafeSchemaName(db.schemaSetting).Err? ==> r == Err(InternalError)
    ensures SafeSchemaName(db.schemaSetting).Ok? ==> (r.Ok? <==> !db.fails && !HasId(table, ruleId))
    ensures r.Err? && SafeSchemaName(db.schemaSetting).Ok? ==> r.error == LakebaseWriteFailed
    ensures r.Ok? ==> (RowToOut(PayloadRow(ruleId, f)) == Ok(r.value.0)
      && r.value.1 == table + [NewRule(ruleId, f.name, f.ruleType, f.actionSummary, f.condition, f.priority, f.isActive, now)])
  {
    var row := NewRule(ruleId, f.name, f.ruleType, f.actionSummary, f.condition, f.priority, f.isActive, now);
    var res :- Surface(CreateApprovalRule(db, table, row));
    var (ok, after) := res;
    if !ok then Err(LakebaseWriteFailed)
    else
      PayloadRowRoundTrip(ruleId, f);
      Ok((RowToOut(PayloadRow(ruleId, f)).value, after))
  }

  /**
   * `create_approval_rule` on the Lakehouse path: after the write step, the rule
   * as read back (only the newest row is read) or else the payload echoed back.
   */
  function CreateRuleLakehouse(lh: Lakehouse, ruleId: string, f: NewRuleFields): (r: Result<RuleOut, HttpError>)
    ensures LakehouseWriteStep(lh, CreateOp).Err? ==> r == Err(LakehouseWriteStep(lh, CreateOp).error)
    ensures LakehouseWriteStep(lh, CreateOp).Ok? && FindRuleById(lh.rows, ruleId) == Ok(None) ==> r == RowToOut(PayloadRow(ruleId, f))
    ensures LakehouseWriteStep(lh, CreateOp).Ok? && FindRuleById(lh.rows, ruleId).Ok? && FindRuleById(lh.rows, ruleId).value.Some? ==>
      r == Ok(FindRuleById(lh.rows, ruleId).value.value)
  {
    var _ :- LakehouseWriteStep(lh, CreateOp);
    var found :- FindRuleById(lh.rows, ruleId);
    if found.Some? then Ok(found.value) else RowToOut(PayloadRow(ruleId, f))
  }

  /** Every row converted, failing on the first row that cannot be. */
  function AllOut(rows: seq<RuleRow>): (r: Result<seq<RuleOut>, HttpError>)
    ensures r.Ok? <==> forall i :: 0 <= i < |rows| ==> RowToOut(rows[i]).Ok?
    ensures r.Ok? ==> |r.value| == |rows| && forall i :: 0 <= i < |rows| ==> RowToOut(rows[i]) == Ok(r.value[i])
  {
    if rows == [] then Ok([])
    else
      var head :- RowToOut(rows[0]);
      var tail :- AllOut(rows[1..]);
      assert forall i :: 1 <= i < |rows| ==> rows[i] == rows[1..][i - 1];
      Ok([head] + tail)
  }

  /**
   * `list_approval_rules`: the limit must lie in [1, 500]; the Lakebase rules
   * when the database is configured and the read succeeds, else the Lakehouse rows.
   */
  function ListRules(db: Db, table: seq<StoredRule>, ruleType: Option<string>, activeOnly: bool, limit: int,
                     show: Time -> string, lakehouseRows: seq<RuleRow>): (r: Result<seq<RuleOut>, HttpError>)
    ensures !(1 <= limit <= RuleListMax) ==> r == Err(ValidationFailed)
    ensures 1 <= limit <= RuleListMax && db.configured && SafeSchemaName(db.schemaSetting).Err? ==> r == Err(InternalError)
    ensures 1 <= limit <= RuleListMax && (!db.configured || (db.fails && SafeSchemaName(db.schemaSetting).Ok?)) ==>
      r == AllOut(lakehouseRows)
    ensures 1 <= limit <= RuleListMax && db.configured && !db.fails && SafeSchemaName(db.schemaSetting).Ok? ==>
      var recs := GetApprovalRules(db, table, ruleType, activeOnly, limit).value.value;
      r.Ok? && |r.value| == |recs| && forall i :: 0 <= i < |recs| ==> RowToOut(RecordRow(recs[i], show)) == Ok(r.value[i])
  {
    if !(1 <= limit <= RuleListMax) then Err(ValidationFailed)
    else if db.configured then
      var rows :- Surface(GetApprovalRules(db, table, ruleType, activeOnly, limit));
      match rows
      case Some(recs) =>
        var out := seq(|recs|, i requires 0 <= i < |recs| => RecordRowOut(recs[i], show));
        Ok(out)
      case None => AllOut(lakehouseRows)
    else AllOut(lakehouseRows)
  }

  /** A record's response: `RowToOut` of its row, which never fails. */
  function RecordRowOut(rec: RuleRecord, show: Time -> string): (o: RuleOut)
    ensures RowToOut(RecordRow(rec, show)) == Ok(o)
  {
    RecordRowConverts(rec, show);
    RowToOut(RecordRow(rec, show)).value
  }

  /** `delete_approval_rule` on the Lakehouse path: the write step alone. */
  function DeleteRuleLakehouse(lh: Lakehouse): (r: Result<(), HttpError>)
    ensures r.Ok? <==> lh.available && lh.write == Returned(true)
    ensures r.Err? ==> r.error.status == (if lh.available then 502 else 503)
  {
    LakehouseWriteStep(lh, DeleteOp)
  }

  /** A rule found by id carries that id in its response, even when the row's id was null. */
  lemma FoundHasId(rows: seq<RuleRow>, ruleId: string)
    requires FindRuleById(rows, ruleId).Ok? && FindRuleById(rows, ruleId).value.Some?
    ensures FindRuleById(rows, ruleId).value.value.id == ruleId
  {
    var k := FirstWithId(rows, ruleId).value;
    assert RowToOut(rows[k]) == Ok(FindRuleById(rows, ruleId).value.value);
  }

  /**
   * The create endpoint: 422 for an invalid body; the Lakebase path when the
   * database is configured, else the Lakehouse path (whose mirror to Lakebase
   * sees the same unconfigured database and changes nothing).
   */
  function CreateRule(db: Db, table: seq<StoredRule>, ruleId: string, body: RuleIn, now: Time, lh: Lakehouse): (r: Result<(RuleOut, seq<StoredRule>), HttpError>)
    ensures ValidateRuleIn(body).Err? ==> r == Err(ValidationFailed)
    ensures ValidateRuleIn(body).Ok? && db.configured ==> r == CreateRuleLakebase(db, table, ruleId, ValidateRuleIn(body).value, now)
    ensures ValidateRuleIn(body).Ok? && !db.configured ==>
      r.Ok? == (lh.available && lh.write == Returned(true) && FindRuleById(lh.rows, ruleId) != Err(InternalError))
    ensures r.Ok? ==> r.value.0.id == ruleId
    ensures r.Ok? && db.configured ==> r.value.0.name == body.name && r.value.0.ruleType == body.ruleType
    ensures r.Ok? && !db.configured ==> r.value.1 == table
    ensures r.Ok? && db.configured ==> |r.value.1| == |table| + 1 && r.value.1[|table|].id == ruleId
  {
    var f :- ValidateRuleIn(body);
    if db.configured then CreateRuleLakebase(db, table, ruleId, f, now)
    else
      var out :- CreateRuleLakehouse(lh, ruleId, f);
      if FindRuleById(lh.rows, ruleId).Ok? && FindRuleById(lh.rows, ruleId).value.Some? then
        FoundHasId(lh.rows, ruleId);
        Ok((out, table))
      else Ok((out, table))
  }

  /**
   * The delete endpoint: on the Lakebase path the rule is gone afterwards; on
   * the Lakehouse path the Lakebase table is untouched.
   */
  function DeleteRule(db: Db, table: seq<StoredRule>, ruleId: string, lh: Lakehouse): (r: Result<seq<StoredRule>, HttpError>)
    ensures db.configured ==> r == DeleteRuleLakebase(db, table, ruleId)
    ensures !db.configured ==> (r.Ok? <==> lh.available && lh.write == Returned(true))
    ensures r.Ok? && db.configured ==> !HasId(r.value, ruleId)
    ensures r.Ok? && !db.configured ==> r.value == table
  {
    if db.configured then DeleteRuleLakebase(db, table, ruleId)
    else
      var _ :- DeleteRuleLakehouse(lh);
      Ok(table)
  }

  // ---------------------------------------------------------------------------
  // Mirroring a Lakehouse update to Lakebase
  // ---------------------------------------------------------------------------

  /** `x or None` for a string. */
  function NonEmpty(s: string): (r: Option<string>)
    ensures r.None? <==> s == []
  {
    if s == [] then None else Some(s)
  }

  /**
   * The patch `_sync_rule_to_lakebase` sends after a Lakehouse update: the
   * handler passes omitted strings as "" and an omitted priority as 100; the
   * sync turns "" back into `None` and priority 100 into `None`, and always
   * sends is_active (true when omitted).
   */
  function MirrorPatch(p: RulePatch): (m: RulePatch)
    ensures m.name.None? <==> p.name.None? || p.name == Some("")
    ensures m.priority.None? <==> p.priority.None? || p.priority == Some(DefaultPriority)
    ensures m.priority.Some? ==> m.priority == p.priority
    ensures m.condition == p.condition
    ensures m.isActive == Some(p.isActive.GetOr(true))
  {
    var priority := p.priority.GetOr(DefaultPriority);
    RulePatch(NonEmpty(p.name.GetOr("")), NonEmpty(p.ruleType.GetOr("")), p.condition,
      NonEmpty(p.actionSummary.GetOr("")), if priority != DefaultPriority then Some(priority) else None,
      Some(p.isActive.GetOr(true)))
  }

  /** The mirror: nothing happens unless the database is configured; errors are swallowed. */
  function MirrorUpdate(db: Db, table: seq<StoredRule>, ruleId: string, p: RulePatch, now: Time): (t: seq<StoredRule>)
    ensures !db.configured ==> t == table
    ensures |t| == |table|
    ensures forall i :: 0 <= i < |table| && table[i].id != ruleId ==> t[i] == table[i]
  {
    if !db.configured then table
    else match UpdateApprovalRule(db, table, ruleId, MirrorPatch(p), now)
      case Ok((_, updated)) => updated
      case Err(_) => table
  }

  /**
   * The update endpoint: the Lakebase path when the database is configured,
   * else the Lakehouse path followed by the mirror to Lakebase, which then
   * sees the same unconfigured database and changes nothing.
   */
  function UpdateRule(db: Db, readFails: bool, table: seq<StoredRule>, ruleId: string, p: RulePatch, now: Time, show: Time -> string, lh: Lakehouse): (r: Reply)
    ensures !ValidPatch(p) ==> r == Reply(Err(ValidationFailed), table)
    ensures ValidPatch(p) && db.configured ==> r == UpdateRuleLakebase(db, readFails, table, ruleId, p, now, show)
    ensures ValidPatch(p) && !db.configured ==> r.table == table && r.response == UpdateRuleLakehouse(lh, ruleId)
    ensures r.response.Ok? ==> r.response.value.id == ruleId
  {
    if !ValidPatch(p) then Reply(Err(ValidationFailed), table)
    else if db.configured then UpdateRuleLakebase(db, readFails, table, ruleId, p, now, show)
    else
      match UpdateRuleLakehouse(lh, ruleId)
      case Err(e) => Reply(Err(e), table)
      case Ok(out) => Reply(Ok(out), MirrorUpdate(db, table, ruleId, p, now))
  }
}

=== FILE: runtime.dfy ===
/**
 * The database settings of the runtime (runtime.py): whether a database is
 * configured at all, the local development port, the connection URL for a
 * direct Lakebase connection, the database-name mapping for Lakebase
 * Autoscaling, and the schema that table creation falls back to.
 *
 * `urlparse`/`urlunparse`, `int()` and the workspace client are not part of
 * this model: the first three are parameters, and the Autoscaling branch stops
 * at the database name (host, user and token come from the workspace).
 */
module Runtime {
  import opened Wrappers
  import opened Strings
  import opened Entities
  import opened Lakebase

  /** The `db` section of the app configuration. */
  datatype DbSettings = DbSettings(
    connectionString: Option<string>,
    projectId: Option<string>,
    branchId: Option<string>,
    endpointId: Option<string>,
    databaseName: Option<string>,
    dbSchema: Option<string>)

  /**
   * `_dev_db_port`: None when APX_DEV_DB_PORT is unset or empty or not an
   * integer, else its value.
   */
  function DevDbPort(env: map<string, string>, parseInt: IntParser): (r: Option<int>)
    ensures "APX_DEV_DB_PORT" !in env || env["APX_DEV_DB_PORT"] == [] ==> r.None?
    ensures "APX_DEV_DB_PORT" in env && env["APX_DEV_DB_PORT"] != [] ==> r == parseInt(env["APX_DEV_DB_PORT"])
  {
    if "APX_DEV_DB_PORT" !in env || env["APX_DEV_DB_PORT"] == [] then None
    else parseInt(env["APX_DEV_DB_PORT"])
  }

  /** `_use_lakebase_direct_connection`: a connection string that is not blank. */
  predicate UseDirectConnection(db: DbSettings) {
    !IsBlank(db.connectionString.GetOr(""))
  }

  /** `_use_lakebase_autoscaling`: all three of project, branch and endpoint are non-empty. */
  predicate UseAutoscaling(db: DbSettings) {
    Truthy(db.projectId) && Truthy(db.branchId) && Truthy(db.endpointId)
  }

  /** A development port counts only when it is truthy: port 0 does not. */
  predicate DevPortSet(devPort: Option<int>) {
    devPort.Some? && devPort.value != 0
  }

  /** `_db_configured`, in its order of checks: development port, connection string, Autoscaling ids. */
  function DbConfigured(devPort: Option<int>, db: DbSettings): (r: bool)
    ensures r <==> DevPortSet(devPort) || UseDirectConnection(db) || UseAutoscaling(db)
  {
    if DevPortSet(devPort) then true
    else if UseDirectConnection(db) then true
    else UseAutoscaling(db)
  }

  /**
   * Read from the environment, the development port configures the database
   * exactly when APX_DEV_DB_PORT is set, non-empty and parses to a non-zero
   * integer; an unset, empty, unparsable or zero port leaves the decision to
   * the connection string and the Autoscaling ids.
   */
  lemma EnvPortConfigures(env: map<string, string>, parseInt: IntParser, db: DbSettings)
    ensures DbConfigured(DevDbPort(env, parseInt), db) <==>
      ("APX_DEV_DB_PORT" in env && env["APX_DEV_DB_PORT"] != []
        && parseInt(env["APX_DEV_DB_PORT"]).Some? && parseInt(env["APX_DEV_DB_PORT"]).value != 0)
      || UseDirectConnection(db) || UseAutoscaling(db)
  {
  }

  // ---------------------------------------------------------------------------
  // Connection URLs
  // ---------------------------------------------------------------------------

  /** The six components `urlparse` splits a URL into. */
  datatype ParsedUrl = ParsedUrl(scheme: string, netloc: string, path: string, params: string, query: string, fragment: string)

  const PostgresScheme := "postgresql"
  const PsycopgScheme := "postgresql+psycopg"

  /**
   * `_normalize_lakebase_url`: "" for a blank URL; a plain "postgresql" scheme
   * becomes "postgresql+psycopg" unless the URL already names psycopg; nothing
   * but the scheme changes.
   */
  function NormalizeLakebaseUrl(raw: Option<string>, parse: string -> ParsedUrl, unparse: ParsedUrl -> string): (r: string)
    ensures IsBlank(raw.GetOr("")) ==> r == []
    ensures var s := Strip(raw.GetOr("")); var p := parse(s);
      !IsBlank(raw.GetOr("")) && p.scheme == PostgresScheme && !Contains(s, "psycopg") ==> r == unparse(p.(scheme := PsycopgScheme))
    ensures var s := Strip(raw.GetOr("")); var p := parse(s);
      !IsBlank(raw.GetOr("")) && !(p.scheme == PostgresScheme && !Contains(s, "psycopg")) ==> r == unparse(p)
  {
    var s := Strip(raw.GetOr(""));
    if s == [] then []
    else
      var p := parse(s);
      if p.scheme == PostgresScheme && !Contains(s, "psycopg") then unparse(p.(scheme := PsycopgScheme)) else unparse(p)
  }

  /**
   * Normalising is stable: a rewritten URL that parses back to what was
   * written is left as it is by a second pass.
   */
  lemma NormalizeStable(raw: Option<string>, parse: string -> ParsedUrl, unparse: ParsedUrl -> string)
    requires var u := NormalizeLakebaseUrl(raw, parse, unparse);
      u != [] && u[0] !in Whitespace && u[|u| - 1] !in Whitespace
    requires var s := Strip(raw.GetOr("")); var p := parse(s);
      p.scheme == PostgresScheme && !Contains(s, "psycopg")
      && parse(NormalizeLakebaseUrl(raw, parse, unparse)) == p.(scheme := PsycopgScheme)
    ensures var u := NormalizeLakebaseUrl(raw, parse, unparse); NormalizeLakebaseUrl(Some(u), parse, unparse) == u
  {
    var u := NormalizeLakebaseUrl(raw, parse, unparse);
    TrimKeepsTrimmed(u, Whitespace);
  }

  const SslModeKey := "sslmode="
  const SslRequire := "sslmode=require"

  /** `sslmode=require` appended as a query parameter unless some sslmode is already given. */
  function RequireSsl(url: string): (r: string)
    ensures Contains(url, SslModeKey) ==> r == url
    ensures !Contains(url, SslModeKey) && Contains(url, "?") ==> r == url + "&" + SslRequire
    ensures !Contains(url, SslModeKey) && !Contains(url, "?") ==> r == url + "?" + SslRequire
  {
    if Contains(url, SslModeKey) then url
    else if Contains(url, "?") then url + "&" + SslRequire
    else url + "?" + SslRequire
  }

  /** After `RequireSsl` the URL names an sslmode, and a second application changes nothing. */
  lemma RequireSslIdempotent(url: string)
    ensures Contains(RequireSsl(url), SslModeKey)
    ensures RequireSsl(RequireSsl(url)) == RequireSsl(url)
    ensures StartsWith(RequireSsl(url), url)
  {
    var r := RequireSsl(url);
    if !Contains(url, SslModeKey) {
      var sep := if Contains(url, "?") then "&" else "?";
      assert r == url + sep + SslRequire;
      assert r[|url| + 1..|url| + 1 + |SslModeKey|] == SslModeKey;
      assert OccursAt(r, SslModeKey, |url| + 1);
      assert r[..|url|] == url;
    }
  }

  const DefaultDatabase := "databricks_postgres"

  /**
   * The Autoscaling database name: the configured name, stripped, except that
   * an empty name or "payment_analysis" (the schema's name) means "databricks_postgres".
   */
  function DatabaseName(configured: Option<string>): (r: string)
    ensures r != [] && r != DefaultSchema
    ensures var d := Strip(configured.GetOr("")); d != [] && d != DefaultSchema ==> r == d
  {
    var d := Strip(configured.GetOr(""));
    if d == [] || d == DefaultSchema then DefaultDatabase else d
  }

  lemma DefaultDatabaseStripped()
    ensures Strip(DefaultDatabase) == DefaultDatabase
  {
    TrimKeepsTrimmed(DefaultDatabase, Whitespace);
  }

  /** The mapping is idempotent: a mapped name maps to itself. */
  lemma DatabaseNameIdempotent(configured: Option<string>)
    ensures DatabaseName(Some(DatabaseName(configured))) == DatabaseName(configured)
  {
    var d := Strip(configured.GetOr(""));
    if d == [] || d == DefaultSchema {
      DefaultDatabaseStripped();
    } else {
      TrimIdempotent(configured.GetOr(""), Whitespace);
    }
  }

  /** Where `engine_url` points the engine; the Autoscaling target stops at the database name. */
  datatype EngineTarget = DevUrl(url: string) | DirectUrl(url: string) | Autoscaling(database: string)

  const NoDevPassword := "APX server didn't provide a password, please check the dev server logs"
  const EmptyConnectionString := "LAKEBASE_CONNECTION_STRING is set but empty or invalid."
  const NotConfigured := "Database not configured. Set LAKEBASE_PROJECT_ID, LAKEBASE_BRANCH_ID, LAKEBASE_ENDPOINT_ID or LAKEBASE_CONNECTION_STRING (and LAKEBASE_OAUTH_TOKEN) in the app Environment."

  /**
   * `engine_url`: the local development database when a port is set (its
   * password must be given), else the direct connection string with SSL
   * required, else the Autoscaling database; a ValueError message otherwise.
   */
  function EngineUrl(devPort: Option<int>, devPassword: Option<string>, db: DbSettings,
                     parse: string -> ParsedUrl, unparse: ParsedUrl -> string, showInt: int -> string): (r: Result<EngineTarget, string>)
    ensures r.Ok? ==> DbConfigured(devPort, db)
    ensures !DbConfigured(devPort, db) ==> r == Err(NotConfigured)
    ensures r.Ok? && r.value.DevUrl? <==> DevPortSet(devPort) && devPassword.Some?
    ensures DevPortSet(devPort) && devPassword.None? ==> r == Err(NoDevPassword)
    ensures DevPortSet(devPort) && devPassword.Some? ==>
      r == Ok(DevUrl("postgresql+psycopg://postgres:" + devPassword.value + "@localhost:" + showInt(devPort.value) + "/postgres?sslmode=disable"))
    ensures !DevPortSet(devPort) && UseDirectConnection(db) ==>
      var url := NormalizeLakebaseUrl(db.connectionString, parse, unparse);
      r == if url == [] then Err(EmptyConnectionString) else Ok(DirectUrl(RequireSsl(url)))
    ensures r.Ok? && r.value.DirectUrl? ==> (!DevPortSet(devPort) && Contains(r.value.url, SslModeKey)
      && StartsWith(r.value.url, NormalizeLakebaseUrl(db.connectionString, parse, unparse)))
    ensures r.Ok? && r.value.Autoscaling? ==> (r.value.database == DatabaseName(db.databaseName)
      && !DevPortSet(devPort) && !UseDirectConnection(db) && UseAutoscaling(db))
  {
    if DevPortSet(devPort) then
      if devPassword.None? then Err(NoDevPassword)
      else Ok(DevUrl("postgresql+psycopg://postgres:" + devPassword.value + "@localhost:" + showInt(devPort.value) + "/postgres?sslmode=disable"))
    else if UseDirectConnection(db) then
      var url := NormalizeLakebaseUrl(db.connectionString, parse, unparse);
      if url == [] then Err(EmptyConnectionString)
      else
        RequireSslIdempotent(url);
        Ok(DirectUrl(RequireSsl(url)))
    else if !DbConfigured(devPort, db) then Err(NotConfigured)
    else Ok(Autoscaling(DatabaseName(db.databaseName)))
  }

  /**
   * The schema `initialize_models` creates tables in: the configured schema,
   * stripped, when it is alphanumeric once underscores are removed, else
   * "payment_analysis" (which needs no stripping).
   */
  function ModelSchema(dbSchema: Option<string>): (r: string)
    ensures ValidSchemaName(r)
    ensures Truthy(dbSchema) && ValidSchemaName(Strip(dbSchema.value)) ==> r == Strip(dbSchema.value)
    ensures !(Truthy(dbSchema) && ValidSchemaName(Strip(dbSchema.value))) ==> r == DefaultSchema
  {
    DefaultSchemaValid();
    if Truthy(dbSchema) then
      var raw := Strip(dbSchema.value);
      RemoveUnderscoresAlnum(raw);
      if IsAlnum(RemoveChar(raw, '_')) then raw else DefaultSchema
    else DefaultSchema
  }

  /**
   * Table creation and the Lakebase helpers agree on the schema: where
   * `_safe_schema_name` accepts the setting, tables go to the same schema; where
   * it would raise, tables go to "payment_analysis".
   */
  lemma ModelSchemaMatchesSafeSchema(dbSchema: Option<string>)
    ensures SafeSchemaName(dbSchema).Ok? ==> ModelSchema(dbSchema) == SafeSchemaName(dbSchema).value
    ensures SafeSchemaName(dbSchema).Err? ==> ModelSchema(dbSchema) == DefaultSchema
  {
    DefaultSchemaValid();
    if Truthy(dbSchema) && Strip(dbSchema.value) != [] {
      assert SchemaCandidate(dbSchema) == Strip(dbSchema.value);
    } else {
      assert SchemaCandidate(dbSchema) == DefaultSchema;
      assert !ValidSchemaName([]);
    }
  }
}

=== FILE: sorting.dfy ===
/**
 * Ordering by tuple-shaped keys, as Python's `list.sort(key=...)` and SQL `ORDER BY a, b` do.
 * A key is a sequence of reals compared lexicographically (Python tuple comparison);
 * the sort is a stable insertion sort, so rows with equal keys keep their input order.
 */
module Sorting {

  /** Python's `<` on tuples of numbers: lexicographic, a proper prefix is smaller. */
  predicate LexLess(a: seq<real>, b: seq<real>)
    decreases |a|
  {
    if |a| == 0 then |b| > 0
    else |b| > 0 && (a[0] < b[0] || (a[0] == b[0] && LexLess(a[1..], b[1..])))
  }

  lemma {:induction false} LexLessIrreflexive(a: seq<real>)
    ensures !LexLess(a, a)
    decreases |a|
  {
    if |a| > 0 {
      LexLessIrreflexive(a[1..]);
    }
  }

  lemma {:induction false} LexLessTransitive(a: seq<real>, b: seq<real>, c: seq<real>)
    requires LexLess(a, b) && LexLess(b, c)
    ensures LexLess(a, c)
    decreases |a|
  {
    if |a| > 0 && a[0] == b[0] && b[0] == c[0] {
      LexLessTransitive(a[1..], b[1..], c[1..]);
    }
  }

  /** Any two distinct keys are ordered one way or the other. */
  lemma {:induction false} LexLessTotal(a: seq<real>, b: seq<real>)
    requires a != b
    ensures LexLess(a, b) || LexLess(b, a)
    decreases |a|
  {
    if |a| > 0 && |b| > 0 && a[0] == b[0] {
      assert a == [a[0]] + a[1..] && b == [b[0]] + b[1..];
      LexLessTotal(a[1..], b[1..]);
    }
  }

  lemma LexLessAsymmetric(a: seq<real>, b: seq<real>)
    requires LexLess(a, b)
    ensures !LexLess(b, a)
  {
    if LexLess(b, a) {
      LexLessTransitive(a, b, a);
      LexLessIrreflexive(a);
    }
  }

  /** `s` is in non-decreasing key order. */
  ghost predicate SortedBy<T>(s: seq<T>, key: T -> seq<real>) {
    forall i, j :: 0 <= i < j < |s| ==> !LexLess(key(s[j]), key(s[i]))
  }

  /** The elements of `s` whose key is exactly `k`, in their order in `s`. */
  function WithKey<T>(s: seq<T>, key: T -> seq<real>, k: seq<real>): (r: seq<T>)
    ensures |r| <= |s|
  {
    if |s| == 0 then []
    else (if key(s[0]) == k then [s[0]] else []) + WithKey(s[1..], key, k)
  }

  /** Places `x` before the first element whose key is not smaller than its own. */
  function Insert<T>(x: T, s: seq<T>, key: T -> seq<real>): (r: seq<T>)
    ensures multiset(r) == multiset(s) + multiset{x}
  {
    if |s| == 0 then [x]
    else if !LexLess(key(s[0]), key(x)) then [x] + s
    else
      assert s == [s[0]] + s[1..];
      [s[0]] + Insert(x, s[1..], key)
  }

  /** Inserting into a sorted sequence keeps it sorted. */
  lemma {:induction false} InsertKeepsSorted<T>(x: T, s: seq<T>, key: T -> seq<real>)
    requires SortedBy(s, key)
    ensures SortedBy(Insert(x, s, key), key)
  {
    var r := Insert(x, s, key);
    if |s| == 0 {
    } else if !LexLess(key(s[0]), key(x)) {
      assert r[1..] == s;
      forall j | 0 < j < |r| ensures !LexLess(key(r[j]), key(x)) {
        if LexLess(key(r[j]), key(x)) && j > 1 {
          assert !LexLess(key(s[j - 1]), key(s[0]));
          if key(s[j - 1]) != key(s[0]) {
            LexLessTotal(key(s[j - 1]), key(s[0]));
            LexLessTransitive(key(s[0]), key(s[j - 1]), key(x));
          }
        }
      }
    } else {
      var rest := Insert(x, s[1..], key);
      assert r == [s[0]] + rest;
      InsertKeepsSorted(x, s[1..], key);
      forall j | 0 < j < |r| ensures !LexLess(key(r[j]), key(s[0])) {
        assert r[j] == rest[j - 1];
        assert r[j] in multiset(rest);
        if r[j] == x {
          LexLessAsymmetric(key(s[0]), key(x));
        } else {
          assert r[j] in multiset(s[1..]);
          var m :| 0 <= m < |s[1..]| && s[1..][m] == r[j];
          assert s[m + 1] == r[j];
        }
      }
    }
  }

  /** Insertion puts `x` ahead of every element with the same key, keeping their order. */
  lemma {:induction false} InsertWithKey<T>(x: T, s: seq<T>, key: T -> seq<real>, k: seq<real>)
    ensures WithKey(Insert(x, s, key), key, k) == (if key(x) == k then [x] else []) + WithKey(s, key, k)
  {
    if |s| == 0 {
    } else if !LexLess(key(s[0]), key(x)) {
      assert ([x] + s)[1..] == s;
    } else {
      var rest := Insert(x, s[1..], key);
      var head := if key(s[0]) == k then [s[0]] else [];
      assert Insert(x, s, key) == [s[0]] + rest;
      assert ([s[0]] + rest)[1..] == rest;
      assert WithKey([s[0]] + rest, key, k) == head + WithKey(rest, key, k);
      assert WithKey(s, key, k) == head + WithKey(s[1..], key, k);
      InsertWithKey(x, s[1..], key, k);
      if key(x) == k {
        // s[0] has a smaller key than x, so it is not in the class of k
        LexLessIrreflexive(key(x));
        assert head == [];
        assert WithKey(rest, key, k) == [x] + WithKey(s[1..], key, k);
        assert WithKey(s, key, k) == WithKey(s[1..], key, k);
      } else {
        assert WithKey(rest, key, k) == WithKey(s[1..], key, k);
      }
    }
  }

  /**
   * Stable sort by `key`: a permutation of `s`, in non-decreasing key order,
   * whose elements with equal keys appear in the order they had in `s`.
   */
  function SortBy<T>(s: seq<T>, key: T -> seq<real>): (r: seq<T>)
    ensures multiset(r) == multiset(s)
    ensures SortedBy(r, key)
    ensures forall k :: WithKey(r, key, k) == WithKey(s, key, k)
  {
    if |s| == 0 then []
    else
      assert s == [s[0]] + s[1..];
      var rest := SortBy(s[1..], key);
      InsertKeepsSorted(s[0], rest, key);
      assert forall k :: WithKey(Insert(s[0], rest, key), key, k) == WithKey(s, key, k) by {
        forall k ensures WithKey(Insert(s[0], rest, key), key, k) == WithKey(s, key, k) {
          InsertWithKey(s[0], rest, key, k);
        }
      }
      Insert(s[0], rest, key)
  }

  /** In a sorted sequence no element has a smaller key than the first. */
  lemma SortedHeadIsLeast<T>(s: seq<T>, key: T -> seq<real>, j: int)
    requires SortedBy(s, key) && 0 <= j < |s|
    ensures !LexLess(key(s[j]), key(s[0]))
  {
    if j > 0 {
      assert !LexLess(key(s[j]), key(s[0]));
    } else {
      LexLessIrreflexive(key(s[0]));
    }
  }

  /** The first `n` elements of a sorted sequence are no larger than any element after them. */
  lemma SortedPrefixBeforeRest<T>(s: seq<T>, key: T -> seq<real>, n: int, i: int, j: int)
    requires SortedBy(s, key) && 0 <= i < n <= j < |s|
    ensures !LexLess(key(s[j]), key(s[i]))
  {
  }

  /** The order-preserving sub-sequence of `s` whose elements satisfy `p` (a list comprehension). */
  function Filter<T>(s: seq<T>, p: T -> bool): (r: seq<T>)
    ensures |r| <= |s|
    ensures forall i :: 0 <= i < |r| ==> r[i] in s && p(r[i])
    ensures forall i :: 0 <= i < |s| && p(s[i]) ==> s[i] in r
  {
    if |s| == 0 then []
    else
      assert s == [s[0]] + s[1..];
      (if p(s[0]) then [s[0]] else []) + Filter(s[1..], p)
  }

  /** Filtering keeps every element that satisfies `p` exactly as often as `s` holds it, and no other. */
  lemma {:induction false} FilterCounts<T>(s: seq<T>, p: T -> bool)
    ensures forall x :: multiset(Filter(s, p))[x] == if p(x) then multiset(s)[x] else 0
  {
    if |s| > 0 {
      FilterCounts(s[1..], p);
      assert s == [s[0]] + s[1..];
      assert Filter(s, p) == (if p(s[0]) then [s[0]] else []) + Filter(s[1..], p);
    }
  }

  /** Filtering a concatenation filters each part in turn. */
  lemma {:induction false} FilterAppend<T>(a: seq<T>, b: seq<T>, p: T -> bool)
    ensures Filter(a + b, p) == Filter(a, p) + Filter(b, p)
  {
    if a == [] {
      assert a + b == b;
    } else {
      assert (a + b)[0] == a[0] && (a + b)[1..] == a[1..] + b;
      FilterAppend(a[1..], b, p);
      var h := if p(a[0]) then [a[0]] else [];
      assert h + (Filter(a[1..], p) + Filter(b, p)) == (h + Filter(a[1..], p)) + Filter(b, p);
    }
  }

  /** Filtering keeps a sorted sequence sorted. */
  lemma {:induction false} FilterKeepsSorted<T>(s: seq<T>, p: T -> bool, key: T -> seq<real>)
    requires SortedBy(s, key)
    ensures SortedBy(Filter(s, p), key)
  {
    if |s| > 0 {
      FilterKeepsSorted(s[1..], p, key);
      var rest := Filter(s[1..], p);
      if p(s[0]) {
        var r := [s[0]] + rest;
        forall j | 0 < j < |r| ensures !LexLess(key(r[j]), key(s[0])) {
          assert r[j] in rest;
          var m :| 0 <= m < |s[1..]| && s[1..][m] == r[j];
          assert s[m + 1] == r[j];
        }
        assert Filter(s, p) == r;
      } else {
        assert Filter(s, p) == rest;
      }
    }
  }

  /** Under a pairwise relation the head of `s` is related to every later element. */
  lemma HeadBeforeTail<T>(s: seq<T>, before: (T, T) -> bool)
    requires |s| > 0 && forall i, j :: 0 <= i < j < |s| ==> before(s[i], s[j])
    ensures forall x :: x in s[1..] ==> before(s[0], x)
  {
    forall x | x in s[1..] ensures before(s[0], x) {
      var m :| 0 <= m < |s[1..]| && s[1..][m] == x;
      assert s[m + 1] == x;
    }
  }

  /** Putting in front an element related to every element of a pairwise-related sequence keeps it pairwise related. */
  lemma ConsKeepsPairwise<T>(x: T, s: seq<T>, before: (T, T) -> bool)
    requires forall y :: y in s ==> before(x, y)
    requires forall i, j :: 0 <= i < j < |s| ==> before(s[i], s[j])
    ensures forall i, j :: 0 <= i < j < |[x] + s| ==> before(([x] + s)[i], ([x] + s)[j])
  {
    var r := [x] + s;
    forall i, j | 0 <= i < j < |r| ensures before(r[i], r[j]) {
      assert r[j] == s[j - 1];
      if i > 0 {
        assert r[i] == s[i - 1];
      } else {
        assert s[j - 1] in s;
      }
    }
  }

  /**
   * Filtering keeps order: any relation that holds between every earlier and
   * later element of `s` holds between every earlier and later element kept.
   */
  lemma {:induction false} FilterKeepsPairwise<T>(s: seq<T>, p: T -> bool, before: (T, T) -> bool)
    requires forall i, j :: 0 <= i < j < |s| ==> before(s[i], s[j])
    ensures forall i, j :: 0 <= i < j < |Filter(s, p)| ==> before(Filter(s, p)[i], Filter(s, p)[j])
  {
    if |s| > 0 {
      var rest := Filter(s[1..], p);
      FilterKeepsPairwise(s[1..], p, before);
      if p(s[0]) {
        HeadBeforeTail(s, before);
        forall y | y in rest ensures before(s[0], y) {
          assert y in s[1..];
        }
        ConsKeepsPairwise(s[0], rest, before);
        assert Filter(s, p) == [s[0]] + rest;
      } else {
        assert Filter(s, p) == rest;
      }
    }
  }

  /** The first element kept is the first element of `s` that satisfies `p`. */
  lemma {:induction false} FilterHead<T>(s: seq<T>, p: T -> bool)
    requires Filter(s, p) != []
    ensures exists k :: (0 <= k < |s| && s[k] == Filter(s, p)[0] && p(s[k])
      && forall j :: 0 <= j < k ==> !p(s[j]))
  {
    if p(s[0]) {
      assert Filter(s, p)[0] == s[0];
    } else {
      assert Filter(s, p) == Filter(s[1..], p);
      FilterHead(s[1..], p);
      var k :| 0 <= k < |s[1..]| && s[1..][k] == Filter(s[1..], p)[0] && p(s[1..][k])
        && forall j :: 0 <= j < k ==> !p(s[1..][j]);
      assert s[k + 1] == Filter(s, p)[0];
      forall j | 0 <= j < k + 1 ensures !p(s[j]) {
        if j > 0 {
          assert s[j] == s[1..][j - 1];
        }
      }
    }
  }

  /** Filtering twice is filtering once by both predicates. */
  lemma {:induction false} FilterTwice<T>(s: seq<T>, p: T -> bool, q: T -> bool, pq: T -> bool)
    requires forall x :: pq(x) == (p(x) && q(x))
    ensures Filter(Filter(s, p), q) == Filter(s, pq)
  {
    if |s| > 0 {
      FilterTwice(s[1..], p, q, pq);
      if p(s[0]) {
        assert Filter(s, p) == [s[0]] + Filter(s[1..], p);
        assert ([s[0]] + Filter(s[1..], p))[1..] == Filter(s[1..], p);
      } else {
        assert Filter(s, p) == Filter(s[1..], p);
      }
    }
  }

  /** Every element of a permutation of `b` is an element of `b`. */
  lemma PermutationMembers<T>(a: seq<T>, b: seq<T>)
    requires multiset(a) == multiset(b)
    ensures forall i :: 0 <= i < |a| ==> a[i] in b
    ensures forall i :: 0 <= i < |b| ==> b[i] in a
  {
    forall i | 0 <= i < |a| ensures a[i] in b {
      assert a[i] in multiset(a);
    }
    forall i | 0 <= i < |b| ensures b[i] in a {
      assert b[i] in multiset(b);
    }
  }

  /** The sort key of `ORDER BY created_at DESC`. */
  function NewestKey<T>(at: T -> int): T -> seq<real> {
    (x: T) => [-(at(x) as real)]
  }

  lemma NewestKeyMeaning<T>(at: T -> int, a: T, b: T)
    ensures !LexLess(NewestKey(at)(b), NewestKey(at)(a)) <==> at(a) >= at(b)
  {
    var ka, kb := NewestKey(at)(a), NewestKey(at)(b);
    assert ka[1..] == [] && kb[1..] == [];
  }

  /**
   * `r` is what `ORDER BY <at> DESC LIMIT n` may return from `rows`: as many
   * rows as the limit allows, each from `rows` and no row more often than
   * there, newest first, and no row left out newer than a row returned.
   */
  ghost predicate NewestListing<T>(r: seq<T>, rows: seq<T>, at: T -> int, n: nat) {
    && |r| == (if |rows| < n then |rows| else n)
    && multiset(r) <= multiset(rows)
    && (forall i :: 0 <= i < |r| ==> r[i] in rows)
    && (forall i, j :: 0 <= i < j < |r| ==> at(r[i]) >= at(r[j]))
    && (forall x, i :: x in rows && x !in r && 0 <= i < |r| ==> at(x) <= at(r[i]))
  }

  /**
   * The first `n` rows in order of creation time, newest first: no row left out
   * is newer than a row returned, and everything is returned when there are
   * at most `n` rows.
   */
  function NewestFirst<T(==)>(rows: seq<T>, at: T -> int, n: nat): (r: seq<T>)
    ensures |r| == (if |rows| < n then |rows| else n)
    ensures forall i :: 0 <= i < |r| ==> r[i] in rows
    ensures forall i, j :: 0 <= i < j < |r| ==> at(r[i]) >= at(r[j])
    ensures forall x, i :: x in rows && x !in r && 0 <= i < |r| ==> at(x) <= at(r[i])
    ensures |rows| <= n ==> forall x :: x in rows ==> x in r
    ensures NewestListing(r, rows, at, n)
  {
    var sorted := SortBy(rows, NewestKey(at));
    PermutationMembers(sorted, rows);
    assert |sorted| == |rows| by { assert |multiset(sorted)| == |multiset(rows)|; }
    var r := if |sorted| < n then sorted else sorted[..n];
    PrefixSubMultiset(sorted, n);
    forall i, j | 0 <= i < j < |r| ensures at(r[i]) >= at(r[j]) {
      NewestKeyMeaning(at, r[i], r[j]);
    }
    forall x, i | x in rows && x !in r && 0 <= i < |r| ensures at(x) <= at(r[i]) {
      assert x in multiset(rows);
      var k :| 0 <= k < |sorted| && sorted[k] == x;
      SortedPrefixBeforeRest(sorted, NewestKey(at), |r|, i, k);
      NewestKeyMeaning(at, r[i], x);
    }
    r
  }

  /** The first `n` elements of `s` hold no element more often than `s` does. */
  lemma PrefixSubMultiset<T>(s: seq<T>, n: nat)
    ensures multiset(if |s| < n then s else s[..n]) <= multiset(s)
  {
    if |s| >= n {
      assert s == s[..n] + s[n..];
    }
  }

  /** A larger limit only adds rows after the ones a smaller limit returns. */
  lemma NewestFirstPrefix<T>(rows: seq<T>, at: T -> int, m: nat, n: nat)
    requires m <= n
    ensures NewestFirst(rows, at, m) <= NewestFirst(rows, at, n)
  {
    var sorted := SortBy(rows, NewestKey(at));
    assert |sorted| == |rows| by { assert |multiset(sorted)| == |multiset(rows)|; }
    var a := if |sorted| < m then sorted else sorted[..m];
    var b := if |sorted| < n then sorted else sorted[..n];
    assert NewestFirst(rows, at, m) == a && NewestFirst(rows, at, n) == b;
    assert a == b[..|a|];
  }
}

=== FILE: strings.dfy ===
/**
 * The Python `str` operations the backend relies on, over `seq<char>`.
 * Character classes are the ASCII ones: `strip()` removes ASCII whitespace,
 * `lower()`/`upper()` change ASCII letters and `isalnum()` accepts ASCII letters and digits.
 */
module Strings {
  import opened Wrappers

  /**
   * The ASCII characters `str.strip()` removes: those `str.isspace()` accepts,
   * which include the four separators U+001C to U+001F.
   */
  const Whitespace: set<char> := {' ', '\t', '\n', '\r', '\U{000B}', '\U{000C}', '\U{001C}', '\U{001D}', '\U{001E}', '\U{001F}'}

  /** `s.lstrip(chars)` for the character set `cs`. */
  function TrimLeft(s: string, cs: set<char>): (r: string)
    ensures |r| <= |s| && r == s[|s| - |r|..]
    ensures forall i :: 0 <= i < |s| - |r| ==> s[i] in cs
    ensures |r| > 0 ==> r[0] !in cs
  {
    if |s| > 0 && s[0] in cs then
      var t := TrimLeft(s[1..], cs);
      assert s[1..][|s| - 1 - |t|..] == s[|s| - |t|..];
      assert forall i :: 1 <= i < |s| - |t| ==> s[i] == s[1..][i - 1];
      t
    else s
  }

  /** `s.rstrip(chars)` for the character set `cs`. */
  function TrimRight(s: string, cs: set<char>): (r: string)
    ensures |r| <= |s| && r == s[..|r|]
    ensures forall i :: |r| <= i < |s| ==> s[i] in cs
    ensures |r| > 0 ==> r[|r| - 1] !in cs
  {
    if |s| > 0 && s[|s| - 1] in cs then
      var t := TrimRight(s[..|s| - 1], cs);
      assert s[..|s| - 1][..|t|] == s[..|t|];
      assert forall i :: |t| <= i < |s| - 1 ==> s[i] == s[..|s| - 1][i];
      t
    else s
  }

  /** `s.strip(chars)`: the factor of `s` left once both ends lose their `cs` characters. */
  function Trim(s: string, cs: set<char>): (r: string)
    ensures |r| <= |s|
    ensures |r| > 0 ==> r[0] !in cs && r[|r| - 1] !in cs
    ensures r == [] <==> forall i :: 0 <= i < |s| ==> s[i] in cs
  {
    var l := TrimLeft(s, cs);
    var r := TrimRight(l, cs);
    assert r == [] ==> forall i :: 0 <= i < |s| ==> s[i] in cs by {
      if r == [] {
        assert |l| == 0;
      }
    }
    r
  }

  /** `s.strip()` */
  function Strip(s: string): string {
    Trim(s, Whitespace)
  }

  /** Python truthiness of `s.strip()`: false exactly for an all-whitespace string. */
  predicate IsBlank(s: string) {
    Strip(s) == []
  }

  /** Stripping a string whose ends are already kept changes nothing. */
  lemma TrimKeepsTrimmed(s: string, cs: set<char>)
    requires |s| > 0 ==> s[0] !in cs && s[|s| - 1] !in cs
    ensures Trim(s, cs) == s
  {
  }

  /** Stripping twice is stripping once. */
  lemma TrimIdempotent(s: string, cs: set<char>)
    ensures Trim(Trim(s, cs), cs) == Trim(s, cs)
  {
    TrimKeepsTrimmed(Trim(s, cs), cs);
  }

  /** `lstrip` removes exactly a prefix of stripped characters in front of a kept one. */
  lemma TrimLeftExact(a: string, m: string, cs: set<char>)
    requires forall i :: 0 <= i < |a| ==> a[i] in cs
    requires |m| > 0 ==> m[0] !in cs
    ensures TrimLeft(a + m, cs) == m
  {
    var s := a + m;
    assert forall i :: 0 <= i < |a| ==> s[i] == a[i];
    if |m| > 0 {
      assert s[|a|] == m[0];
    }
    assert s[|a|..] == m;
  }

  /** `rstrip` removes exactly a suffix of stripped characters after a kept one. */
  lemma TrimRightExact(m: string, b: string, cs: set<char>)
    requires forall i :: 0 <= i < |b| ==> b[i] in cs
    requires |m| > 0 ==> m[|m| - 1] !in cs
    ensures TrimRight(m + b, cs) == m
  {
    var s := m + b;
    assert forall i :: 0 <= i < |b| ==> s[|m| + i] == b[i];
    if |m| > 0 {
      assert s[|m| - 1] == m[|m| - 1];
    }
    assert s[..|m|] == m;
  }

  /** `strip(cs)` of a kept core between stripped margins is the core. */
  lemma TrimExact(a: string, m: string, b: string, cs: set<char>)
    requires forall i :: 0 <= i < |a| ==> a[i] in cs
    requires forall i :: 0 <= i < |b| ==> b[i] in cs
    requires |m| > 0 && m[0] !in cs && m[|m| - 1] !in cs
    ensures Trim(a + m + b, cs) == m
  {
    assert a + m + b == a + (m + b);
    TrimLeftExact(a, m + b, cs);
    TrimRightExact(m, b, cs);
  }

  /** `strip()` leaves a factor of its input whose ends are not blanks. */
  lemma StripFacts(s: string)
    ensures var r := Strip(s); r != [] ==> r[0] !in Whitespace && r[|r| - 1] !in Whitespace
    ensures forall c :: c in Strip(s) ==> c in s
    ensures |Strip(s)| <= |s|
  {
    var l := TrimLeft(s, Whitespace);
    var r := TrimRight(l, Whitespace);
    assert Strip(s) == r;
    forall c | c in r ensures c in s {
      var i :| 0 <= i < |r| && r[i] == c;
      assert l[i] == c;
      assert s[|s| - |l| + i] == c;
    }
  }

  function LowerChar(c: char): (r: char)
    ensures !('A' <= r <= 'Z')
  {
    if 'A' <= c <= 'Z' then (c as int + 32) as char else c
  }

  function UpperChar(c: char): (r: char)
    ensures !('a' <= r <= 'z')
  {
    if 'a' <= c <= 'z' then (c as int - 32) as char else c
  }

  /** `s.lower()`: the same length, with no upper-case ASCII letter left. */
  function Lower(s: string): (r: string)
    ensures |r| == |s|
    ensures forall i :: 0 <= i < |r| ==> !('A' <= r[i] <= 'Z')
    ensures forall i :: 0 <= i < |s| ==> r[i] == LowerChar(s[i])
  {
    seq(|s|, i requires 0 <= i < |s| => LowerChar(s[i]))
  }

  /** `s.upper()`: the same length, with no lower-case ASCII letter left. */
  function Upper(s: string): (r: string)
    ensures |r| == |s|
    ensures forall i :: 0 <= i < |r| ==> !('a' <= r[i] <= 'z')
    ensures forall i :: 0 <= i < |s| ==> r[i] == UpperChar(s[i])
  {
    seq(|s|, i requires 0 <= i < |s| => UpperChar(s[i]))
  }

  /** Lower-casing is idempotent. */
  lemma LowerIdempotent(s: string)
    ensures Lower(Lower(s)) == Lower(s)
  {
  }

  /** `s.replace(a, b)` for single characters: `a` is gone unless `b` is `a`. */
  function ReplaceChar(s: string, a: char, b: char): (r: string)
    ensures |r| == |s|
    ensures a != b ==> a !in r
    ensures forall i :: 0 <= i < |s| && s[i] != a ==> r[i] == s[i]
  {
    seq(|s|, i requires 0 <= i < |s| => if s[i] == a then b else s[i])
  }

  /** `s.replace(c, "")`: every other character survives in order and number. */
  function RemoveChar(s: string, c: char): (r: string)
    ensures c !in r
    ensures forall x :: x != c ==> multiset(r)[x] == multiset(s)[x]
  {
    if |s| == 0 then []
    else
      assert s == [s[0]] + s[1..];
      (if s[0] == c then [] else [s[0]]) + RemoveChar(s[1..], c)
  }

  /** Python truthiness of an optional string. */
  predicate Truthy(s: Option<string>) {
    s.Some? && s.value != []
  }

  predicate StartsWith(s: string, prefix: string) {
    |prefix| <= |s| && s[..|prefix|] == prefix
  }

  /** `sub` occurs in `s` at position `i`. */
  predicate OccursAt(s: string, sub: string, i: int) {
    0 <= i && i + |sub| <= |s| && s[i..i + |sub|] == sub
  }

  /** The first position at or after `from` where `sub` occurs. */
  function IndexFrom(s: string, sub: string, from: nat): (r: Option<nat>)
    requires from <= |s|
    ensures r.Some? ==> from <= r.value && OccursAt(s, sub, r.value)
    ensures r.Some? ==> forall j :: from <= j < r.value ==> !OccursAt(s, sub, j)
    ensures r.None? ==> forall j :: from <= j ==> !OccursAt(s, sub, j)
    decreases |s| - from
  {
    if OccursAt(s, sub, from) then Some(from)
    else if from == |s| then None
    else IndexFrom(s, sub, from + 1)
  }

  /** `s.find(sub)`, with `None` for -1. */
  function IndexOf(s: string, sub: string): (r: Option<nat>)
    ensures r.Some? ==> OccursAt(s, sub, r.value) && forall j :: 0 <= j < r.value ==> !OccursAt(s, sub, j)
    ensures r.None? <==> forall j :: !OccursAt(s, sub, j)
  {
    IndexFrom(s, sub, 0)
  }

  /** `sub in s` */
  predicate Contains(s: string, sub: string) {
    IndexOf(s, sub).Some?
  }

  /** `s.split(sep, 1)` when `sep` occurs: the text before and after its first occurrence. */
  function SplitFirst(s: string, sep: string): (r: Option<(string, string)>)
    requires |sep| > 0  // Python raises on an empty separator
    ensures r.Some? <==> Contains(s, sep)
    ensures r.Some? ==> r.value.0 + sep + r.value.1 == s && !Contains(r.value.0, sep)
  {
    match IndexOf(s, sep)
    case None => None
    case Some(i) =>
      var before := s[..i];
      assert s == before + sep + s[i + |sep|..];
      assert !Contains(before, sep) by {
        forall j | OccursAt(before, sep, j) ensures false {
          assert j < i;
          assert before[j..j + |sep|] == s[j..j + |sep|];
          assert OccursAt(s, sep, j);
        }
      }
      Some((before, s[i + |sep|..]))
  }

  /** `s.split(c)[0]`: the text before the first `c`, or all of `s`. */
  function UpToChar(s: string, c: char): (r: string)
    ensures StartsWith(s, r) && c !in r
    ensures |r| < |s| ==> s[|r|] == c
  {
    if |s| == 0 || s[0] == c then []
    else
      var rest := UpToChar(s[1..], c);
      assert s[..1 + |rest|] == [s[0]] + s[1..][..|rest|];
      [s[0]] + rest
  }

  /** Splitting at a separator whose first character does not occur before it splits there. */
  lemma SplitFirstAt(before: string, sep: string, after: string)
    requires |sep| > 0 && sep[0] !in before
    ensures SplitFirst(before + sep + after, sep) == Some((before, after))
  {
    var s := before + sep + after;
    assert OccursAt(s, sep, |before|) by {
      assert s[|before|..|before| + |sep|] == sep;
    }
    forall j | 0 <= j < |before| ensures !OccursAt(s, sep, j) {
      assert s[j] == before[j];
    }
    assert IndexOf(s, sep) == Some(|before|);
    assert s[..|before|] == before;
    assert s[|before| + |sep|..] == after;
  }

  /** `s.split(c)[0]` of a text with a `c` right after a `c`-free head is the head. */
  lemma UpToCharExact(a: string, c: char, b: string)
    requires c !in a
    ensures UpToChar(a + [c] + b, c) == a
  {
    if a != [] {
      assert (a + [c] + b)[1..] == a[1..] + [c] + b;
      UpToCharExact(a[1..], c, b);
    }
  }

  predicate IsAlnumChar(c: char) {
    'a' <= c <= 'z' || 'A' <= c <= 'Z' || '0' <= c <= '9'
  }

  /** `s.isalnum()`: non-empty and made of letters and digits only. */
  predicate IsAlnum(s: string) {
    |s| > 0 && forall i :: 0 <= i < |s| ==> IsAlnumChar(s[i])
  }
}

=== FILE: ttl_cache.dfy ===
/**
 * The engine's module-level snapshot caches (`_CacheEntry` and the `_load_*`
 * loaders, engine.py) as a state machine over an integer monotonic clock.
 *
 * Each loader reads its entry; a fresh entry holding data is returned as is,
 * otherwise the loader rebuilds the snapshot from the store and records it with
 * the current time. A failed or empty store read rebuilds the loader's default
 * snapshot, not the previous one.
 */
module TtlCache {
  import opened Wrappers
  import opened Entities
  import opened Params
  import opened DeclineCodes
  import opened Routes

  /** `_CACHE_TTL_SECONDS` */
  const TtlSeconds: int := 60

  /** A cached snapshot and the clock reading when it was stored; initially empty at time 0. */
  datatype Entry<T> = Entry(data: Option<T>, fetchedAt: int)

  function Empty<T>(): (e: Entry<T>)
    ensures e.data.None?
  {
    Entry(None, 0)
  }

  /** `is_stale`: strictly more than the TTL has elapsed since the snapshot was stored. */
  predicate IsStale<T>(e: Entry<T>, now: int) {
    now - e.fetchedAt > TtlSeconds
  }

  /** The loaders' fast path: a snapshot is served from the cache. */
  predicate Serves<T>(e: Entry<T>, now: int) {
    !IsStale(e, now) && e.data.Some?
  }

  /** What a load returns, and the entry it leaves behind. */
  datatype Load<T> = Load(value: T, entry: Entry<T>)

  /**
   * One load at time `now`: the cached snapshot when it is served, otherwise
   * `rebuilt`, which is stored together with `now`.
   */
  function Read<T>(e: Entry<T>, now: int, rebuilt: T): (r: Load<T>)
    ensures Serves(e, now) ==> r.value == e.data.value && r.entry == e
    ensures !Serves(e, now) ==> r.value == rebuilt && r.entry == Entry(Some(rebuilt), now)
    ensures r.entry.data == Some(r.value)
  {
    if Serves(e, now) then Load(e.data.value, e) else Load(rebuilt, Entry(Some(rebuilt), now))
  }

  /**
   * After any load the entry serves at `now`, keeps serving until 60 seconds after
   * it was stored, and not a second longer.
   */
  lemma ReadIsFreshForTtl<T>(e: Entry<T>, now: int, rebuilt: T, later: int)
    requires e.fetchedAt <= now
    ensures var r := Read(e, now, rebuilt);
      Serves(r.entry, now)
      && (now <= later <= r.entry.fetchedAt + TtlSeconds ==> Serves(r.entry, later))
      && (later > r.entry.fetchedAt + TtlSeconds ==> !Serves(r.entry, later))
  {
  }

  /**
   * Two loads within the TTL of a refresh return the same snapshot, whatever the
   * store would have produced the second time.
   */
  lemma ReadTwiceWithinTtl<T>(e: Entry<T>, t1: int, t2: int, rebuilt1: T, rebuilt2: T)
    requires !Serves(e, t1) && t1 <= t2 <= t1 + TtlSeconds
    ensures var r1 := Read(e, t1, rebuilt1);
      Read(r1.entry, t2, rebuilt2) == Load(rebuilt1, r1.entry)
  {
  }

  /** The entry is exactly 60 seconds old: still fresh; 61 seconds: stale. */
  lemma StaleBoundary<T>(e: Entry<T>)
    ensures !IsStale(e, e.fetchedAt + 60) && IsStale(e, e.fetchedAt + 61)
  {
  }

  // ---------------------------------------------------------------------------
  // The configuration loader
  // ---------------------------------------------------------------------------

  /**
   * The rows the configuration loader folds: the store's rows when a runtime is
   * attached and the read succeeds (`read` is `None` when it raises), else none.
   */
  function ConfigRows(hasRuntime: bool, read: Option<seq<ConfigRow>>): (rows: seq<ConfigRow>)
    ensures !hasRuntime || read.None? ==> rows == []
    ensures hasRuntime && read.Some? ==> rows == read.value
  {
    if hasRuntime && read.Some? then read.value else []
  }

  /** The snapshot `_load_config` rebuilds: the fold of the rows, or `Defaults()` when there are none. */
  function RebuildConfig(rows: seq<ConfigRow>, parse: FloatParser): (p: DecisionParams)
    ensures rows == [] ==> p == Defaults()
    ensures rows != [] ==> p == ParamsFromConfig(rows, parse)
  {
    if rows != [] then ParamsFromConfig(rows, parse) else Defaults()
  }

  /**
   * `_load_config()`. The check repeated under the lock sees the same entry in a
   * sequential run, so it reaches the same decision and is not repeated here.
   */
  function LoadConfig(e: Entry<DecisionParams>, now: int, hasRuntime: bool, read: Option<seq<ConfigRow>>, parse: FloatParser): (r: Load<DecisionParams>)
    ensures Serves(e, now) ==> r == Load(e.data.value, e)
    ensures !Serves(e, now) ==> r.entry == Entry(Some(r.value), now) && r.value == RebuildConfig(ConfigRows(hasRuntime, read), parse)
  {
    Read(e, now, RebuildConfig(ConfigRows(hasRuntime, read), parse))
  }

  /**
   * A refresh whose store read fails stores `Defaults()`, discarding whatever
   * snapshot the stale entry held.
   */
  lemma FailedRefreshStoresDefaults(e: Entry<DecisionParams>, now: int, hasRuntime: bool, parse: FloatParser)
    requires IsStale(e, now)
    ensures LoadConfig(e, now, hasRuntime, None, parse) == Load(Defaults(), Entry(Some(Defaults()), now))
  {
  }

  /**
   * `_load_config()` as written: the fold runs outside the read's exception
   * handler, so an integer field the fold cannot convert raises out of the
   * loader and the entry is left untouched.
   */
  function LoadConfigAsWritten(e: Entry<DecisionParams>, now: int, hasRuntime: bool, read: Option<seq<ConfigRow>>, parse: FloatParser): (r: Result<Load<DecisionParams>, ParamsError>)
    ensures Serves(e, now) ==> r == Ok(Load(e.data.value, e))
    ensures r.Ok? && !Serves(e, now) ==> r.value.entry == Entry(Some(r.value.value), now)
  {
    if Serves(e, now) then Ok(Load(e.data.value, e))
    else
      var rows := ConfigRows(hasRuntime, read);
      if rows == [] then Ok(Read(e, now, Defaults()))
      else
        var p :- ParamsFromConfigAsWritten(rows, parse);
        Ok(Read(e, now, p))
  }

  /**
   * Once the stored configuration holds an infinite integer value, every later
   * as-written load that misses the cache raises again, because the failed load
   * left the entry stale; the corrected loader stores a snapshot and serves it.
   */
  lemma OverflowNeverRefreshes(e: Entry<DecisionParams>, now: int, later: int, rows: seq<ConfigRow>, parse: FloatParser)
    requires !Serves(e, now) && now <= later
    requires ParamsFromConfigAsWritten(rows, parse).Err?
    ensures LoadConfigAsWritten(e, now, true, Some(rows), parse).Err?
    ensures IsStale(e, now) ==> LoadConfigAsWritten(e, later, true, Some(rows), parse).Err?
    ensures Serves(LoadConfig(e, now, true, Some(rows), parse).entry, now)
  {
    assert rows != [];
  }

  /** Where the as-written loader returns, it agrees with the corrected one. */
  lemma LoadConfigAgreesWhenOk(e: Entry<DecisionParams>, now: int, hasRuntime: bool, read: Option<seq<ConfigRow>>, parse: FloatParser)
    requires LoadConfigAsWritten(e, now, hasRuntime, read, parse).Ok?
    ensures LoadConfigAsWritten(e, now, hasRuntime, read, parse).value == LoadConfig(e, now, hasRuntime, read, parse)
  {
    var rows := ConfigRows(hasRuntime, read);
    if !Serves(e, now) && rows != [] {
      AsWrittenAgreesWhenOk(BuildKv(rows), parse);
    }
  }

  // ---------------------------------------------------------------------------
  // Loaders without a lock
  // ---------------------------------------------------------------------------

  /**
   * `_load_decline_codes()`, `_load_routes()`, `_load_rules()` and
   * `_load_recommendations()`: on a miss, the snapshot built from the store when
   * a runtime is attached and the read yields something, else `fallback`.
   */
  function LoadOrFallback<T>(e: Entry<T>, now: int, hasRuntime: bool, read: Option<T>, fallback: T): (r: Load<T>)
    ensures Serves(e, now) ==> r == Load(e.data.value, e)
    ensures !Serves(e, now) && hasRuntime && read.Some? ==> r == Load(read.value, Entry(Some(read.value), now))
    ensures !Serves(e, now) && !(hasRuntime && read.Some?) ==> r == Load(fallback, Entry(Some(fallback), now))
  {
    Read(e, now, if hasRuntime && read.Some? then read.value else fallback)
  }

  /** `_load_decline_codes()`: a failed or empty read stores the empty map. */
  function LoadDeclineCodes(e: Entry<map<string, RetryableCode>>, now: int, hasRuntime: bool, read: Option<seq<DeclineRow>>): (r: Load<map<string, RetryableCode>>)
    ensures Serves(e, now) ==> r == Load(e.data.value, e)
    ensures !Serves(e, now) && hasRuntime && read.Some? ==> r.value == DeclineCodesMap(read.value) && r.entry == Entry(Some(r.value), now)
    ensures !Serves(e, now) && !(hasRuntime && read.Some?) ==> r.value == map[] && r.entry == Entry(Some(map[]), now)
  {
    var rows := if hasRuntime && read.Some? then read.value else [];
    Read(e, now, if rows != [] then DeclineCodesMap(rows) else map[])
  }

  /** `_load_routes()`: a failed or empty read stores the empty ranking. */
  function LoadRoutes(e: Entry<seq<RouteScore>>, now: int, hasRuntime: bool, read: Option<seq<RouteRow>>): (r: Load<seq<RouteScore>>)
    ensures Serves(e, now) ==> r == Load(e.data.value, e)
    ensures !Serves(e, now) && hasRuntime && read.Some? ==> r.value == RouteScoresList(read.value) && r.entry == Entry(Some(r.value), now)
    ensures !Serves(e, now) && !(hasRuntime && read.Some?) ==> r.value == [] && r.entry == Entry(Some([]), now)
  {
    var rows := if hasRuntime && read.Some? then read.value else [];
    Read(e, now, if rows != [] then RouteScoresList(rows) else [])
  }
}

=== FILE: version_check.dfy ===
/**
 * The release script that checks pinned package versions agree across
 * `pyproject.toml`, `uv.lock` and `requirements.txt`.
 *
 * Each file is given as its sequence of lines (what `str.splitlines()` yields);
 * reading the files and printing the report are left to the caller.
 * A parsed file is a Python `dict[str, str]`, kept as a sequence of pairs
 * so that insertion order (which fixes the order of the error list) is explicit.
 */
module VersionCheck {
  import opened Wrappers
  import opened Strings

  // ---------------------------------------------------------------------------
  // Insertion-ordered dictionaries
  // ---------------------------------------------------------------------------

  /** A `dict[str, str]`: pairs in insertion order. */
  type Dict = seq<(string, string)>

  predicate UniqueKeys(d: Dict) {
    forall i, j :: 0 <= i < j < |d| ==> d[i].0 != d[j].0
  }

  /** `d.get(k)` */
  function Get(d: Dict, k: string): (r: Option<string>)
    ensures r.None? <==> forall i :: 0 <= i < |d| ==> d[i].0 != k
    ensures r.Some? ==> exists i :: 0 <= i < |d| && d[i] == (k, r.value)
  {
    if d == [] then None
    else if d[0].0 == k then Some(d[0].1)
    else
      var r := Get(d[1..], k);
      assert forall i :: 1 <= i < |d| ==> d[i] == d[1..][i - 1];
      r
  }

  /** With unique keys, every pair is what `get` finds for its key. */
  lemma UniqueGet(d: Dict)
    requires UniqueKeys(d)
    ensures forall i :: 0 <= i < |d| ==> Get(d, d[i].0) == Some(d[i].1)
  {
    forall i | 0 <= i < |d| ensures Get(d, d[i].0) == Some(d[i].1) {
      var v := Get(d, d[i].0).value;
      var j :| 0 <= j < |d| && d[j] == (d[i].0, v);
      assert j == i;
    }
  }

  /**
   * `d[k] = v`: an existing key keeps its place and takes the new value,
   * a new key goes at the end.
   */
  function Put(d: Dict, k: string, v: string): (r: Dict)
    requires UniqueKeys(d)
    ensures |r| == if Get(d, k).Some? then |d| else |d| + 1
    ensures forall i :: 0 <= i < |d| ==> r[i].0 == d[i].0
    ensures forall i :: 0 <= i < |d| && d[i].0 != k ==> r[i] == d[i]
    ensures |r| > |d| ==> r[|d|] == (k, v)
    ensures UniqueKeys(r)
  {
    if Get(d, k).Some? then seq(|d|, i requires 0 <= i < |d| => if d[i].0 == k then (k, v) else d[i])
    else d + [(k, v)]
  }

  /** After `d[k] = v`, `k` maps to `v` and every other key to what it mapped to before. */
  lemma PutGet(d: Dict, k: string, v: string)
    requires UniqueKeys(d)
    ensures Get(Put(d, k, v), k) == Some(v)
    ensures forall k' :: k' != k ==> Get(Put(d, k, v), k') == Get(d, k')
  {
    var r := Put(d, k, v);
    UniqueGet(r);
    UniqueGet(d);
    forall i | 0 <= i < |r| && r[i].0 == k ensures r[i] == (k, v) {
    }
  }

  /** Storing pairs one after another, as a loop of `d[k] = v` does. */
  function PutAll(d: Dict, entries: seq<(string, string)>): (r: Dict)
    requires UniqueKeys(d)
    ensures UniqueKeys(r)
  {
    if entries == [] then d
    else
      var e := entries[|entries| - 1];
      Put(PutAll(d, entries[..|entries| - 1]), e.0, e.1)
  }

  /** The value of the last pair for `k`: what a later duplicate leaves behind. */
  function LastValue(entries: seq<(string, string)>, k: string): Option<string> {
    if entries == [] then None
    else if entries[|entries| - 1].0 == k then Some(entries[|entries| - 1].1)
    else LastValue(entries[..|entries| - 1], k)
  }

  /** After storing pairs, a key holds the value of its last pair, or its earlier value if it had none. */
  lemma {:induction false} PutAllLastWins(d: Dict, entries: seq<(string, string)>, k: string)
    requires UniqueKeys(d)
    ensures Get(PutAll(d, entries), k) == if LastValue(entries, k).Some? then LastValue(entries, k) else Get(d, k)
  {
    if entries != [] {
      var e := entries[|entries| - 1];
      PutAllLastWins(d, entries[..|entries| - 1], k);
      PutGet(PutAll(d, entries[..|entries| - 1]), e.0, e.1);
    }
  }

  // ---------------------------------------------------------------------------
  // Package names
  // ---------------------------------------------------------------------------

  /** No capitals and no underscores. */
  predicate IsNormalName(s: string) {
    '_' !in s && forall i :: 0 <= i < |s| ==> !('A' <= s[i] <= 'Z')
  }

  /** `name.lower().replace("_", "-")` */
  function NormalizeName(name: string): (r: string)
    ensures |r| == |name|
    ensures IsNormalName(r)
  {
    ReplaceChar(Lower(name), '_', '-')
  }

  /** A name written with capitals and underscores is already in its normal form once normalised. */
  lemma NormalizeNameIdempotent(name: string)
    ensures NormalizeName(NormalizeName(name)) == NormalizeName(name)
  {
    var n := NormalizeName(name);
    var l := Lower(n);
    assert l == n;
    assert ReplaceChar(l, '_', '-') == l;
  }

  /** Every key of the dictionary is a normalised name. */
  predicate NormalizedKeys(d: Dict) {
    forall i :: 0 <= i < |d| ==> IsNormalName(d[i].0)
  }

  // ---------------------------------------------------------------------------
  // requirements.txt
  // ---------------------------------------------------------------------------

  /**
   * One line of `requirements.txt`: blank lines and `#` comments are skipped,
   * a line without `==` is ignored, and otherwise the line is cut at its first `==`.
   */
  function RequirementLine(line: string): (r: Option<(string, string)>)
    ensures r.None? <==> (var l := Strip(line); l == [] || l[0] == '#' || !Contains(l, "=="))
    ensures r.Some? ==> IsNormalName(r.value.0)
  {
    var l := Strip(line);
    if l == [] || l[0] == '#' then None
    else
      match SplitFirst(l, "==")
      case None => None
      case Some(parts) => Some((NormalizeName(Strip(parts.0)), Strip(parts.1)))
  }

  /** A pin written `name==version` reads back as the normalised name and the stripped version. */
  lemma RequirementLineRoundTrip(name: string, version: string)
    requires name != [] && name[0] !in Whitespace && name[0] != '#' && '=' !in name
    requires version != [] ==> version[|version| - 1] !in Whitespace
    ensures RequirementLine(name + "==" + version) == Some((NormalizeName(Strip(name)), Strip(version)))
  {
    var line := name + "==" + version;
    assert line[0] == name[0];
    assert line[|line| - 1] == if version == [] then '=' else version[|version| - 1];
    TrimKeepsTrimmed(line, Whitespace);
    SplitFirstAt(name, "==", version);
  }

  /** The pins of `requirements.txt`, in file order. */
  function RequirementEntries(lines: seq<string>): seq<(string, string)> {
    if lines == [] then []
    else
      var rest := RequirementEntries(lines[..|lines| - 1]);
      match RequirementLine(lines[|lines| - 1])
      case None => rest
      case Some(e) => rest + [e]
  }

  /** `parse_requirements_versions`: a missing file gives an empty dictionary. */
  function ParseRequirements(file: Option<seq<string>>): (r: Dict)
    ensures UniqueKeys(r)
    ensures file.None? ==> r == []
  {
    match file
    case None => []
    case Some(lines) => PutAll([], RequirementEntries(lines))
  }

  /** A package pinned twice in `requirements.txt` keeps its later pin. */
  lemma RequirementsLaterPinWins(lines: seq<string>, k: string)
    ensures Get(ParseRequirements(Some(lines)), k) == LastValue(RequirementEntries(lines), k)
  {
    PutAllLastWins([], RequirementEntries(lines), k);
  }

  /** Adding a comment or a line without `==` changes nothing. */
  lemma RequirementsSkipLine(lines: seq<string>, line: string)
    requires RequirementLine(line).None?
    ensures ParseRequirements(Some(lines + [line])) == ParseRequirements(Some(lines))
  {
    assert (lines + [line])[..|lines|] == lines;
  }

  // ---------------------------------------------------------------------------
  // uv.lock
  // ---------------------------------------------------------------------------

  const NameKey: string := "name = "
  const VersionKey: string := "version = "

  /** `line.split("=", 1)[1].strip().strip('"')` */
  function FieldValue(line: string): string {
    match SplitFirst(line, "=")
    case None => []
    case Some(parts) => Trim(Strip(parts.1), {'"'})
  }

  /** The scan state: the packages so far and the name waiting for its version. */
  datatype LockScan = LockScan(deps: Dict, pending: Option<string>)

  /**
   * One line of the scan: a `name = ` line arms the pending name (replacing any
   * earlier one); a `version = ` line records the pair and disarms it, but only
   * while a non-empty name is pending; every other line is ignored.
   */
  function LockStep(st: LockScan, raw: string): (r: LockScan)
    requires UniqueKeys(st.deps)
    ensures UniqueKeys(r.deps)
    ensures StartsWith(Strip(raw), NameKey) ==> r == LockScan(st.deps, Some(FieldValue(Strip(raw))))
    ensures !StartsWith(Strip(raw), NameKey) && !Truthy(st.pending) ==> r == st
    ensures !StartsWith(Strip(raw), NameKey) && !StartsWith(Strip(raw), VersionKey) ==> r == st
    ensures (!StartsWith(Strip(raw), NameKey) && StartsWith(Strip(raw), VersionKey) && Truthy(st.pending)
             ==> r.pending.None? && Get(r.deps, st.pending.value) == Some(FieldValue(Strip(raw)))
                 && forall k :: k != st.pending.value ==> Get(r.deps, k) == Get(st.deps, k))
  {
    var line := Strip(raw);
    if StartsWith(line, NameKey) then LockScan(st.deps, Some(FieldValue(line)))
    else if Truthy(st.pending) && StartsWith(line, VersionKey) then
      PutGet(st.deps, st.pending.value, FieldValue(line));
      LockScan(Put(st.deps, st.pending.value, FieldValue(line)), None)
    else st
  }

  /** The scan after the given lines, starting from no packages and no pending name. */
  function ScanLock(lines: seq<string>): (r: LockScan)
    ensures UniqueKeys(r.deps)
  {
    if lines == [] then LockScan([], None)
    else LockStep(ScanLock(lines[..|lines| - 1]), lines[|lines| - 1])
  }

  /** `parse_uv_lock_versions` */
  function ParseLock(lines: seq<string>): (r: Dict)
    ensures UniqueKeys(r)
  {
    ScanLock(lines).deps
  }

  /** How `uv.lock` writes a package's name and version. */
  function NameLine(name: string): string { NameKey + "\"" + name + "\"" }
  function VersionLine(version: string): string { VersionKey + "\"" + version + "\"" }

  /** Neither end is a double quote. */
  predicate Unquoted(s: string) {
    s == [] || (s[0] != '"' && s[|s| - 1] != '"')
  }

  /** Stripping the quotes of `"value"` gives the value back. */
  lemma UnquoteQuoted(value: string)
    requires Unquoted(value)
    ensures Trim("\"" + value + "\"", {'"'}) == value
  {
    var quoted := "\"" + value + "\"";
    if value == [] {
      assert forall i :: 0 <= i < |quoted| ==> quoted[i] in {'"'};
    } else {
      assert quoted == ['"'] + value + ['"'];
      TrimExact(['"'], value, ['"'], {'"'});
    }
  }

  /** The blank after `=` goes with `strip()`. */
  lemma StripSpaceQuoted(value: string)
    ensures Strip(" \"" + value + "\"") == "\"" + value + "\""
  {
    var quoted := "\"" + value + "\"";
    assert " \"" + value + "\"" == [' '] + quoted + [];
    TrimExact([' '], quoted, [], Whitespace);
  }

  /** `key = "value"` with `=`-free key reads back as the value. */
  lemma FieldValueRoundTrip(key: string, value: string)
    requires '=' !in key && Unquoted(value)
    ensures FieldValue(key + "= \"" + value + "\"") == value
  {
    var after := " \"" + value + "\"";
    assert key + "= \"" + value + "\"" == key + "=" + after;
    SplitFirstAt(key, "=", after);
    StripSpaceQuoted(value);
    UnquoteQuoted(value);
  }

  /** A rendered `name = "n"` line is a name line that reads back as `n`. */
  lemma NameLineReads(name: string)
    requires Unquoted(name)
    ensures Strip(NameLine(name)) == NameLine(name)
    ensures StartsWith(NameLine(name), NameKey)
    ensures FieldValue(NameLine(name)) == name
  {
    var nl := NameLine(name);
    assert nl == "name " + "= \"" + name + "\"";
    FieldValueRoundTrip("name ", name);
    assert nl[0] == 'n' && nl[|nl| - 1] == '"';
    TrimKeepsTrimmed(nl, Whitespace);
    assert nl[..|NameKey|] == NameKey;
  }

  /** A rendered `version = "v"` line is a version line, not a name line, and reads back as `v`. */
  lemma VersionLineReads(version: string)
    requires Unquoted(version)
    ensures Strip(VersionLine(version)) == VersionLine(version)
    ensures StartsWith(VersionLine(version), VersionKey) && !StartsWith(VersionLine(version), NameKey)
    ensures FieldValue(VersionLine(version)) == version
  {
    var vl := VersionLine(version);
    assert vl == "version " + "= \"" + version + "\"";
    FieldValueRoundTrip("version ", version);
    assert vl[0] == 'v' && vl[|vl| - 1] == '"';
    TrimKeepsTrimmed(vl, Whitespace);
    assert vl[..|VersionKey|] == VersionKey;
  }

  /** A `name = "n"` line arms `n`, whatever was pending. */
  lemma NameLineArms(st: LockScan, name: string)
    requires UniqueKeys(st.deps) && Unquoted(name)
    ensures LockStep(st, NameLine(name)) == LockScan(st.deps, Some(name))
  {
    NameLineReads(name);
  }

  /** A `version = "v"` line under a pending non-empty name records the pair. */
  lemma VersionLineRecords(deps: Dict, name: string, version: string)
    requires UniqueKeys(deps) && name != [] && Unquoted(version)
    ensures LockStep(LockScan(deps, Some(name)), VersionLine(version)) == LockScan(Put(deps, name, version), None)
  {
    VersionLineReads(version);
  }

  /** A `name = "n"` line followed by a `version = "v"` line records `n` at version `v`. */
  lemma LockRecordsPair(before: seq<string>, name: string, version: string)
    requires name != [] && Unquoted(name) && Unquoted(version)
    ensures ScanLock(before + [NameLine(name), VersionLine(version)]) == LockScan(Put(ParseLock(before), name, version), None)
  {
    var nl := NameLine(name);
    var vl := VersionLine(version);
    var lines := before + [nl, vl];
    assert lines[..|lines| - 1] == before + [nl];
    assert (before + [nl])[..|before|] == before;
    NameLineArms(ScanLock(before), name);
    assert ScanLock(before + [nl]) == LockScan(ParseLock(before), Some(name));
    VersionLineRecords(ParseLock(before), name, version);
  }

  /** A `version = ` line with no name pending is ignored, as is the lock file's own `version = 1` header. */
  lemma LockVersionWithoutName(before: seq<string>, line: string)
    requires !Truthy(ScanLock(before).pending)
    requires !StartsWith(Strip(line), NameKey)
    ensures ScanLock(before + [line]) == ScanLock(before)
  {
    assert (before + [line])[..|before|] == before;
  }

  // ---------------------------------------------------------------------------
  // pyproject.toml
  // ---------------------------------------------------------------------------

  /** The characters of `[a-zA-Z0-9_-]`. */
  predicate IsNameChar(c: char) {
    IsAlnumChar(c) || c == '_' || c == '-'
  }

  /** The longest prefix made of name characters. */
  function NameSpan(s: string): (r: string)
    ensures StartsWith(s, r)
    ensures forall i :: 0 <= i < |r| ==> IsNameChar(r[i])
    ensures |r| < |s| ==> !IsNameChar(s[|r|])
  {
    if s == [] || !IsNameChar(s[0]) then []
    else
      var rest := NameSpan(s[1..]);
      assert s[..1 + |rest|] == [s[0]] + s[1..][..|rest|];
      [s[0]] + rest
  }

  /** A run of name characters followed by a non-name character is exactly the span. */
  lemma NameSpanExact(a: string, b: string)
    requires forall i :: 0 <= i < |a| ==> IsNameChar(a[i])
    requires b != [] ==> !IsNameChar(b[0])
    ensures NameSpan(a + b) == a
  {
    if a != [] {
      assert (a + b)[1..] == a[1..] + b;
      NameSpanExact(a[1..], b);
    }
  }

  /** The optional `[extras]` group: skipped when a `]` closes it, kept otherwise. */
  function SkipExtras(s: string): (r: string)
    ensures |r| <= |s|
  {
    if s == [] || s[0] != '[' then s
    else
      var inside := UpToChar(s[1..], ']');
      if |inside| < |s[1..]| then s[2 + |inside|..] else s
  }

  /**
   * One line of `pyproject.toml` against the pattern
   * `^\s*"([a-zA-Z0-9_-]+)(?:\[[^\]]*\])?\s*==\s*([^"]+)"`:
   * the name with any extras dropped, and the text up to the closing quote as the version.
   */
  function PyprojectLine(line: string): (r: Option<(string, string)>)
    ensures r.Some? ==> IsNormalName(r.value.0) && r.value.0 != []
  {
    var s := TrimLeft(line, Whitespace);
    if s == [] || s[0] != '"' then None else PinAfterQuote(s[1..])
  }

  /** The pattern after the opening quote: the name, then the optional extras. */
  function PinAfterQuote(b: string): (r: Option<(string, string)>)
    ensures r.Some? ==> IsNormalName(r.value.0) && r.value.0 != []
  {
    var name := NameSpan(b);
    if name == [] then None else PinAfterName(name, SkipExtras(b[|name|..]))
  }

  /** The pattern after the name and extras: blanks, `==`, blanks, and the version up to the closing quote. */
  function PinAfterName(name: string, rest: string): (r: Option<(string, string)>)
    ensures r.Some? ==> r.value.0 == NormalizeName(name)
  {
    var t := TrimLeft(rest, Whitespace);
    if !StartsWith(t, "==") then None
    else
      var raw := UpToChar(t[2..], '"');
      if raw == [] || |raw| == |t[2..]| then None
      else Some((NormalizeName(name), Strip(raw)))
  }

  /** The extras group `[e]`, or nothing. */
  function ExtrasText(extras: Option<string>): string {
    match extras
    case None => []
    case Some(e) => "[" + e + "]"
  }

  /** How a pinned dependency is written: `"name[extras]==version"`, indented. */
  function PinLine(indent: string, name: string, extras: Option<string>, version: string): string {
    indent + "\"" + name + ExtrasText(extras) + "==" + version + "\""
  }

  /** `==version"`: the version runs up to the closing quote. */
  lemma PinTailReads(name: string, version: string)
    requires version != [] && '"' !in version
    ensures PinAfterName(name, "==" + version + "\"") == Some((NormalizeName(name), Strip(version)))
  {
    var tail := "==" + version + "\"";
    PinTailShape(version);
    UpToCharExact(version, '"', []);
  }

  /** `==version"` keeps its front when left-stripped, and the version follows the `==`. */
  lemma PinTailShape(version: string)
    ensures var tail := "==" + version + "\"";
      TrimLeft(tail, Whitespace) == tail && StartsWith(tail, "==") && tail[2..] == version + ['"'] + []
  {
    var tail := "==" + version + "\"";
    assert tail[0] == '=' && '=' !in Whitespace;
    assert tail[..2] == "==";
    assert tail[2..] == version + ['"'] + [];
  }

  /** A closed extras group in front of `==` is skipped; without one nothing is. */
  lemma SkipExtrasExact(extras: Option<string>, tail: string)
    requires extras.Some? ==> ']' !in extras.value
    requires tail != [] && tail[0] == '='
    ensures SkipExtras(ExtrasText(extras) + tail) == tail
  {
    match extras {
      case None =>
      case Some(e) =>
        var t := ExtrasText(extras) + tail;
        assert t[1..] == e + [']'] + tail;
        UpToCharExact(e, ']', tail);
        assert t[2 + |e|..] == tail;
    }
  }

  /** A pinned dependency reads back as its normalised name and stripped version, with extras dropped. */
  lemma PyprojectLineRoundTrip(indent: string, name: string, extras: Option<string>, version: string)
    requires forall i :: 0 <= i < |indent| ==> indent[i] in Whitespace
    requires name != [] && forall i :: 0 <= i < |name| ==> IsNameChar(name[i])
    requires extras.Some? ==> ']' !in extras.value
    requires version != [] && '"' !in version
    ensures PyprojectLine(PinLine(indent, name, extras, version)) == Some((NormalizeName(name), Strip(version)))
  {
    var tail := "==" + version + "\"";
    var b := name + (ExtrasText(extras) + tail);
    PinLineShape(indent, name, extras, version);
    PinLineOpens(indent, b);
    PinNameReads(name, extras, tail);
    PinTailReads(name, version);
  }

  /** The rendered line, grouped as the parser reads it. */
  lemma PinLineShape(indent: string, name: string, extras: Option<string>, version: string)
    ensures PinLine(indent, name, extras, version) == indent + (['"'] + (name + (ExtrasText(extras) + ("==" + version + "\""))))
  {
  }

  /** Blanks and the opening quote are read past. */
  lemma PinLineOpens(indent: string, b: string)
    requires forall i :: 0 <= i < |indent| ==> indent[i] in Whitespace
    ensures PyprojectLine(indent + (['"'] + b)) == PinAfterQuote(b)
  {
    TrimLeftExact(indent, ['"'] + b, Whitespace);
    assert (['"'] + b)[1..] == b;
  }

  /** After the opening quote, the name is read whole and the extras are skipped. */
  lemma PinNameReads(name: string, extras: Option<string>, tail: string)
    requires name != [] && forall i :: 0 <= i < |name| ==> IsNameChar(name[i])
    requires extras.Some? ==> ']' !in extras.value
    requires tail != [] && tail[0] == '='
    ensures PinAfterQuote(name + (ExtrasText(extras) + tail)) == PinAfterName(name, tail)
  {
    var ex := ExtrasText(extras);
    assert (ex + tail)[0] == if extras.Some? then '[' else '=';
    NameSpanExact(name, ex + tail);
    assert (name + (ex + tail))[|name|..] == ex + tail;
    SkipExtrasExact(extras, tail);
  }

  /** Extras never change the key a dependency is recorded under. */
  lemma ExtrasDropped(indent: string, name: string, extras: string, version: string)
    requires forall i :: 0 <= i < |indent| ==> indent[i] in Whitespace
    requires name != [] && forall i :: 0 <= i < |name| ==> IsNameChar(name[i])
    requires ']' !in extras
    requires version != [] && '"' !in version
    ensures PyprojectLine(PinLine(indent, name, Some(extras), version)) == PyprojectLine(PinLine(indent, name, None, version))
  {
    PyprojectLineRoundTrip(indent, name, Some(extras), version);
    PyprojectLineRoundTrip(indent, name, None, version);
  }

  /** The pins of `pyproject.toml`, in file order. */
  function PyprojectEntries(lines: seq<string>): seq<(string, string)> {
    if lines == [] then []
    else
      var rest := PyprojectEntries(lines[..|lines| - 1]);
      match PyprojectLine(lines[|lines| - 1])
      case None => rest
      case Some(e) => rest + [e]
  }

  /** `parse_pyproject_versions` */
  function ParsePyproject(lines: seq<string>): (r: Dict)
    ensures UniqueKeys(r)
  {
    PutAll([], PyprojectEntries(lines))
  }

  /** Every `requirements.txt` key is a normalised name. */
  lemma {:induction false} RequirementKeysNormalized(lines: seq<string>)
    ensures NormalizedKeys(RequirementEntries(lines))
  {
    if lines != [] {
      RequirementKeysNormalized(lines[..|lines| - 1]);
    }
  }

  /** Every `pyproject.toml` key is a normalised name. */
  lemma {:induction false} PyprojectKeysNormalized(lines: seq<string>)
    ensures NormalizedKeys(PyprojectEntries(lines))
  {
    if lines != [] {
      PyprojectKeysNormalized(lines[..|lines| - 1]);
    }
  }

  // ---------------------------------------------------------------------------
  // Comparison
  // ---------------------------------------------------------------------------

  datatype Source = RequirementsTxt | PyprojectToml

  datatype VersionError =
    | NotInLock(source: Source, name: string, version: string)
    | Mismatch(source: Source, name: string, version: string, lockVersion: string)

  /** The lock pins `name` at exactly `version`. */
  predicate Agrees(lock: Dict, name: string, version: string) {
    Get(lock, name) == Some(version)
  }

  /** The error, if any, for one pinned package. */
  function ErrorFor(source: Source, name: string, version: string, lock: Dict): (r: Option<VersionError>)
    ensures r.None? <==> Agrees(lock, name, version)
    ensures r.Some? ==> r.value.source == source && r.value.name == name && r.value.version == version
    ensures r.Some? ==> (r.value.NotInLock? <==> Get(lock, name).None?)
    ensures r.Some? && r.value.Mismatch? ==> Get(lock, name) == Some(r.value.lockVersion) && r.value.lockVersion != version
  {
    match Get(lock, name)
    case None => Some(NotInLock(source, name, version))
    case Some(lockVersion) =>
      if lockVersion != version then Some(Mismatch(source, name, version, lockVersion)) else None
  }

  /** The errors for every package of one file, in the file's order. */
  function Compare(source: Source, d: Dict, lock: Dict): (errs: seq<VersionError>)
    ensures |errs| <= |d|
    ensures forall e :: e in errs ==> e.source == source
    ensures forall e :: e in errs ==> exists i :: 0 <= i < |d| && ErrorFor(source, d[i].0, d[i].1, lock) == Some(e)
    ensures forall i :: 0 <= i < |d| && !Agrees(lock, d[i].0, d[i].1) ==> ErrorFor(source, d[i].0, d[i].1, lock).value in errs
    ensures UniqueKeys(d) ==> forall i, j :: 0 <= i < j < |errs| ==> errs[i].name != errs[j].name
  {
    if d == [] then []
    else
      var init := d[..|d| - 1];
      var last := d[|d| - 1];
      var errs := Compare(source, init, lock);
      assert forall i :: 0 <= i < |init| ==> init[i] == d[i];
      match ErrorFor(source, last.0, last.1, lock)
      case None => errs
      case Some(e) =>
        if UniqueKeys(d) then
          assert d == init + [last];
          NamesBeforeLast(source, init, last, errs, lock);
          errs + [e]
        else errs + [e]
  }

  /** Errors drawn from the packages before the last one never name the last one. */
  lemma NamesBeforeLast(source: Source, init: Dict, last: (string, string), errs: seq<VersionError>, lock: Dict)
    requires UniqueKeys(init + [last])
    requires forall e :: e in errs ==> exists i :: 0 <= i < |init| && ErrorFor(source, init[i].0, init[i].1, lock) == Some(e)
    ensures forall x :: x in errs ==> x.name != last.0
  {
    var d := init + [last];
    forall x | x in errs ensures x.name != last.0 {
      var i :| 0 <= i < |init| && ErrorFor(source, init[i].0, init[i].1, lock) == Some(x);
      assert d[i] == init[i] && d[|init|] == last;
    }
  }

  /** Every package of a file agrees with the lock. */
  predicate AllAgree(d: Dict, lock: Dict) {
    forall i :: 0 <= i < |d| ==> Agrees(lock, d[i].0, d[i].1)
  }

  /** A file yields no errors exactly when all its packages agree with the lock. */
  lemma CompareEmptyIff(source: Source, d: Dict, lock: Dict)
    ensures Compare(source, d, lock) == [] <==> AllAgree(d, lock)
  {
    var errs := Compare(source, d, lock);
    if errs != [] {
      assert errs[0] in errs;
    }
  }

  /** What the script reports: the three dictionaries, the errors and the exit status. */
  datatype Report = Report(pyproject: Dict, lock: Dict, requirements: Dict, errors: seq<VersionError>, status: int)

  /**
   * `main`: requirements pins are compared first, then pyproject pins; the
   * exit status is 1 when there is any error and 0 otherwise.
   */
  function VerifyVersions(pyproject: seq<string>, lock: seq<string>, requirements: Option<seq<string>>): (r: Report)
    ensures r.pyproject == ParsePyproject(pyproject) && r.lock == ParseLock(lock) && r.requirements == ParseRequirements(requirements)
    ensures r.errors == Compare(RequirementsTxt, r.requirements, r.lock) + Compare(PyprojectToml, r.pyproject, r.lock)
    ensures r.status == 0 || r.status == 1
    ensures r.status == 1 <==> r.errors != []
  {
    var py := ParsePyproject(pyproject);
    var lk := ParseLock(lock);
    var reqs := ParseRequirements(requirements);
    var errors := Compare(RequirementsTxt, reqs, lk) + Compare(PyprojectToml, py, lk);
    Report(py, lk, reqs, errors, if errors != [] then 1 else 0)
  }

  /** The script passes exactly when every pinned package of both files agrees with the lock. */
  lemma PassesIffAllAgree(pyproject: seq<string>, lock: seq<string>, requirements: Option<seq<string>>)
    ensures var r := VerifyVersions(pyproject, lock, requirements);
      r.status == 0 <==> AllAgree(r.requirements, r.lock) && AllAgree(r.pyproject, r.lock)
  {
    var r := VerifyVersions(pyproject, lock, requirements);
    CompareEmptyIff(RequirementsTxt, r.requirements, r.lock);
    CompareEmptyIff(PyprojectToml, r.pyproject, r.lock);
  }

  /** Each error names a package pinned in the file it blames, at the version pinned there. */
  lemma ErrorsNamePins(pyproject: seq<string>, lock: seq<string>, requirements: Option<seq<string>>)
    ensures var r := VerifyVersions(pyproject, lock, requirements);
      forall e :: e in r.errors ==>
        Get(if e.source == RequirementsTxt then r.requirements else r.pyproject, e.name) == Some(e.version)
  {
    var r := VerifyVersions(pyproject, lock, requirements);
    var reqErrors := Compare(RequirementsTxt, r.requirements, r.lock);
    var pyErrors := Compare(PyprojectToml, r.pyproject, r.lock);
    forall e | e in r.errors
      ensures Get(if e.source == RequirementsTxt then r.requirements else r.pyproject, e.name) == Some(e.version)
    {
      if e in reqErrors {
        ComparePins(RequirementsTxt, r.requirements, r.lock, e);
      } else {
        assert e in pyErrors;
        ComparePins(PyprojectToml, r.pyproject, r.lock, e);
      }
    }
  }

  /** An error of one file's comparison blames that file and names one of its pins. */
  lemma ComparePins(source: Source, d: Dict, lock: Dict, e: VersionError)
    requires UniqueKeys(d) && e in Compare(source, d, lock)
    ensures e.source == source && Get(d, e.name) == Some(e.version)
  {
    UniqueGet(d);
    var i :| 0 <= i < |d| && ErrorFor(source, d[i].0, d[i].1, lock) == Some(e);
  }

  /** Within one file, no package is reported twice. */
  lemma OneErrorPerPackage(pyproject: seq<string>, lock: seq<string>, requirements: Option<seq<string>>)
    ensures var r := VerifyVersions(pyproject, lock, requirements);
      forall i, j :: 0 <= i < j < |r.errors| && r.errors[i].source == r.errors[j].source ==> r.errors[i].name != r.errors[j].name
  {
    var r := VerifyVersions(pyproject, lock, requirements);
    BothFilesDistinct(r.requirements, r.pyproject, r.lock);
  }

  /** Errors of the two files, one after the other: a name repeats only across files. */
  lemma BothFilesDistinct(reqs: Dict, py: Dict, lock: Dict)
    requires UniqueKeys(reqs) && UniqueKeys(py)
    ensures var errs := Compare(RequirementsTxt, reqs, lock) + Compare(PyprojectToml, py, lock);
      forall i, j :: 0 <= i < j < |errs| && errs[i].source == errs[j].source ==> errs[i].name != errs[j].name
  {
    var reqErrors := Compare(RequirementsTxt, reqs, lock);
    var pyErrors := Compare(PyprojectToml, py, lock);
    var errs := reqErrors + pyErrors;
    forall k | 0 <= k < |reqErrors| ensures reqErrors[k].source == RequirementsTxt {
      assert reqErrors[k] in reqErrors;
    }
    forall k | 0 <= k < |pyErrors| ensures pyErrors[k].source == PyprojectToml {
      assert pyErrors[k] in pyErrors;
    }
    forall i, j | 0 <= i < j < |errs|
      ensures errs[i].source == errs[j].source ==> errs[i].name != errs[j].name
    {
      if j < |reqErrors| {
        assert errs[i] == reqErrors[i] && errs[j] == reqErrors[j];
      } else if i >= |reqErrors| {
        assert errs[i] == pyErrors[i - |reqErrors|] && errs[j] == pyErrors[j - |reqErrors|];
      } else {
        assert errs[i] == reqErrors[i] && errs[j] == pyErrors[j - |reqErrors|];
      }
    }
  }
}

=== FILE: wrappers.dfy ===
/** Failure-compatible result types shared by every module of the model. */
module Wrappers {

  /** Python's `X | None`: a value that may be absent. */
  datatype Option<+T> = None | Some(value: T) {

    /** The wrapped value, or `default` when absent. */
    function GetOr(default: T): T {
      match this
      case Some(v) => v
      case None => default
    }
  }

  /** A value or an error; errors stand for the exceptions the source raises. */
  datatype Result<+T, +E> = Ok(value: T) | Err(error: E) {

    predicate IsFailure() {
      Err?
    }

    function PropagateFailure<U>(): Result<U, E>
      requires Err?
    {
      Err(error)
    }

    function Extract(): T
      requires Ok?
    {
      value
    }
  }
}
